=== FILE: README.md ===
# changelog site builder: a verified model

This project models the logic of the changelog site builder. The builder turns a
site's changelog entries into a static web site and emails: it loads the
site's data from a file or from the API, compiles the Handlebars templates,
renders the index, search, entry pages and emails, and fingerprints the
static assets. Its development server serves the result, forwards API calls
and rebuilds on changes. The model also covers the browser-side helpers of
the search page and the compact number rendering.

The modules follow the source files:

- `Wrappers`, `Strings`, `Json` and `Paths` (common.dfy) hold shared building blocks.
  They cover `Option`/`Result`, splitting and joining text, decimal digits,
  JavaScript truthiness and the `path` functions used.
- `Assets` (assets.dfy) models the asset fingerprint cache of src/js/handlebars.mjs.
  It covers `generateFileSSRI`, `compileCSSAndFixHTML` and the `script` helper.
  A class `AssetPipeline` holds the files, the process-wide cache and the
  effects, and its methods are proved against the function `Generate`.
- `Helpers` (helpers.dfy) models the template helpers that carry logic: `include`
  with its theme override, and the array, arithmetic and `author` helpers.
- `Util` (util.dfy) covers `findBin`, `apiRequest`, `ensureDir` on a file
  system of paths, the `exec` verdict, `debugLog` and `verbose`.
- `Build` (build.dfy) models the `build` command of src/js/build.mjs as an
  ordered list of effects: directories made, data read or fetched, the
  stylesheet step of `registerHelpers` with its `node_modules` link and
  tailwind configuration, templates compiled, pages and emails rendered.
- `Dev` (dev.dfy) models the development server of src/js/dev.mjs: header
  filtering, the request forwarder, the `/entries` and static routes with
  entity tags, and the watcher's choice of rebuild.
- `Compact` (compact.dfy) models `compactInteger` of src/web/global.js.
- `SearchPage` (search.dfy) models the search page's URL parameter reading,
  search term navigation, the filter list and the search filter expression.

External programs and services are parameters of the model. These include
SHA-1, the SSRI digest, the CSS and JS minifiers, the API, JSON
serialisation, `decodeURIComponent`, MIME lookup and URL host parsing.

## Model

| member | source | states |
|---|---|---|
| Strings.ContainsIff | src/js/dev.mjs:213 | `includes` holds exactly when the part occurs at some position |
| Strings.JoinAppend | src/js/util.mjs:87 | joining one more part appends the separator and the part |
| Strings.Split | src/js/handlebars.mjs:133 | a split always yields at least one piece |
| Strings.SplitPiecesFree | src/js/handlebars.mjs:133 | no piece of a split holds the separator |
| Strings.SplitCount | src/js/handlebars.mjs:133 | a split has more than one piece exactly when the separator occurs |
| Strings.SplitJoin | src/js/handlebars.mjs:133-137 | joining the pieces of a split with the separator gives the text back |
| Strings.FirstPieceAndRest | src/js/handlebars.mjs:133-137 | the first piece, the separator and the rest joined give the text back, and the first piece holds no separator |
| Strings.RemoveAll | src/js/handlebars.mjs:135-137 | the result holds none of the removed characters and is no longer than the text |
| Strings.RemoveAllConcat | src/js/handlebars.mjs:135-137 | removing characters distributes over concatenation |
| Strings.RemoveAllNone | src/js/handlebars.mjs:135-137 | a text holding none of the removed characters is unchanged |
| Strings.NatToString | src/web/global.js:10 | the decimal text of a number is never empty |
| Strings.NatToStringDigits | src/web/global.js:10 | every character of the decimal text is a digit, and it starts with `0` exactly for 0 |
| Strings.NatToStringRoundTrip | src/web/global.js:10 | parsing the decimal text gives the number back |
| Strings.NatToStringInjective | src/js/handlebars.mjs:370 | different indices have different decimal keys |
| Strings.PrefixOfDigits | src/web/global.js:35-44 | the leading `len - k` digits of a number are the digits of the number with `k` digits dropped |
| Strings.DropDigitsBounds | src/web/global.js:35-44 | dropping `k` digits gives `w` with `w * 10^k <= n < (w + 1) * 10^k` |
| Strings.DigitCountBounds | src/web/global.js:10-11 | a number of at least `10^k` has more than `k` digits, and one below `10^k` at most `k` |
| Json.Get | src/js/handlebars.mjs:338-339 | a missing key reads as `undefined` |
| Paths.LastIndexOf | src/js/handlebars.mjs:132 | the index holds `c` and no later position does; none exactly when `c` does not occur |
| Paths.Basename | src/js/handlebars.mjs:132 | the base name holds no `/` and ends the path |
| Paths.Dirname | src/js/build.mjs:231-233 | the directory, `/` and the base name give the path back |
| Paths.LastIndexOfAfter | src/js/build.mjs:231-233 | appending a name without `c` keeps the last index of `c` |
| Paths.DirnameOfJoin | src/js/build.mjs:231-233 | the directory of `dir/name` is `dir` when `name` holds no `/` |
| Paths.BasenameOfJoin | src/js/handlebars.mjs:132 | the base name of a name without `/` joined onto a directory is that name |
| Paths.Extname | src/js/handlebars.mjs:117 | the extension is empty or starts with `.` |
| Paths.ExtnameOfBasename | src/js/handlebars.mjs:117 | as `path.extname`: empty exactly when the base name has no `.` past its first character or is `..`, otherwise the base name's tail from its last `.`, holding no other `.` |
| Paths.FirstPresent | src/js/util.mjs:73-83 | the first candidate that exists, with none before it; none when no candidate exists |
| Assets.ResolveSource | src/js/handlebars.mjs:103-109 | the source is the explicit file or the theme file, else the base file, whichever exists first; otherwise an error naming the base path |
| Assets.TransformContents | src/js/handlebars.mjs:117-126 | `.css` goes through the CSS compiler, `.js` through the JS compressor, anything else is unchanged; a failing tool is an error |
| Assets.Head6 | src/js/handlebars.mjs:132-137 | the first six characters of a digest |
| Assets.Tail6 | src/js/handlebars.mjs:132-137 | the last six characters of a digest |
| Assets.OutputNameIsSafe | src/js/handlebars.mjs:132-137 | a fingerprinted name holds no `/`, `=` or `+` |
| Assets.Relpath | src/js/handlebars.mjs:138-139 | the served path starts with `/` and ends with the name after the static directory's base name |
| Assets.CacheHitChangesNothing | src/js/handlebars.mjs:111-116 | a cache hit returns the stored entry and changes no file, no cache entry and no effect |
| Assets.MissWritesOnce | src/js/handlebars.mjs:117-144 | a successful miss runs the minifier once for `.css`/`.js`, digests the transformed text, writes it once under the fingerprinted name and stores one entry |
| Assets.MissIsFill | src/js/handlebars.mjs:111-116 | a call that misses the cache is the miss branch on the resolved path and its key |
| Assets.FillWrites | src/js/handlebars.mjs:117-144 | the miss branch's entry, its one written file and its effects |
| Assets.SecondCallHits | src/js/handlebars.mjs:111-116 | a second request for the same asset returns the same entry and changes nothing |
| Assets.NameEmbedsSourceHash | src/js/handlebars.mjs:132-137 | the name carries the first six characters of the source SHA-1 right after the first base-name piece and a dot |
| Assets.RemoveAllAround | src/js/handlebars.mjs:137 | filtering around a part free of the removed characters keeps that part whole |
| Assets.DistinctSourceHashesDistinctPaths | src/js/handlebars.mjs:132-139 | two source digests differing in their first six characters give two served paths that differ |
| Assets.EditedSourceBustsCache | src/js/handlebars.mjs:111-144 | after an edit that changes the source digest, the next request misses, writes a new file and serves a different path |
| Assets.SecondRequestMisses | src/js/handlebars.mjs:111-116 | after a first request, an edit that changes the digest sends the next request to the miss branch |
| Assets.DistinctKeys | src/js/handlebars.mjs:112 | different digests give different cache keys for one path |
| Assets.FirstMiss | src/js/handlebars.mjs:113-144 | a first request on an empty cache stores one key and adds one file |
| Assets.FillEntry | src/js/handlebars.mjs:132-144 | a successful miss serves the name built from the source digest and ends with a write |
| Assets.EditedSourceMisses | src/js/handlebars.mjs:103-116 | after the first write, an edited source resolves to the same path and misses |
| Assets.ResolveFrame | src/js/handlebars.mjs:103-109 | the lookup depends only on which candidate paths exist |
| Assets.GlobalCss | src/js/handlebars.mjs:27-38 | the stylesheet is `global.css`, the default theme, the theme's own `theme.css` if present, then the icon CSS; a missing required file is an error |
| Assets.GlobalCssTransforms | src/js/handlebars.mjs:39-48 | the stylesheet written as `static/global.css` has the extension `.css`, so fingerprinting it runs the CSS compiler |
| Assets.CompileCssInFreshProcess | src/js/handlebars.mjs:26-54 | with nothing cached, the stylesheet step's effects and globals are those of `FreshStylesheet`: no effect and the read error when a required stylesheet is missing; otherwise the concatenation written, compiled and written under its fingerprinted name, whose path and digest are the globals; a missing stylesheet leaves the state unchanged |
| Assets.CompileCssMiss | src/js/handlebars.mjs:39-54 | once the concatenation exists: a failing CSS compiler leaves the written `global.css` and an error; otherwise the new state holds the fingerprinted file, one cache entry and three effects, and the globals are that entry's path and digest |
| Assets.AssetPipeline.constructor | src/js/handlebars.mjs:15 | a process starts with an empty cache and no effects |
| Assets.AssetPipeline.GenerateFileSsri | src/js/handlebars.mjs:95-145 | the new files, cache and effects and the result are those of `Generate` on the old state |
| Assets.AssetPipeline.Miss | src/js/handlebars.mjs:117-144 | the new state and result are those of the miss branch on the old state |
| Assets.AssetPipeline.CompileCssAndFixHtml | src/js/handlebars.mjs:26-54 | a read error changes nothing; otherwise `global.css` is written, then fingerprinted with the static file as the explicit source, and its path and digest become the globals |
| Assets.ScriptTwice | src/js/handlebars.mjs:407-421 | two `script` helpers for one asset give the same entry and leave the state one call leaves |
| Helpers.ChooseTemplate | src/js/handlebars.mjs:338-367 | the override is used when taken; otherwise the first existing fallback; a non-text `src` is an error; the chosen file exists; when no file exists, a `../../` name fails as not found with the rewritten web path, any other as a failed read of the legacy path |
| Helpers.HashContext | src/js/handlebars.mjs:370 | an object context spreads its fields; an array spreads its elements and a string its one-character strings, each under its index in decimal, and no other key; anything else spreads nothing |
| Helpers.IndexProps | src/js/handlebars.mjs:370 | each index in decimal maps to its element, and every key is such an index |
| Helpers.CopyExtras | src/js/handlebars.mjs:374-377 | the loop leaves the context with every hash argument except `src` and `context` copied over it |
| Helpers.HashExtras | src/js/handlebars.mjs:368-376 | the extra arguments are all hash keys except `src` and `context` |
| Helpers.IncludeContext | src/js/handlebars.mjs:368-376 | the context's keys and which source wins for each key |
| Helpers.Include | src/js/handlebars.mjs:337-380 | the error of the file choice, or the chosen file with the context of `IncludeContext` |
| Helpers.OverrideIsSingleHop | src/js/handlebars.mjs:341-351 | inside an override's rendering, no include takes an override again |
| Helpers.InsideOverrideFlag | src/js/handlebars.mjs:341-351 | the context's `insideOverride` is true exactly when the override was taken |
| Helpers.First | src/js/handlebars.mjs:243-249 | the first element, `undefined` for an empty array, an error for a non-array |
| Helpers.Last | src/js/handlebars.mjs:313-319 | the last element, `undefined` for an empty array, an error for a non-array |
| Helpers.Len | src/js/handlebars.mjs:299-305 | the array's length, 0 for anything else |
| Helpers.Empty | src/js/handlebars.mjs:306-312 | true exactly when `len` is 0 |
| Helpers.SliceBound | src/js/handlebars.mjs:320-336 | a slice bound counts back from the end when negative and is clamped to the array |
| Helpers.After | src/js/handlebars.mjs:320-329 | `length` elements from `index`, or all of the rest without a length; an error for a non-array |
| Helpers.Pick | src/js/handlebars.mjs:330-336 | element `offset + index` when it exists, `undefined` otherwise; an error for a non-array |
| Helpers.Add | src/js/handlebars.mjs:250-256 | an error exactly when `isNaN` rejects an operand; the two texts joined when either operand is numeric text; otherwise the sum of the numbers `null`, booleans and numbers read as |
| Helpers.Subtract | src/js/handlebars.mjs:257-263 | an error exactly when `isNaN` rejects an operand; otherwise the difference of the numbers the operands read as, text included |
| Helpers.TextAddsAsText | src/js/handlebars.mjs:250-263 | `add "3" 4` gives `"34"` while `subtract "5" 2` gives 3, and `add null true` gives 1 |
| Helpers.Author | src/js/handlebars.mjs:472-479 | the authors' full names joined by ` and `, empty without authors |
| Helpers.Names | src/js/handlebars.mjs:472-479 | one full name per author, in order |
| Helpers.AuthorAppend | src/js/handlebars.mjs:472-479 | one more author appends ` and ` and that author's name |
| Util.BinCandidates | src/js/util.mjs:73-83 | one candidate `node_modules/.bin/name` per directory, in order |
| Util.FindBin | src/js/util.mjs:73-83 | the first candidate that exists, or an error naming every directory |
| Util.ApiRequest | src/js/util.mjs:50-58 | success exactly for status 200 with a truthy `success`, giving the object without `success`; otherwise the server's message or a default naming the path |
| Util.ApiRequestDropsOnlySuccess | src/js/util.mjs:55-57 | putting `success` back gives the server's object |
| Util.Parent | src/js/util.mjs:24-28 | a parent directory is shorter than its child |
| Util.Ancestors | src/js/util.mjs:24-28 | the directories `mkdir -p` creates include the directory itself |
| Util.EnsureDirSpec | src/js/util.mjs:24-28 | after `ensureDir` the directory exists and nothing is removed; an existing directory changes nothing; only the directory and its ancestors are added |
| Util.AncestorsClosed | src/js/util.mjs:24-28 | every created directory's parent is created too |
| Util.EnsureDirKeepsParentsClosed | src/js/util.mjs:24-28 | `ensureDir` keeps every path's parent present |
| Util.EnsureDirIdempotent | src/js/util.mjs:24-28 | a second `ensureDir` of the same directory changes nothing |
| Util.FileSystem.constructor | src/js/util.mjs:24-28 | a file system starts with the given paths |
| Util.FileSystem.EnsureDir | src/js/util.mjs:24-28 | the new paths are those `EnsureDirSpec` gives for the old ones |
| Util.CommandAppend | src/js/util.mjs:87 | each further argument adds a space and the argument to the command line |
| Util.ExecResult | src/js/util.mjs:85-98 | stdout exactly when there is no process error and no stderr; the process error first, then stderr |
| Util.DebugLog | src/js/util.mjs:60-66 | nothing unless debugging; the marked message, then the serialised object when it is truthy and non-empty |
| Util.Verbose | src/js/util.mjs:68-69 | nothing when quiet, otherwise the marked message |
| Build.ApiField | src/js/build.mjs:99 | a site name with a dot is looked up by hostname, any other by slug |
| Build.SiteUrl | src/js/build.mjs:107-111 | `https://` then the custom hostname when set, else `slug.changelog.so` |
| Build.BuildDirs | src/js/build.mjs:116-125 | the theme directory is the `theme` flag or the base theme, and the output is the `output` flag |
| Build.TemplatePaths | src/js/build.mjs:17-30 | one candidate per search directory, in order |
| Build.CreateTemplate | src/js/build.mjs:17-30 | a template found in some search directory, or an error exactly when none holds it |
| Build.CompileTemplates | src/js/build.mjs:137-152 | all wanted templates compile, in order, exactly when every one is found |
| Build.PageAndEmailDirs | src/js/build.mjs:221-271 | the directory made before a page or an email is the one it is written into |
| Build.Generate | src/js/build.mjs:273-300 | the actions are those of `GeneratePlan` |
| Build.EntryBlock | src/js/build.mjs:273-300 | each changelog's work is one contiguous block after the work of those before it |
| Build.EntriesPlanHasNoIndex | src/js/build.mjs:273-300 | the entries render no index or search page, no email when emails are off, no page without a page template |
| Build.IndexAndSearchFirst | src/js/build.mjs:187-219 | with the index wanted, the index and search pages come first; without it, neither is rendered |
| Build.PageBeforeEmail | src/js/build.mjs:221-271 | each changelog's page is rendered before its email, at its own paths |
| Build.EmailIffWanted | src/js/build.mjs:239-271 | a changelog's email is rendered exactly when emails are wanted, its page exactly when there is a page template |
| Build.LoadData | src/js/build.mjs:96-105 | with `file` given, the input file's data, succeeding exactly when the file exists and holds valid data, failing as missing or as bad input otherwise, with no fetch and no save; without it, the API's answer for the site's list URL, succeeding exactly when the API does, failing with its message otherwise, fetched and, on success, saved as `data.json` |
| Build.Stylesheet | src/js/handlebars.mjs:164-204 | an existing `node_modules` link is an error before anything is done; otherwise the link, the tailwind configuration write, the stylesheet step's effects and the link's removal, succeeding exactly when the stylesheet step does, with its globals or its error |
| Build.RenderSite | src/js/build.mjs:127-162 | after the data load nothing is read, fetched or saved as data, and a success gives the site URL |
| Build.Run | src/js/build.mjs:92-163 | with `flags` passed to `registerHelpers`: the theme and output directories are made first, and a success gives the site URL of the loaded data |
| Build.RunAfterLoad | src/js/build.mjs:92-163 | once the data loads, the build's actions are the preparation's followed by those of the steps after it, and its result is theirs |
| Build.RunSucceedsIffSourcesFound | src/js/build.mjs:92-163 | with `flags` passed to `registerHelpers`, a build succeeds exactly when its data loads, the `node_modules` link is not there yet, the stylesheet step succeeds and every wanted template is found |
| Build.RenderSiteSucceedsIff | src/js/build.mjs:127-162 | the steps after the data load succeed exactly when the link is not there yet, the stylesheet step succeeds and every wanted template is found |
| Build.RunCleansUp | src/js/handlebars.mjs:186-204 | every `node_modules` link the build makes is removed later, whether or not the stylesheet compiles; a successful build writes the tailwind configuration and, in the model's sequential order, its last action removes it, the `shutdown` of src/js/build.mjs:162 |
| Build.RenderSiteCleansUp | src/js/handlebars.mjs:186-204 | the same for the steps after the data load, in the model's sequential order |
| Build.MissingStylesheetStopsBuild | src/js/handlebars.mjs:26-33 | once the data loads, a missing `global.css` or default theme stylesheet fails the build with that path, its last action removes the link, and no template is compiled |
| Build.StylesheetFailureStops | src/js/handlebars.mjs:198-204 | a failed stylesheet step ends the steps after the data load with the link's removal, with the step's error and nothing compiled |
| Build.AsWrittenRunStopsAtHelpers | src/js/build.mjs:127-135 | as written, every build fails: after loading the data and making the static and email directories it stops at `registerHelpers`, having compiled and rendered nothing |
| Build.DataJsonOnlyFromApi | src/js/build.mjs:96-105 | `data.json` is written and the API called only when no input file is given |
| Build.CompiledOnly | src/js/build.mjs:137-152 | compiling produces only compile actions |
| Build.GenerateWritesNoData | src/js/build.mjs:273-300 | generating writes no data and calls no API |
| Build.EntriesWriteNoData | src/js/build.mjs:221-271 | the entries write no data and call no API |
| Build.EmailOnlyCompiles | src/js/build.mjs:113 | when every wanted template is found: in email-only mode only the email template is compiled, otherwise index, page, email and search in order |
| Build.EmailOnlyRendersNoPage | src/js/build.mjs:113 | in email-only mode no index, search or entry page is rendered |
| Build.EmailOnlyRenderSite | src/js/build.mjs:113 | the same for the steps after the data load |
| Build.EmailOnlyPlan | src/js/build.mjs:113 | in email-only mode, `generate` runs without the index or a page template and renders no index, search or entry page |
| Dev.SetHeaders | src/js/dev.mjs:20-30 | exactly the headers whose value is neither `undefined` nor `null`, unchanged |
| Dev.FilterHeaders | src/js/dev.mjs:20-30 | the loop keeps exactly the set headers |
| Dev.Utf8LengthBounds | src/js/dev.mjs:59 | a body's byte length is between its length and four times it, and equals it for ASCII |
| Dev.ForwardBody | src/js/dev.mjs:40-51 | no body for GET and HEAD; otherwise the serialised parsed body or the raw text |
| Dev.ForwardUrl | src/js/dev.mjs:35-38 | the forward URL and path, then `?` and the query only when there is one |
| Dev.ForwardUrlSplits | src/js/dev.mjs:35-38 | splitting the URL at its first `?` gives back the base and the query |
| Dev.FirstPieceIsPrefix | src/js/dev.mjs:35-38 | the first piece of a split is the text before the first separator |
| Dev.HeaderObject | src/js/dev.mjs:52-61 | the rewritten headers: `connection`, `content-length`, `host`, `x-forwarded-host`, `origin`, `authority`, with later entries winning |
| Dev.ForwardHeaders | src/js/dev.mjs:52-61 | the headers sent upstream after dropping unset values, header by header |
| Dev.ForwardRequest | src/js/dev.mjs:31-66 | the method, URL, body and headers sent upstream |
| Dev.RelayedHeaders | src/js/dev.mjs:14-19 | excluded upstream headers are never relayed and every other one is |
| Dev.Response.constructor | src/js/dev.mjs:67 | a response starts as status 200 with no headers and no body |
| Dev.Response.Relay | src/js/dev.mjs:67-72 | the status is copied and the headers relayed in order |
| Dev.Response.Fail | src/js/dev.mjs:82-90 | any failure answers 500 with "Internal Server Error" |
| Dev.Forward | src/js/dev.mjs:31-91 | an API URL that does not parse or a failed request answers 500; otherwise the upstream status, the relayed headers and the upstream body |
| Dev.EntriesRoute | src/js/dev.mjs:129-146 | page one, an empty or a missing page redirects to `/`; another page serves its file or is not found |
| Dev.ETagInjective | src/js/dev.mjs:199 | different hashes give different entity tags |
| Dev.StaticRoute | src/js/dev.mjs:190-207 | a missing path is not found and a directory a server error; for a file, 304 exactly when the client sent its entity tag, else its bytes with its media type |
| Dev.Revalidation | src/js/dev.mjs:190-207 | a client sending back its entity tag gets 304, and the new bytes once an edit changes the file's digest |
| Dev.ClassifyWith | src/js/dev.mjs:210-232 | the icon stylesheet is ignored, email sources rebuild emails only with the saved data, anything else rebuilds fully |
| Dev.AsWrittenDataFlagUndeclared | src/js/dev.mjs:218-229 | as written, the email-only rebuild passes the saved data behind `--input`, which the build does not declare |
| Dev.CorrectedDataFlagDeclared | src/js/dev.mjs:218-229 | corrected, the saved data goes behind `--file`, which the build declares |
| Dev.IconsCssIgnoredFirst | src/js/dev.mjs:213-216 | a change to the icon stylesheet is ignored even inside `email/` |
| Compact.ThresholdIndex | src/web/global.js:26-33 | the first threshold, largest first, that the digit count reaches |
| Compact.FourDigits | src/web/global.js:15-18 | a magnitude of at least 1000 has at least four digits |
| Compact.DigitCount | src/web/global.js:10-11 | the digit count of a magnitude, at least four from 1000 on |
| Compact.CompactInteger | src/web/global.js:5-66 | the loop's result is `CompactWith` with the source's cut-off of sixteen digits |
| Compact.SmallNumbers | src/web/global.js:15-18 | below 1000 in magnitude, the sign and the digits |
| Compact.NegativeMirrors | src/web/global.js:8-10 | a negative number renders as `-` and its magnitude's rendering |
| Compact.WholePart | src/web/global.js:35-56 | the rendering is the number with `L - 1` digits dropped and the suffix of threshold `L` |
| Compact.WholePartTruncates | src/web/global.js:35-44 | the whole part is rounded down, never up |
| Compact.NineteenNinetyNine | src/web/global.js:35-56 | 1999 renders as "1k" |
| Compact.AsWrittenSixteenDigits | src/web/global.js:20-25 | as written, a sixteen-digit number renders with a four-digit whole part of 1000 or more before `T` |
| Compact.TenToTheFifteenth | src/web/global.js:20-25 | as written, 10^15 renders as "1000T" |
| Compact.CorrectedWholePartInRange | src/web/global.js:20-25 | with a fifteen-digit cut-off, a suffixed rendering exists exactly up to fifteen digits and has a whole part from 1 to 999 |
| SearchPage.FindParam | src/web/global.js:68-71 | the leftmost position where the parameter pattern matches, or none |
| SearchPage.RunFrom | src/web/global.js:70 | the longest run holding neither `&` nor `#` |
| SearchPage.PlusToSpace | src/web/global.js:74 | every `+` becomes a space, everything else is kept |
| SearchPage.GetSearchParamByName | src/web/global.js:68-75 | `null` exactly when the pattern matches nowhere; `""` exactly when the leftmost match has no `=` or an empty value; otherwise the decoded value after that match's `=`, with `+` as space |
| SearchPage.LaterParam | src/web/global.js:68-75 | `?a=1&term=x` reads `term` as the decoded `x` |
| SearchPage.NameWithoutValue | src/web/global.js:68-75 | `?term` with no `=` reads as `""` |
| SearchPage.EmptyValue | src/web/global.js:68-75 | `?term=&a=1` reads as `""` |
| SearchPage.ReadsBackValue | src/web/global.js:68-75 | `?name=v` is read back as the decoded `v` with `+` as space |
| SearchPage.NoMatchBefore | src/web/global.js:68-71 | with no match before `p` and one at `p`, the leftmost is `p` |
| SearchPage.RunReadsValue | src/web/global.js:70 | the run from the start of a value ends where the value ends |
| SearchPage.SearchTerm | src/web/global.js:86-89 | the `term` parameter, or the empty text |
| SearchPage.SearchTermRoundTrip | src/web/global.js:86-112 | the search page reads back the term it was sent |
| SearchPage.FindTag | src/web/global.js:423 | the first filter with the tag, or none when no filter has it |
| SearchPage.AddFilter | src/web/global.js:434-440 | a new tag is appended and navigated to; a present tag changes nothing |
| SearchPage.RemoveFilter | src/web/global.js:422-432 | an absent tag changes nothing; the only filter exits filtering; otherwise that filter is spliced out and navigated to |
| SearchPage.AddKeepsUnique | src/web/global.js:434-440 | adding keeps tag names unique |
| SearchPage.RemoveKeepsUnique | src/web/global.js:422-432 | removing keeps tag names unique and the tag is gone |
| SearchPage.RemoveUndoesAdd | src/web/global.js:422-440 | removing a filter just added gives the list back |
| SearchPage.FilterList.constructor | src/web/global.js:422-440 | the list starts with the given filters |
| SearchPage.FilterList.Add | src/web/global.js:434-440 | the list and navigation are those of `AddFilter` on the old list |
| SearchPage.FilterList.Remove | src/web/global.js:422-432 | the list and navigation are those of `RemoveFilter` on the old list |
| SearchPage.TagTerms | src/web/global.js:526 | one `tags:"t"` term per filter, in order |
| SearchPage.SearchQuery | src/web/global.js:523-527 | the site term, then the tag terms joined by ` AND ` when there are filters |
| SearchPage.SearchQueryAppend | src/web/global.js:523-527 | one more filter appends ` AND tags:"t"` |

## Left out

- Reading and writing files, fetching, spawning processes and printing are effects recorded in lists or parameters. Their failures appear only as the error values the model names.
- Handlebars compilation and rendering, html-minifier, tailwind and its configuration, uglify-js, ssri and SHA-1 are uninterpreted functions. Their outputs are parameters.
- Path normalisation and `path.resolve` are not modelled. A join is `dir + "/" + name`.
- Changelog ids are assumed to hold no `/`. The page and email directory lemma requires this.
- Un-awaited promises and `Promise.all` in `generate` are taken in list order. Concurrency is not modelled.
- Build.RunCleansUp / Build.RenderSite: in the source, `generate` awaits the array of per-changelog promises rather than the promises themselves (src/js/build.mjs:280). So `shutdown` runs once every changelog's page is rendered and its directory made, but before the page writes complete and before the emails are rendered; only in email-only mode does this not apply. The model places `shutdown`, the removal of the tailwind configuration, after all of `generate`'s work. The CSS compiler reads that configuration (src/js/handlebars.mjs:62), so the source's order can be observed.
- `compactInteger` with decimals, and with more digits than the cut-off, goes through floating point (`toExponential`, `toFixed`). The model returns `FloatingPoint` for those.
- Compact.CompactInteger: its `decimals` clamp is modelled, but not the rounding of the decimal part.
- Argument parsing, the package and create commands, the registration of each helper by name, and the server's listening and shutdown are not modelled. Neither are the fixed routes that only send a file (`/`, `/search`, `/entry/:id`, `/email/:id`, `/a.js`).
- The helpers `formatNumber`, `boundedNumber`, `fileSize`, `truncate`, `truncateWords`, `capitalize`, `titleCase`, `pathname`, the comparison block helpers, `fontawesome-icon`, `friendly-date`, `analytics-js`, `global-js`, `iso_date`, `cover_image_url`, `twitter_handle` and `logo` are not modelled. They format text through libraries or dates.
- Helpers.Add: operands are integers; fractional numbers are not modelled. The number numeric text reads as is given with it, since JavaScript's string-to-number parsing is not modelled. Arrays and objects, which `isNaN` may also let through, are not operands.
- Helpers.Subtract: the same limits as `add`: integers only, the number of numeric text given with it, no arrays or objects.
- Helpers.ChooseTemplate: a non-text `base` argument is excluded by its precondition, because JavaScript's string concatenation of arbitrary values is not modelled.
- SearchPage.GetSearchParamByName: only names without regular-expression metacharacters are modelled. The source escapes only `[` and `]`. `decodeURIComponent` is a parameter and cannot throw.
- `getFilters` and `navigateToFilters` encode the filter list with base64 and JSON. The model keeps the list itself in `Navigate`.
- The DOM code of the search page (rendering hits, buttons, pagination) is not modelled.
- The watcher's debounce delay and the development server's response streaming are not modelled. Only the relayed status and headers are.
- The tailwind configuration template is read when `registerHelpers` runs and rewritten with the theme's purge folders; its text is not modelled, only the write. A missing `tailwind.config.js`, which throws when the module loads, is not modelled.
- Dev.Forward: the upstream host comes from a URL parser passed as a parameter.
- Dev.StaticRoute: MIME type lookup is a parameter.

## Findings

| source | as written | input that shows it | evidently intended | confidence | as-written member | corrected member |
|---|---|---|---|---|---|---|
| src/web/global.js:20-25 | numbers go to exponential notation only above `numberLengths[0] + 3` = 16 digits, so sixteen-digit numbers get a `T` suffix | 10^15 renders as "1000T" | the range the comment states, up to 999,999,999,999,999 (15 digits), with a whole part of 1 to 999 | not executed | Compact.AsWrittenSixteenDigits | Compact.CorrectedWholePartInRange |
| src/js/build.mjs:127-135 | `registerHelpers` is called without `flags`, so `debugLog(flags.debug, …)` at src/js/handlebars.mjs:170 throws | any build whose data loads | pass `flags`, which `registerHelpers` reads | not executed | Build.AsWrittenRunStopsAtHelpers | Build.RunSucceedsIffSourcesFound |
| src/js/dev.mjs:218-229 | the email-only rebuild passes the saved data as `--input data.json` | any change to a file under `email/` | `--file`, the flag the build command declares and reads its data from | not executed | Dev.AsWrittenDataFlagUndeclared | Dev.CorrectedDataFlagDeclared |

=== FILE: assets.dfy ===
/** The static-asset fingerprint cache of the template engine
    (`generateFileSSRI` and `compileCSSAndFixHTML` in src/js/handlebars.mjs).

    A source asset is located in the theme directory, then in the base source
    directory; a process-wide cache keyed on the source path followed by the
    SHA-1 of its current contents short-circuits repeated requests; on a miss
    the contents are transformed by extension, an integrity digest is computed
    over the transformed text, and the transformed text is written once under a
    fingerprinted name. SHA-1, the SSRI digest and the two external minifiers
    are uninterpreted: they are fields of `Tools`. */
module Assets {
  import opened Wrappers
  import opened Strings
  import Paths

  /** The external digests and compilers, left uninterpreted. A minifier
      yields `None` when its process fails or leaves no output. */
  datatype Tools = Tools(
    sha1: string -> string,
    integrity: string -> string,
    minifyCss: (string, string) -> Option<string>,
    minifyJs: (string, string) -> Option<string>)

  /** A cache entry: where the asset is served from and its integrity digest. */
  datatype Entry = Entry(relpath: string, sha: string)

  datatype AssetError =
    | AssetNotFound(path: string)
    | TransformFailed(path: string)
    | ReadFailed(path: string)

  /** An observable side effect: a call of an external minifier or a file write. */
  datatype Effect = Transform(path: string) | Write(path: string, contents: string)

  /** The directories `generateFileSSRI` receives. */
  datatype Dirs = Dirs(distDir: string, baseSrcDir: string, srcDir: string, staticDistDir: string)

  /** The files on disk, the cache, and the effects performed so far. */
  datatype AssetState = AssetState(files: map<string, string>, cache: map<string, Entry>, effects: seq<Effect>)

  const Unsafe: set<char> := {'/', '=', '+'}

  /** The paths tried for `href`, in order: the explicit `fn` if one is given
      (an empty `fn` is falsy and counts as absent), else `srcDir/href`; then `baseSrcDir/href`. */
  function SourceCandidates(dirs: Dirs, href: string, fn: string): seq<string>
  {
    [if fn != "" then fn else Paths.Join(dirs.srcDir, href), Paths.Join(dirs.baseSrcDir, href)]
  }

  /** The source path the asset is read from. */
  function ResolveSource(files: map<string, string>, dirs: Dirs, href: string, fn: string): (r: Result<string, AssetError>)
    ensures var c := SourceCandidates(dirs, href, fn);
            var found := Paths.FirstPresent(c, files.Keys);
            && (r.Ok? <==> found.Some?)
            && (r.Ok? ==> r.value == c[found.value] && r.value in files)
            && (r.Err? ==> r.error == AssetNotFound(Paths.Join(dirs.baseSrcDir, href)))
  {
    var first := if fn != "" then fn else Paths.Join(dirs.srcDir, href);
    if first in files then Ok(first)
    else
      var second := Paths.Join(dirs.baseSrcDir, href);
      if second in files then Ok(second) else Err(AssetNotFound(second))
  }

  /** Whether the extension of `path` sends it through an external minifier. */
  predicate Transforms(path: string)
  {
    Paths.Extname(path) == ".css" || Paths.Extname(path) == ".js"
  }

  /** The text that is written and digested: `.css` through the CSS compiler,
      `.js` through the JS compressor, anything else unchanged. */
  function TransformContents(tools: Tools, path: string, contents: string): (r: Result<string, AssetError>)
    ensures !Transforms(path) ==> r == Ok(contents)
    ensures Paths.Extname(path) == ".css" ==>
              (r.Ok? <==> tools.minifyCss(path, contents).Some?) &&
              (r.Ok? ==> r.value == tools.minifyCss(path, contents).value)
    ensures Paths.Extname(path) == ".js" ==>
              (r.Ok? <==> tools.minifyJs(path, contents).Some?) &&
              (r.Ok? ==> r.value == tools.minifyJs(path, contents).value)
    ensures r.Err? ==> r.error == TransformFailed(path)
  {
    var ext := Paths.Extname(path);
    if ext == ".css" then
      match tools.minifyCss(path, contents)
      case None => Err(TransformFailed(path))
      case Some(out) => Ok(out)
    else if ext == ".js" then
      match tools.minifyJs(path, contents)
      case None => Err(TransformFailed(path))
      case Some(out) => Ok(out)
    else Ok(contents)
  }

  /** `s.substring(0, 6)`. */
  function Head6(s: string): (r: string)
    ensures |s| >= 6 ==> r == s[..6]
  {
    if |s| <= 6 then s else s[..6]
  }

  /** `s.substring(s.length - 6)`. */
  function Tail6(s: string): (r: string)
    ensures |s| >= 6 ==> r == s[|s| - 6..]
  {
    if |s| <= 6 then s else s[|s| - 6..]
  }

  /** The fingerprinted file name: the first dot-separated piece of the base
      name of `href`, the first six characters of the source SHA-1, the last six
      of the integrity digest and the remaining pieces, joined by dots, with
      every `/`, `=` and `+` removed. */
  function OutputName(href: string, srcSha: string, integrity: string): string
  {
    var tok := Split(Paths.Basename(href), '.');
    RemoveAll(tok[0] + "." + Head6(srcSha) + "." + Tail6(integrity) + "." + Join(tok[1..], "."), Unsafe)
  }

  /** A fingerprinted name holds no `/`, `=` or `+`, whatever the digests. */
  lemma OutputNameIsSafe(href: string, srcSha: string, integrity: string)
    ensures forall k :: 0 <= k < |OutputName(href, srcSha, integrity)| ==> OutputName(href, srcSha, integrity)[k] !in Unsafe
  {
    var tok := Split(Paths.Basename(href), '.');
    var raw := tok[0] + "." + Head6(srcSha) + "." + Tail6(integrity) + "." + Join(tok[1..], ".");
    assert OutputName(href, srcSha, integrity) == RemoveAll(raw, Unsafe);
  }

  /** The path the asset is served at: `/`, the static directory's base name, `/`, the name. */
  function Relpath(staticDistDir: string, name: string): (r: string)
    ensures |r| == |Paths.Basename(staticDistDir)| + 2 + |name| && r[0] == '/'
    ensures r[|r| - |name|..] == name
  {
    "/" + Paths.Basename(staticDistDir) + "/" + name
  }

  /** The key of the process-wide cache: the source path followed by its SHA-1. */
  function CacheKey(path: string, srcSha: string): string
  {
    path + srcSha
  }

  /** A cache miss on `path`: transform the contents, digest the result,
      write it under the fingerprinted name and store the entry under `key`. */
  function Fill(tools: Tools, dirs: Dirs, st: AssetState, href: string, path: string, key: string): (AssetState, Result<Entry, AssetError>)
    requires path in st.files
  {
    var srcSha := tools.sha1(st.files[path]);
    var effects := if Transforms(path) then st.effects + [Transform(path)] else st.effects;
    match TransformContents(tools, path, st.files[path])
    case Err(e) => (st.(effects := effects), Err(e))
    case Ok(out) =>
      var integrity := tools.integrity(out);
      var name := OutputName(href, srcSha, integrity);
      var entry := Entry(Relpath(dirs.staticDistDir, name), integrity);
      var outfn := Paths.Join(dirs.staticDistDir, name);
      (AssetState(st.files[outfn := out], st.cache[key := entry], effects + [Write(outfn, out)]), Ok(entry))
  }

  /** One call of `generateFileSSRI`: the new state and the result. */
  function Generate(tools: Tools, dirs: Dirs, st: AssetState, href: string, fn: string): (AssetState, Result<Entry, AssetError>)
  {
    match ResolveSource(st.files, dirs, href, fn)
    case Err(e) => (st, Err(e))
    case Ok(path) =>
      var key := CacheKey(path, tools.sha1(st.files[path]));
      if key in st.cache then (st, Ok(st.cache[key]))
      else Fill(tools, dirs, st, href, path, key)
  }

  /** A hit on the same resolved path and the same SHA-1 of its current
      contents returns the stored entry, with no transformation and no write. */
  lemma CacheHitChangesNothing(tools: Tools, dirs: Dirs, st: AssetState, href: string, fn: string)
    requires ResolveSource(st.files, dirs, href, fn).Ok?
    requires var path := ResolveSource(st.files, dirs, href, fn).value;
             CacheKey(path, tools.sha1(st.files[path])) in st.cache
    ensures var path := ResolveSource(st.files, dirs, href, fn).value;
            Generate(tools, dirs, st, href, fn) == (st, Ok(st.cache[CacheKey(path, tools.sha1(st.files[path]))]))
  {
  }

  /** A successful miss calls the minifier once exactly for `.css` and `.js`,
      writes the transformed text once to the static directory under the
      fingerprinted name, digests the transformed text (not the source), and
      changes the files and the cache at that one name and key only. */
  lemma MissWritesOnce(tools: Tools, dirs: Dirs, st: AssetState, href: string, fn: string)
    requires ResolveSource(st.files, dirs, href, fn).Ok?
    requires var path := ResolveSource(st.files, dirs, href, fn).value;
             CacheKey(path, tools.sha1(st.files[path])) !in st.cache
    requires Generate(tools, dirs, st, href, fn).1.Ok?
    ensures var path := ResolveSource(st.files, dirs, href, fn).value;
            var srcSha := tools.sha1(st.files[path]);
            var out := TransformContents(tools, path, st.files[path]).value;
            var (st', r) := Generate(tools, dirs, st, href, fn);
            var name := OutputName(href, srcSha, r.value.sha);
            var outfn := Paths.Join(dirs.staticDistDir, name);
            && r.value.sha == tools.integrity(out)
            && r.value.relpath == Relpath(dirs.staticDistDir, name)
            && st'.effects == st.effects + (if Transforms(path) then [Transform(path)] else []) + [Write(outfn, out)]
            && st'.files == st.files[outfn := out]
            && st'.cache == st.cache[CacheKey(path, srcSha) := r.value]
  {
    var path := ResolveSource(st.files, dirs, href, fn).value;
    var key := CacheKey(path, tools.sha1(st.files[path]));
    MissIsFill(tools, dirs, st, href, fn);
    FillWrites(tools, dirs, st, href, path, key);
  }

  /** A miss is the miss branch on the resolved path and its key. */
  lemma MissIsFill(tools: Tools, dirs: Dirs, st: AssetState, href: string, fn: string)
    requires ResolveSource(st.files, dirs, href, fn).Ok?
    requires var path := ResolveSource(st.files, dirs, href, fn).value;
             CacheKey(path, tools.sha1(st.files[path])) !in st.cache
    ensures var path := ResolveSource(st.files, dirs, href, fn).value;
            Generate(tools, dirs, st, href, fn) == Fill(tools, dirs, st, href, path, CacheKey(path, tools.sha1(st.files[path])))
  {
  }

  /** A successful miss branch: the entry, the written file and the effects. */
  lemma FillWrites(tools: Tools, dirs: Dirs, st: AssetState, href: string, path: string, key: string)
    requires path in st.files
    requires Fill(tools, dirs, st, href, path, key).1.Ok?
    ensures var srcSha := tools.sha1(st.files[path]);
            var out := TransformContents(tools, path, st.files[path]).value;
            var (st', r) := Fill(tools, dirs, st, href, path, key);
            var name := OutputName(href, srcSha, r.value.sha);
            var outfn := Paths.Join(dirs.staticDistDir, name);
            && r.value.sha == tools.integrity(out)
            && r.value.relpath == Relpath(dirs.staticDistDir, name)
            && st'.effects == st.effects + (if Transforms(path) then [Transform(path)] else []) + [Write(outfn, out)]
            && st'.files == st.files[outfn := out]
            && st'.cache == st.cache[key := r.value]
  {
  }

  /** The call succeeds and its fingerprinted output is not one of the paths its lookup tries. */
  predicate WriteAvoidsSources(tools: Tools, dirs: Dirs, st: AssetState, href: string, fn: string)
  {
    var r := Generate(tools, dirs, st, href, fn).1;
    && r.Ok?
    && var srcSha := tools.sha1(st.files[ResolveSource(st.files, dirs, href, fn).value]);
       Paths.Join(dirs.staticDistDir, OutputName(href, srcSha, r.value.sha)) !in SourceCandidates(dirs, href, fn)
  }

  /** Requesting the same asset twice gives the same entry, and the second call
      changes nothing (no transformation, no write), provided the first call's
      write does not land on one of the paths the lookup tries. */
  lemma {:induction false} SecondCallHits(tools: Tools, dirs: Dirs, st: AssetState, href: string, fn: string)
    requires WriteAvoidsSources(tools, dirs, st, href, fn)
    ensures var (st1, r1) := Generate(tools, dirs, st, href, fn);
            Generate(tools, dirs, st1, href, fn) == (st1, r1)
  {
    var path := ResolveSource(st.files, dirs, href, fn).value;
    var (st1, r1) := Generate(tools, dirs, st, href, fn);
    var srcSha := tools.sha1(st.files[path]);
    var key := CacheKey(path, srcSha);
    if key !in st.cache {
      var out := TransformContents(tools, path, st.files[path]).value;
      var outfn := Paths.Join(dirs.staticDistDir, OutputName(href, srcSha, r1.value.sha));
      assert st1.files == st.files[outfn := out];
      var c := SourceCandidates(dirs, href, fn);
      assert c[0] in st1.files <==> c[0] in st.files;
      assert c[1] in st1.files <==> c[1] in st.files;
      assert ResolveSource(st1.files, dirs, href, fn) == Ok(path);
      assert st1.files[path] == st.files[path];
      assert st1.cache[key] == r1.value;
    }
  }

  /** The fingerprinted name carries the first six characters of the source
      SHA-1 right after the (filtered) first piece of the base name and a dot. */
  lemma NameEmbedsSourceHash(href: string, srcSha: string, integrity: string)
    requires |srcSha| >= 6
    requires forall k :: 0 <= k < 6 ==> srcSha[k] !in Unsafe && srcSha[k] != '.'
    ensures var head := RemoveAll(Split(Paths.Basename(href), '.')[0], Unsafe);
            var name := OutputName(href, srcSha, integrity);
            |head| + 7 <= |name| && name[..|head| + 1] == head + "." && name[|head| + 1..|head| + 7] == srcSha[..6]
  {
    var tok := Split(Paths.Basename(href), '.');
    var mid := "." + srcSha[..6];
    var rest := "." + Tail6(integrity) + "." + Join(tok[1..], ".");
    OutputNameAroundHash(href, srcSha, integrity);
    SafeHashPiece(srcSha);
    RemoveAllAround(tok[0], mid, rest, Unsafe);
    DotThenSix(RemoveAll(tok[0], Unsafe), srcSha[..6], RemoveAll(rest, Unsafe));
  }

  /** The unfiltered name, grouped around the dot and the six source characters. */
  lemma OutputNameAroundHash(href: string, srcSha: string, integrity: string)
    requires |srcSha| >= 6
    ensures var tok := Split(Paths.Basename(href), '.');
            OutputName(href, srcSha, integrity)
            == RemoveAll(tok[0] + ("." + srcSha[..6]) + ("." + Tail6(integrity) + "." + Join(tok[1..], ".")), Unsafe)
  {
    var tok := Split(Paths.Basename(href), '.');
    assert Head6(srcSha) == srcSha[..6];
    assert tok[0] + "." + Head6(srcSha) + "." + Tail6(integrity) + "." + Join(tok[1..], ".")
        == tok[0] + ("." + srcSha[..6]) + ("." + Tail6(integrity) + "." + Join(tok[1..], "."));
  }

  /** A dot and six characters none of which is `/`, `=` or `+` lose nothing to the filter. */
  lemma SafeHashPiece(srcSha: string)
    requires |srcSha| >= 6
    requires forall k :: 0 <= k < 6 ==> srcSha[k] !in Unsafe && srcSha[k] != '.'
    ensures forall k :: 0 <= k < |"." + srcSha[..6]| ==> ("." + srcSha[..6])[k] !in Unsafe
  {
    var m := "." + srcSha[..6];
    forall k | 0 <= k < |m|
      ensures m[k] !in Unsafe
    {
      if k > 0 {
        assert m[k] == srcSha[k - 1];
      }
    }
  }

  /** The pieces of `h`, then a dot and six characters, then anything. */
  lemma DotThenSix(h: string, x: string, rest: string)
    requires |x| == 6
    ensures var n := h + ("." + x) + rest;
            |h| + 7 <= |n| && n[..|h| + 1] == h + "." && n[|h| + 1..|h| + 7] == x
  {
    var n := h + ("." + x) + rest;
    assert n == (h + ".") + x + rest;
    ConcatSlices(h + ".", x, rest);
  }

  /** Removing characters around a middle part that holds none of them keeps that part whole. */
  lemma RemoveAllAround(a: string, m: string, c: string, chars: set<char>)
    requires forall k :: 0 <= k < |m| ==> m[k] !in chars
    ensures RemoveAll(a + m + c, chars) == RemoveAll(a, chars) + m + RemoveAll(c, chars)
  {
    RemoveAllConcat(a + m, c, chars);
    RemoveAllConcat(a, m, chars);
    RemoveAllNone(m, chars);
  }

  /** The two leading parts of a concatenation of three, read back by slicing. */
  lemma ConcatSlices(a: string, b: string, c: string)
    ensures (a + b + c)[..|a|] == a
    ensures (a + b + c)[|a|..|a| + |b|] == b
  {
  }

  /** Cache busting: for one `href`, two source digests that differ in their
      first six characters give two different served paths, whatever the
      integrity digests. */
  lemma {:induction false} DistinctSourceHashesDistinctPaths(staticDistDir: string, href: string, sha1: string, sha2: string, i1: string, i2: string)
    requires FingerprintsDiffer(sha1, sha2)
    ensures Relpath(staticDistDir, OutputName(href, sha1, i1)) != Relpath(staticDistDir, OutputName(href, sha2, i2))
  {
    NameEmbedsSourceHash(href, sha1, i1);
    NameEmbedsSourceHash(href, sha2, i2);
    var n1 := OutputName(href, sha1, i1);
    var n2 := OutputName(href, sha2, i2);
    var pre := "/" + Paths.Basename(staticDistDir) + "/";
    var head := RemoveAll(Split(Paths.Basename(href), '.')[0], Unsafe);
    assert n1[|head| + 1..|head| + 7] != n2[|head| + 1..|head| + 7];
    assert Relpath(staticDistDir, n1) == pre + n1 && Relpath(staticDistDir, n2) == pre + n2;
    assert (pre + n1)[|pre|..] == n1 && (pre + n2)[|pre|..] == n2;
  }

  /** Two source digests whose first six characters differ and hold no
      character the name filter removes and no dot. */
  predicate FingerprintsDiffer(s1: string, s2: string)
  {
    && |s1| >= 6 && |s2| >= 6 && s1[..6] != s2[..6]
    && (forall k :: 0 <= k < 6 ==> s1[k] !in Unsafe && s1[k] != '.' && s2[k] !in Unsafe && s2[k] != '.')
  }

  /** Editing a source so that its SHA-1 changes (in its first six characters)
      after a first request on an empty cache misses the cache on the next
      request: the minifier runs again, a new file is written, and the served
      path changes. */
  lemma EditedSourceBustsCache(tools: Tools, dirs: Dirs, st: AssetState, href: string, fn: string, edited: string,
                               path: string, st1: AssetState, e1: Entry, st3: AssetState, e3: Entry)
    requires st.cache == map[]
    requires ResolveSource(st.files, dirs, href, fn) == Ok(path)
    requires Generate(tools, dirs, st, href, fn) == (st1, Ok(e1))
    requires Paths.Join(dirs.staticDistDir, OutputName(href, tools.sha1(st.files[path]), e1.sha)) !in SourceCandidates(dirs, href, fn)
    requires FingerprintsDiffer(tools.sha1(st.files[path]), tools.sha1(edited))
    requires Generate(tools, dirs, st1.(files := st1.files[path := edited]), href, fn) == (st3, Ok(e3))
    ensures e3.relpath != e1.relpath
    ensures |st3.effects| > |st1.effects| && st3.effects[|st3.effects| - 1].Write?
  {
    var s1 := tools.sha1(st.files[path]);
    var s2 := tools.sha1(edited);
    assert s1 != s2 by { assert s1[..6] != s2[..6]; }
    SecondRequestMisses(tools, dirs, st, href, fn, edited, path, st1, e1);
    FillEntry(tools, dirs, st1.(files := st1.files[path := edited]), href, path, CacheKey(path, s2));
    DistinctSourceHashesDistinctPaths(dirs.staticDistDir, href, s1, s2, e1.sha, e3.sha);
  }

  /** After a first successful request on an empty cache, an edit that
      changes the source's digest sends the next request to the miss branch
      on the same source. */
  lemma SecondRequestMisses(tools: Tools, dirs: Dirs, st: AssetState, href: string, fn: string, edited: string,
                            path: string, st1: AssetState, e1: Entry)
    requires st.cache == map[]
    requires ResolveSource(st.files, dirs, href, fn) == Ok(path)
    requires Generate(tools, dirs, st, href, fn) == (st1, Ok(e1))
    requires Paths.Join(dirs.staticDistDir, OutputName(href, tools.sha1(st.files[path]), e1.sha)) !in SourceCandidates(dirs, href, fn)
    requires tools.sha1(st.files[path]) != tools.sha1(edited)
    ensures e1.relpath == Relpath(dirs.staticDistDir, OutputName(href, tools.sha1(st.files[path]), e1.sha))
    ensures var st2 := st1.(files := st1.files[path := edited]);
            Generate(tools, dirs, st2, href, fn) == Fill(tools, dirs, st2, href, path, CacheKey(path, tools.sha1(edited)))
  {
    var s1 := tools.sha1(st.files[path]);
    var s2 := tools.sha1(edited);
    FirstMiss(tools, dirs, st, href, fn, path, st1, e1);
    DistinctKeys(path, s1, s2);
    var outfn1 := Paths.Join(dirs.staticDistDir, OutputName(href, s1, e1.sha));
    EditedSourceMisses(tools, dirs, st1.(files := st1.files[path := edited]), st.files, href, fn, path, outfn1, CacheKey(path, s1), edited);
  }

  /** Different digests give different cache keys for one path. */
  lemma DistinctKeys(path: string, s1: string, s2: string)
    requires s1 != s2
    ensures CacheKey(path, s1) != CacheKey(path, s2)
  {
    assert (path + s2)[|path|..] == s2;
    assert (path + s1)[|path|..] == s1;
  }

  /** A first successful request on an empty cache stores one key, adds one
      file, and serves it under the name built from the source digest. */
  lemma FirstMiss(tools: Tools, dirs: Dirs, st: AssetState, href: string, fn: string, path: string, st1: AssetState, e1: Entry)
    requires st.cache == map[]
    requires ResolveSource(st.files, dirs, href, fn) == Ok(path)
    requires Generate(tools, dirs, st, href, fn) == (st1, Ok(e1))
    ensures var s1 := tools.sha1(st.files[path]);
            && st1.cache.Keys == {CacheKey(path, s1)}
            && st1.files.Keys == st.files.Keys + {Paths.Join(dirs.staticDistDir, OutputName(href, s1, e1.sha))}
            && e1.relpath == Relpath(dirs.staticDistDir, OutputName(href, s1, e1.sha))
  {
    MissIsFill(tools, dirs, st, href, fn);
    FillWrites(tools, dirs, st, href, path, CacheKey(path, tools.sha1(st.files[path])));
  }

  /** A successful miss branch serves the name built from the source digest and ends with a write. */
  lemma FillEntry(tools: Tools, dirs: Dirs, st: AssetState, href: string, path: string, key: string)
    requires path in st.files
    requires Fill(tools, dirs, st, href, path, key).1.Ok?
    ensures var (st', r) := Fill(tools, dirs, st, href, path, key);
            && r.value.relpath == Relpath(dirs.staticDistDir, OutputName(href, tools.sha1(st.files[path]), r.value.sha))
            && |st'.effects| > |st.effects| && st'.effects[|st'.effects| - 1].Write?
  {
    FillWrites(tools, dirs, st, href, path, key);
  }

  /** After a first miss wrote `outfn` (not a path the lookup tries) and
      stored the one key `k1`, an edit of the source at `path` that changes its
      key sends the next request to the same source and to the miss branch. */
  lemma EditedSourceMisses(tools: Tools, dirs: Dirs, st2: AssetState, files: map<string, string>, href: string, fn: string,
                           path: string, outfn: string, k1: string, edited: string)
    requires ResolveSource(files, dirs, href, fn) == Ok(path)
    requires outfn !in SourceCandidates(dirs, href, fn)
    requires st2.files.Keys == files.Keys + {outfn} && path in st2.files && st2.files[path] == edited
    requires st2.cache.Keys == {k1}
    requires k1 != CacheKey(path, tools.sha1(edited))
    ensures ResolveSource(st2.files, dirs, href, fn) == Ok(path)
    ensures Generate(tools, dirs, st2, href, fn) == Fill(tools, dirs, st2, href, path, CacheKey(path, tools.sha1(edited)))
  {
    ResolveFrame(files, st2.files, dirs, href, fn);
    MissIsFill(tools, dirs, st2, href, fn);
  }

  /** The lookup depends only on which of its candidate paths exist. */
  lemma ResolveFrame(files: map<string, string>, files': map<string, string>, dirs: Dirs, href: string, fn: string)
    requires SourceCandidates(dirs, href, fn)[0] in files <==> SourceCandidates(dirs, href, fn)[0] in files'
    requires SourceCandidates(dirs, href, fn)[1] in files <==> SourceCandidates(dirs, href, fn)[1] in files'
    ensures ResolveSource(files', dirs, href, fn) == ResolveSource(files, dirs, href, fn)
  {
  }

  /** The text `compileCSSAndFixHTML` writes to `static/global.css`: the shared
      `global.css`, then the default theme's `theme.css` (so a theme inherits
      its variables), then a newline and the theme's own `theme.css` when it
      has one, then a newline and the icon library's CSS. */
  function GlobalCss(files: map<string, string>, webSrcDir: string, srcDir: string, iconCss: string): (r: Result<string, AssetError>)
    ensures var g := Paths.Join(webSrcDir, "global.css");
            var b := Paths.Join(webSrcDir, "../theme/default/theme.css");
            var t := Paths.Join(srcDir, "theme.css");
            && (r.Ok? <==> g in files && b in files)
            && (r.Err? ==> r.error == ReadFailed(if g !in files then g else b))
            && (r.Ok? && t in files ==> r.value == files[g] + files[b] + "\n" + files[t] + "\n" + iconCss)
            && (r.Ok? && t !in files ==> r.value == files[g] + files[b] + "\n" + iconCss)
  {
    var g := Paths.Join(webSrcDir, "global.css");
    var b := Paths.Join(webSrcDir, "../theme/default/theme.css");
    var t := Paths.Join(srcDir, "theme.css");
    if g !in files then Err(ReadFailed(g))
    else if b !in files then Err(ReadFailed(b))
    else
      var css := files[g] + files[b];
      var css := if t in files then css + "\n" + files[t] else css;
      Ok(css + "\n" + iconCss)
  }

  /** The stylesheet href and digest handed to every template as globals. */
  datatype Globals = Globals(cssHref: string, cssSha: string)

  /** `compileCSSAndFixHTML` on a pipeline state: concatenate the stylesheets,
      write them to `static/global.css`, then fingerprint that file, passing it
      as the explicit source and the shared web directory as the fallback. */
  function CompileCss(tools: Tools, st: AssetState, distDir: string, staticDistDir: string, webSrcDir: string,
                      srcDir: string, iconCss: string): (AssetState, Result<Globals, AssetError>)
  {
    match GlobalCss(st.files, webSrcDir, srcDir, iconCss)
    case Err(e) => (st, Err(e))
    case Ok(css) =>
      var outfn := Paths.Join(staticDistDir, "global.css");
      var written := AssetState(st.files[outfn := css], st.cache, st.effects + [Write(outfn, css)]);
      var dirs := Dirs(distDir, webSrcDir, Paths.Dirname(staticDistDir), staticDistDir);
      var (st', e) := Generate(tools, dirs, written, "global.css", outfn);
      match e
      case Ok(entry) => (st', Ok(Globals(entry.relpath, entry.sha)))
      case Err(err) => (st', Err(err))
  }

  /** The concatenated stylesheet is a `.css` file wherever it is written. */
  lemma GlobalCssTransforms(staticDistDir: string)
    ensures Paths.Extname(Paths.Join(staticDistDir, "global.css")) == ".css"
  {
    var b := "global.css";
    Paths.BasenameOfJoin(staticDistDir, b);
    assert b[9] == 's' && b[8] == 's' && b[7] == 'c' && b[6] == '.';
    assert Paths.LastIndexBefore(b, '.', 7) == Some(6);
    assert Paths.LastIndexBefore(b, '.', 10) == Some(6);
    assert b[6..] == ".css";
  }

  /** The stylesheet step of a fresh process, stated directly: the effects it
      performs and the globals it hands the templates. When both stylesheets
      exist their concatenation is written to `static/global.css` and run
      through the CSS compiler; its output is written under the fingerprinted
      name, whose path and integrity digest are the globals. */
  function FreshStylesheet(tools: Tools, files: map<string, string>, staticDistDir: string, webSrcDir: string,
                           srcDir: string, iconCss: string): (seq<Effect>, Result<Globals, AssetError>)
  {
    match GlobalCss(files, webSrcDir, srcDir, iconCss)
    case Err(e) => ([], Err(e))
    case Ok(css) =>
      var outfn := Paths.Join(staticDistDir, "global.css");
      match tools.minifyCss(outfn, css)
      case None => ([Write(outfn, css), Transform(outfn)], Err(TransformFailed(outfn)))
      case Some(out) =>
        var name := OutputName("global.css", tools.sha1(css), tools.integrity(out));
        ([Write(outfn, css), Transform(outfn), Write(Paths.Join(staticDistDir, name), out)],
         Ok(Globals(Relpath(staticDistDir, name), tools.integrity(out))))
  }

  /** In a fresh process (nothing cached) `compileCSSAndFixHTML` performs
      exactly the effects and returns exactly the globals of the direct
      definition; a missing stylesheet leaves the pipeline untouched. */
  lemma CompileCssInFreshProcess(tools: Tools, files: map<string, string>, distDir: string, staticDistDir: string,
                                 webSrcDir: string, srcDir: string, iconCss: string)
    ensures var st := AssetState(files, map[], []);
            var (st', r) := CompileCss(tools, st, distDir, staticDistDir, webSrcDir, srcDir, iconCss);
            && (st'.effects, r) == FreshStylesheet(tools, files, staticDistDir, webSrcDir, srcDir, iconCss)
            && (GlobalCss(files, webSrcDir, srcDir, iconCss).Err? ==> st' == st)
  {
    var css := GlobalCss(files, webSrcDir, srcDir, iconCss);
    if css.Ok? {
      CompileCssMiss(tools, files, distDir, staticDistDir, webSrcDir, srcDir, iconCss, css.value);
    }
  }

  /** The stylesheet step once the concatenation `css` exists and nothing is cached. */
  lemma CompileCssMiss(tools: Tools, files: map<string, string>, distDir: string, staticDistDir: string,
                       webSrcDir: string, srcDir: string, iconCss: string, css: string)
    requires GlobalCss(files, webSrcDir, srcDir, iconCss) == Ok(css)
    ensures var outfn := Paths.Join(staticDistDir, "global.css");
            var written := files[outfn := css];
            tools.minifyCss(outfn, css).None? ==>
              CompileCss(tools, AssetState(files, map[], []), distDir, staticDistDir, webSrcDir, srcDir, iconCss)
                == (AssetState(written, map[], [Write(outfn, css), Transform(outfn)]), Err(TransformFailed(outfn)))
    ensures var outfn := Paths.Join(staticDistDir, "global.css");
            var written := files[outfn := css];
            tools.minifyCss(outfn, css).Some? ==>
              var out := tools.minifyCss(outfn, css).value;
              var name := OutputName("global.css", tools.sha1(css), tools.integrity(out));
              var dest := Paths.Join(staticDistDir, name);
              var entry := Entry(Relpath(staticDistDir, name), tools.integrity(out));
              CompileCss(tools, AssetState(files, map[], []), distDir, staticDistDir, webSrcDir, srcDir, iconCss)
                == (AssetState(written[dest := out], map[CacheKey(outfn, tools.sha1(css)) := entry],
                               [Write(outfn, css), Transform(outfn), Write(dest, out)]),
                    Ok(Globals(entry.relpath, entry.sha)))
  {
    var outfn := Paths.Join(staticDistDir, "global.css");
    var written := AssetState(files[outfn := css], map[], [Write(outfn, css)]);
    var dirs := Dirs(distDir, webSrcDir, Paths.Dirname(staticDistDir), staticDistDir);
    assert [] + [Write(outfn, css)] == [Write(outfn, css)];
    assert [Write(outfn, css)] + [Transform(outfn)] == [Write(outfn, css), Transform(outfn)];
    assert forall w :: [Write(outfn, css), Transform(outfn)] + [w] == [Write(outfn, css), Transform(outfn), w];
    GlobalCssTransforms(staticDistDir);
    assert ResolveSource(written.files, dirs, "global.css", outfn) == Ok(outfn);
    var key := CacheKey(outfn, tools.sha1(css));
    assert Generate(tools, dirs, written, "global.css", outfn) == Fill(tools, dirs, written, "global.css", outfn, key);
    assert TransformContents(tools, outfn, css)
        == if tools.minifyCss(outfn, css).None? then Err(TransformFailed(outfn)) else Ok(tools.minifyCss(outfn, css).value);
    var (st', e) := Generate(tools, dirs, written, "global.css", outfn);
    assert CompileCss(tools, AssetState(files, map[], []), distDir, staticDistDir, webSrcDir, srcDir, iconCss)
        == (st', if e.Ok? then Ok(Globals(e.value.relpath, e.value.sha)) else Err(e.error));
  }

  /** The asset pipeline of one process: the files it sees, its cache and the
      effects it has performed. */
  class AssetPipeline {
    const tools: Tools
    var files: map<string, string>
    var cache: map<string, Entry>
    var effects: seq<Effect>

    ghost function Current(): AssetState
      reads this
    {
      AssetState(files, cache, effects)
    }

    /** A fresh process: the module-level cache starts empty. */
    constructor (tools: Tools, files: map<string, string>)
      ensures this.tools == tools && Current() == AssetState(files, map[], [])
    {
      this.tools := tools;
      this.files := files;
      this.cache := map[];
      this.effects := [];
    }

    /** `generateFileSSRI`, updating the cache and the files in place. */
    method GenerateFileSsri(dirs: Dirs, href: string, fn: string) returns (r: Result<Entry, AssetError>)
      modifies this
      ensures (Current(), r) == Generate(tools, dirs, old(Current()), href, fn)
    {
      var path := if fn != "" then fn else Paths.Join(dirs.srcDir, href);
      if path !in files {
        path := Paths.Join(dirs.baseSrcDir, href);
        if path !in files {
          return Err(AssetNotFound(path));
        }
      }
      var key := CacheKey(path, tools.sha1(files[path]));
      if key in cache {
        return Ok(cache[key]);
      }
      r := Miss(dirs, href, path, key);
    }

    /** The miss branch of `generateFileSSRI`: run the minifier the extension
        calls for, digest its output, store the entry and write the file. */
    method Miss(dirs: Dirs, href: string, path: string, key: string) returns (r: Result<Entry, AssetError>)
      requires path in files
      modifies this
      ensures (Current(), r) == Fill(tools, dirs, old(Current()), href, path, key)
    {
      var buf := files[path];
      var srcSha := tools.sha1(buf);
      var ext := Paths.Extname(path);
      if ext == ".css" {
        effects := effects + [Transform(path)];
        var out := tools.minifyCss(path, buf);
        if out.None? {
          return Err(TransformFailed(path));
        }
        buf := out.value;
      } else if ext == ".js" {
        effects := effects + [Transform(path)];
        var out := tools.minifyJs(path, buf);
        if out.None? {
          return Err(TransformFailed(path));
        }
        buf := out.value;
      }
      var integrity := tools.integrity(buf);
      var name := OutputName(href, srcSha, integrity);
      var entry := Entry(Relpath(dirs.staticDistDir, name), integrity);
      cache := cache[key := entry];
      var outfn := Paths.Join(dirs.staticDistDir, name);
      files := files[outfn := buf];
      effects := effects + [Write(outfn, buf)];
      return Ok(entry);
    }

    /** `compileCSSAndFixHTML`, updating the pipeline in place. */
    method CompileCssAndFixHtml(distDir: string, staticDistDir: string, webSrcDir: string, srcDir: string, iconCss: string)
      returns (r: Result<Globals, AssetError>)
      modifies this
      ensures (Current(), r) == CompileCss(tools, old(Current()), distDir, staticDistDir, webSrcDir, srcDir, iconCss)
    {
      var css := GlobalCss(files, webSrcDir, srcDir, iconCss);
      if css.Err? {
        return Err(css.error);
      }
      var outfn := Paths.Join(staticDistDir, "global.css");
      files := files[outfn := css.value];
      effects := effects + [Write(outfn, css.value)];
      var e := GenerateFileSsri(Dirs(distDir, webSrcDir, Paths.Dirname(staticDistDir), staticDistDir), "global.css", outfn);
      match e
      case Ok(entry) => r := Ok(Globals(entry.relpath, entry.sha));
      case Err(err) => r := Err(err);
    }
  }

  /** Two `script` helpers for the same asset in one run: the same entry twice,
      and the pipeline ends in the state a single call leaves, so the second
      call neither transforms nor writes. */
  method ScriptTwice(p: AssetPipeline, dirs: Dirs, href: string) returns (r1: Result<Entry, AssetError>, r2: Result<Entry, AssetError>)
    requires WriteAvoidsSources(p.tools, dirs, p.Current(), href, "")
    modifies p
    ensures r1 == r2
    ensures p.Current() == Generate(p.tools, dirs, old(p.Current()), href, "").0
  {
    ghost var st0 := p.Current();
    r1 := p.GenerateFileSsri(dirs, href, "");
    SecondCallHits(p.tools, dirs, st0, href, "");
    r2 := p.GenerateFileSsri(dirs, href, "");
  }
}

=== FILE: build.dfy ===
/** The `build` command of src/js/build.mjs as a plan of effects: where the
    data comes from, the site URL, which templates are compiled and from
    which directories, and the ordered list of pages and emails written.
    Rendering a template and minifying HTML are left to Handlebars and
    html-minifier; an effect records which file is rendered or written. */
module Build {
  import opened Wrappers
  import opened Strings
  import Paths
  import Util
  import Assets

  /** The flags the command declares. */
  const FlagNames: set<string> := {"site", "theme", "output", "host", "file", "debug", "quiet", "index", "email"}

  /** The parsed flags; an empty `file` or `theme` means the flag is absent. */
  datatype Flags = Flags(site: string, theme: string, output: string, host: string, file: string,
                         debug: bool, quiet: bool, index: bool, email: bool)

  /** The site record: its slug and, when it has one, the value of its custom hostname. */
  datatype Site = Site(slug: string, hostname: Option<string>)

  datatype Changelog = Changelog(id: string)

  /** The data a build renders: the site and its changelog entries. */
  datatype Data = Data(site: Site, changelogs: seq<Changelog>)

  datatype BuildError =
    | InputMissing(path: string)
    | BadInput(path: string)
    | ApiFailed(message: string)
    | TemplateNotFound(name: string, dirs: seq<string>)
      /** `registerHelpers` reads `flags.debug` from an argument that holds no `flags`. */
    | HelpersWithoutFlags
      /** The `node_modules` link cannot be made because the path is taken. */
    | LinkExists(path: string)
      /** Reading or fingerprinting the global stylesheet failed. */
    | StylesheetFailed(error: Assets.AssetError)

  /** One step of a build, in the order the build takes it. */
  datatype Action =
    | MakeDir(path: string)
    | ReadInput(path: string)
    | Fetch(url: string)
    | WriteData(path: string)
    | Compile(name: string, path: string)
    | RenderIndex(path: string)
    | RenderSearch(path: string)
    | RenderPage(path: string)
    | RenderEmail(path: string)
    | Link(path: string)
    | WriteConfig(path: string)
    | Asset(effect: Assets.Effect)
    | Unlink(path: string)

  /** The API field a site is looked up by: a name with a dot is a hostname, anything else a slug. */
  function ApiField(site: string): (field: string)
    ensures Contains(site, ".") ==> field == "hostname.value"
    ensures !Contains(site, ".") ==> field == "slug"
  {
    if Contains(site, ".") then "hostname.value" else "slug"
  }

  /** The API path listing a site's changelogs with rendered HTML and statistics. */
  function ApiPath(site: string): string
  {
    "/changelog/list/" + site + "/" + ApiField(site) + "?html=true&stats=true"
  }

  /** `site.url`: `https://` and the custom hostname when the site has a
      non-empty one, otherwise the slug under `changelog.so`. */
  function SiteUrl(site: Site): (url: string)
    ensures StartsWith(url, "https://")
    ensures site.hostname.Some? && site.hostname.value != "" ==> url[8..] == site.hostname.value
    ensures !(site.hostname.Some? && site.hostname.value != "") ==> url[8..] == site.slug + ".changelog.so"
  {
    "https://" + (if site.hostname.Some? && site.hostname.value != "" then site.hostname.value else site.slug + ".changelog.so")
  }

  /** Email-only mode: emails are wanted and the index is not. */
  predicate OnlyEmail(flags: Flags)
  {
    flags.email && !flags.index
  }

  /** The directories of a build, from the package's source directory `baseSrcDir`. */
  datatype Dirs = Dirs(baseSrcDir: string, webSrcDir: string, emailSrcDir: string, baseThemeDir: string,
                       srcDir: string, distDir: string, staticDistDir: string, emailDistDir: string)

  function BuildDirs(flags: Flags, baseSrcDir: string): (d: Dirs)
    ensures d.srcDir == if flags.theme != "" then flags.theme else d.baseThemeDir
    ensures d.distDir == flags.output
  {
    var baseThemeDir := Paths.Join(Paths.Join(baseSrcDir, "theme"), "base");
    Dirs(baseSrcDir, Paths.Join(baseSrcDir, "web"), Paths.Join(baseSrcDir, "email"), baseThemeDir,
         if flags.theme != "" then flags.theme else baseThemeDir,
         flags.output, Paths.Join(flags.output, "static"), Paths.Join(flags.output, "email"))
  }

  /** Where web templates are looked for: the theme, the web sources, the base theme. */
  function WebTemplateDirs(d: Dirs): seq<string>
  {
    [d.srcDir, d.webSrcDir, d.baseThemeDir]
  }

  /** Where the email template is looked for: the theme, the email sources, the base theme. */
  function EmailTemplateDirs(d: Dirs): seq<string>
  {
    [d.srcDir, d.emailSrcDir, d.baseThemeDir]
  }

  function TemplatePaths(dirs: seq<string>, name: string): (c: seq<string>)
    ensures |c| == |dirs|
    ensures forall k :: 0 <= k < |dirs| ==> c[k] == Paths.Join(dirs[k], name)
  {
    seq(|dirs|, k requires 0 <= k < |dirs| => Paths.Join(dirs[k], name))
  }

  /** `createTemplate(dirs, name)`: the template file in the first directory,
      in list order, that holds `name`; an error when none does. */
  function CreateTemplate(dirs: seq<string>, name: string, exists_: set<string>): (r: Result<string, BuildError>)
    ensures r.Err? <==> forall k :: 0 <= k < |dirs| ==> Paths.Join(dirs[k], name) !in exists_
    ensures r.Err? ==> r.error == TemplateNotFound(name, dirs)
    ensures r.Ok? ==> exists k :: 0 <= k < |dirs| && r.value == Paths.Join(dirs[k], name) && r.value in exists_
                                  && forall j :: 0 <= j < k ==> Paths.Join(dirs[j], name) !in exists_
  {
    var c := TemplatePaths(dirs, name);
    match Paths.FirstPresent(c, exists_)
    case Some(i) => Ok(c[i])
    case None => Err(TemplateNotFound(name, dirs))
  }

  /** The templates a build compiles, in the order it compiles them, with
      their search directories: only the email template in email-only mode. */
  function WantedTemplates(flags: Flags, d: Dirs): seq<(string, seq<string>)>
  {
    if OnlyEmail(flags) then [("email.html", EmailTemplateDirs(d))]
    else [("index.html", WebTemplateDirs(d)), ("page.html", WebTemplateDirs(d)),
          ("email.html", EmailTemplateDirs(d)), ("search.html", WebTemplateDirs(d))]
  }

  /** Compiles the wanted templates in order, stopping at the first that cannot be found. */
  function CompileTemplates(wanted: seq<(string, seq<string>)>, exists_: set<string>): (r: (seq<Action>, Option<BuildError>))
    ensures r.1.None? <==> forall k :: 0 <= k < |wanted| ==> CreateTemplate(wanted[k].1, wanted[k].0, exists_).Ok?
    ensures r.1.None? ==> |r.0| == |wanted|
    ensures r.1.None? ==> forall k :: 0 <= k < |wanted| ==> r.0[k] == Compile(wanted[k].0, CreateTemplate(wanted[k].1, wanted[k].0, exists_).value)
    decreases |wanted|
  {
    if |wanted| == 0 then ([], None)
    else
      var (name, dirs) := wanted[0];
      match CreateTemplate(dirs, name, exists_)
      case Err(e) => ([], Some(e))
      case Ok(path) =>
        var rest := CompileTemplates(wanted[1..], exists_);
        assert forall k :: 1 <= k < |wanted| ==> wanted[k] == wanted[1..][k - 1];
        ([Compile(name, path)] + rest.0, rest.1)
  }

  function IndexPath(flags: Flags): string { Paths.Join(flags.output, "index.html") }
  function SearchPath(flags: Flags): string { Paths.Join(flags.output, "search.html") }
  function EntryDir(flags: Flags): string { Paths.Join(flags.output, "entry") }
  function PagePath(flags: Flags, c: Changelog): string { Paths.Join(EntryDir(flags), c.id + ".html") }
  function EmailPath(emailDistDir: string, c: Changelog): string { Paths.Join(emailDistDir, c.id + ".html") }

  /** The directory created before each page or email is the one the file
      goes in: `path.dirname` of its path, for an id without `/`. */
  lemma PageAndEmailDirs(flags: Flags, emailDistDir: string, c: Changelog)
    requires '/' !in c.id && emailDistDir != ""
    ensures Paths.Dirname(PagePath(flags, c)) == EntryDir(flags)
    ensures Paths.Dirname(EmailPath(emailDistDir, c)) == emailDistDir
  {
    assert '/' !in c.id + ".html";
    Paths.DirnameOfJoin(EntryDir(flags), c.id + ".html");
    Paths.DirnameOfJoin(emailDistDir, c.id + ".html");
  }

  /** The index and search pages, written first and only when the index is wanted. */
  function IndexPlan(flags: Flags): seq<Action>
  {
    if flags.index then [RenderIndex(IndexPath(flags)), RenderSearch(SearchPath(flags))] else []
  }

  /** One changelog's work: its page (when there is a page template), then
      its email (when emails are wanted), each after creating the directory
      the file goes in (see `PageAndEmailDirs`). */
  function EntryPlan(flags: Flags, hasPage: bool, emailDistDir: string, c: Changelog): seq<Action>
  {
    (if hasPage then [MakeDir(EntryDir(flags)), RenderPage(PagePath(flags, c))] else [])
    + (if flags.email then [MakeDir(emailDistDir), RenderEmail(EmailPath(emailDistDir, c))] else [])
  }

  function EntriesPlan(flags: Flags, hasPage: bool, emailDistDir: string, cs: seq<Changelog>): seq<Action>
    decreases |cs|
  {
    if |cs| == 0 then []
    else EntriesPlan(flags, hasPage, emailDistDir, cs[..|cs| - 1]) + EntryPlan(flags, hasPage, emailDistDir, cs[|cs| - 1])
  }

  /** What `generate` does, in order: index and search, then each changelog in list order. */
  function GeneratePlan(flags: Flags, hasPage: bool, emailDistDir: string, cs: seq<Changelog>): seq<Action>
  {
    IndexPlan(flags) + EntriesPlan(flags, hasPage, emailDistDir, cs)
  }

  /** `generate`: the index and search first, then each changelog's page and email. */
  method Generate(flags: Flags, hasPage: bool, emailDistDir: string, cs: seq<Changelog>) returns (actions: seq<Action>)
    ensures actions == GeneratePlan(flags, hasPage, emailDistDir, cs)
  {
    actions := [];
    if flags.index {
      actions := [RenderIndex(Paths.Join(flags.output, "index.html")), RenderSearch(Paths.Join(flags.output, "search.html"))];
    }
    for i := 0 to |cs|
      invariant actions == IndexPlan(flags) + EntriesPlan(flags, hasPage, emailDistDir, cs[..i])
    {
      var c := cs[i];
      if hasPage {
        var dir := Paths.Join(flags.output, "entry");
        actions := actions + [MakeDir(dir), RenderPage(Paths.Join(dir, c.id + ".html"))];
      }
      if flags.email {
        actions := actions + [MakeDir(emailDistDir), RenderEmail(Paths.Join(emailDistDir, c.id + ".html"))];
      }
      assert cs[..i + 1][..i] == cs[..i];
    }
    assert cs[..|cs|] == cs;
  }

  /** Changelog `k`'s work is one contiguous block of the entries plan,
      right after the work of the changelogs before it. */
  lemma {:induction false} EntryBlock(flags: Flags, hasPage: bool, emailDistDir: string, cs: seq<Changelog>, k: nat)
    requires k < |cs|
    ensures var ep := EntriesPlan(flags, hasPage, emailDistDir, cs);
            var at := |EntriesPlan(flags, hasPage, emailDistDir, cs[..k])|;
            var block := EntryPlan(flags, hasPage, emailDistDir, cs[k]);
            at + |block| <= |ep| && ep[at..at + |block|] == block
    decreases |cs|
  {
    var front := cs[..|cs| - 1];
    var ep := EntriesPlan(flags, hasPage, emailDistDir, cs);
    var q := EntriesPlan(flags, hasPage, emailDistDir, front);
    assert ep == q + EntryPlan(flags, hasPage, emailDistDir, cs[|cs| - 1]);
    if k == |cs| - 1 {
      assert cs[..k] == front;
    } else {
      EntryBlock(flags, hasPage, emailDistDir, front, k);
      assert front[..k] == cs[..k];
      assert front[k] == cs[k];
    }
  }

  /** The entries plan renders no index or search page. */
  lemma {:induction false} EntriesPlanHasNoIndex(flags: Flags, hasPage: bool, emailDistDir: string, cs: seq<Changelog>)
    ensures forall a :: a in EntriesPlan(flags, hasPage, emailDistDir, cs) ==> !a.RenderIndex? && !a.RenderSearch?
    ensures !flags.email ==> forall a :: a in EntriesPlan(flags, hasPage, emailDistDir, cs) ==> !a.RenderEmail?
    ensures !hasPage ==> forall a :: a in EntriesPlan(flags, hasPage, emailDistDir, cs) ==> !a.RenderPage?
    ensures forall a :: a in EntriesPlan(flags, hasPage, emailDistDir, cs) ==> a.MakeDir? || a.RenderPage? || a.RenderEmail?
    decreases |cs|
  {
    if |cs| > 0 {
      EntriesPlanHasNoIndex(flags, hasPage, emailDistDir, cs[..|cs| - 1]);
    }
  }

  /** In email-only mode `generate` renders no index, search or entry page. */
  lemma EmailOnlyPlan(flags: Flags, emailDistDir: string, cs: seq<Changelog>)
    requires OnlyEmail(flags)
    ensures forall a :: a in GeneratePlan(flags, false, emailDistDir, cs) ==> !a.RenderIndex? && !a.RenderSearch? && !a.RenderPage?
  {
    EntriesPlanHasNoIndex(flags, false, emailDistDir, cs);
    assert GeneratePlan(flags, false, emailDistDir, cs) == EntriesPlan(flags, false, emailDistDir, cs);
  }

  /** With the index wanted, the index and search pages are both rendered
      before any changelog's page or email. */
  lemma IndexAndSearchFirst(flags: Flags, hasPage: bool, emailDistDir: string, cs: seq<Changelog>)
    ensures var p := GeneratePlan(flags, hasPage, emailDistDir, cs);
            && (flags.index ==> p[0] == RenderIndex(IndexPath(flags)) && p[1] == RenderSearch(SearchPath(flags)))
            && (forall i, j :: (0 <= i < |p| && 0 <= j < |p| && (p[i].RenderIndex? || p[i].RenderSearch?)
                                && (p[j].RenderPage? || p[j].RenderEmail?)) ==> i < j)
            && (!flags.index ==> forall i :: 0 <= i < |p| ==> !p[i].RenderIndex? && !p[i].RenderSearch?)
  {
    var p := GeneratePlan(flags, hasPage, emailDistDir, cs);
    var ip := IndexPlan(flags);
    var ep := EntriesPlan(flags, hasPage, emailDistDir, cs);
    EntriesPlanHasNoIndex(flags, hasPage, emailDistDir, cs);
    forall i | |ip| <= i < |p|
      ensures !p[i].RenderIndex? && !p[i].RenderSearch?
    {
      assert p[i] == ep[i - |ip|];
      assert ep[i - |ip|] in ep;
    }
  }

  /** For each changelog, with a page template and emails wanted, its page is
      rendered and then, two steps later, its email; the email path is
      `emailDistDir/{id}.html` and the page path `output/entry/{id}.html`. */
  lemma PageBeforeEmail(flags: Flags, hasPage: bool, emailDistDir: string, cs: seq<Changelog>, k: nat)
    requires k < |cs|
    ensures var p := GeneratePlan(flags, hasPage, emailDistDir, cs);
            var at := |IndexPlan(flags)| + |EntriesPlan(flags, hasPage, emailDistDir, cs[..k])|;
            && (hasPage ==> at + 1 < |p| && p[at + 1] == RenderPage(PagePath(flags, cs[k])))
            && (hasPage && flags.email ==> at + 3 < |p| && p[at + 3] == RenderEmail(EmailPath(emailDistDir, cs[k])))
            && (!hasPage && flags.email ==> at + 1 < |p| && p[at + 1] == RenderEmail(EmailPath(emailDistDir, cs[k])))
  {
    EntryBlock(flags, hasPage, emailDistDir, cs, k);
    var ep := EntriesPlan(flags, hasPage, emailDistDir, cs);
    var at := |EntriesPlan(flags, hasPage, emailDistDir, cs[..k])|;
    var block := EntryPlan(flags, hasPage, emailDistDir, cs[k]);
    assert ep[at..at + |block|] == block;
    if hasPage {
      assert ep[at + 1] == block[1];
    }
    if hasPage && flags.email {
      assert ep[at + 3] == block[3];
    }
    if !hasPage && flags.email {
      assert ep[at + 1] == block[1];
    }
  }

  /** Every changelog's email is rendered exactly when emails are wanted, and
      its page exactly when there is a page template. */
  lemma EmailIffWanted(flags: Flags, hasPage: bool, emailDistDir: string, cs: seq<Changelog>, k: nat)
    requires k < |cs|
    ensures RenderEmail(EmailPath(emailDistDir, cs[k])) in GeneratePlan(flags, hasPage, emailDistDir, cs) <==> flags.email
    ensures RenderPage(PagePath(flags, cs[k])) in GeneratePlan(flags, hasPage, emailDistDir, cs) <==> hasPage
  {
    var p := GeneratePlan(flags, hasPage, emailDistDir, cs);
    var ip := IndexPlan(flags);
    var ep := EntriesPlan(flags, hasPage, emailDistDir, cs);
    PageBeforeEmail(flags, hasPage, emailDistDir, cs, k);
    EntriesPlanHasNoIndex(flags, hasPage, emailDistDir, cs);
    if !flags.email {
      assert RenderEmail(EmailPath(emailDistDir, cs[k])) !in ip;
      assert RenderEmail(EmailPath(emailDistDir, cs[k])) !in ep;
    }
    if !hasPage {
      assert RenderPage(PagePath(flags, cs[k])) !in ip;
      assert RenderPage(PagePath(flags, cs[k])) !in ep;
    }
  }

  /** Where the environment comes in: which files exist, the contents of
      input files (`None` when the text is not valid data), the API's answer
      for a URL, the text of the files the stylesheet step reads, the digests
      and compilers of the asset pipeline, and the icon library's stylesheet. */
  datatype Env = Env(baseSrcDir: string, exists_: set<string>, inputs: map<string, Option<Data>>,
                     api: string -> Result<Data, string>, files: map<string, string>, tools: Assets.Tools, iconCss: string)

  /** Where the data comes from: the input file when `file` is given, and the
      API otherwise, whose answer is saved as `data.json`. */
  function LoadData(flags: Flags, env: Env): (r: (seq<Action>, Result<Data, BuildError>))
    ensures forall a :: a in r.0 ==> a.ReadInput? || a.Fetch? || a.WriteData?
    ensures flags.file != "" ==> forall a :: a in r.0 ==> !a.WriteData? && !a.Fetch?
    ensures flags.file == "" && r.1.Ok? ==> WriteData(Paths.Join(flags.output, "data.json")) in r.0
    ensures flags.file == "" ==> Fetch(Util.ApiUrl(flags.host, ApiPath(flags.site))) in r.0
    ensures flags.file != "" ==>
              && (r.1.Ok? <==> flags.file in env.inputs && env.inputs[flags.file].Some?)
              && (r.1.Ok? ==> r.1.value == env.inputs[flags.file].value)
              && (flags.file !in env.inputs ==> r == ([], Err(InputMissing(flags.file))))
              && (flags.file in env.inputs && env.inputs[flags.file].None? ==> r.1 == Err(BadInput(flags.file)))
    ensures flags.file == "" ==>
              var url := Util.ApiUrl(flags.host, ApiPath(flags.site));
              && (r.1.Ok? <==> env.api(url).Ok?)
              && (r.1.Ok? ==> r.1.value == env.api(url).value)
              && (env.api(url).Err? ==> r.1 == Err(ApiFailed(env.api(url).error)))
  {
    if flags.file != "" then
      if flags.file !in env.inputs then ([], Err(InputMissing(flags.file)))
      else match env.inputs[flags.file]
        case None => ([ReadInput(flags.file)], Err(BadInput(flags.file)))
        case Some(data) => ([ReadInput(flags.file)], Ok(data))
    else
      var url := Util.ApiUrl(flags.host, ApiPath(flags.site));
      match env.api(url)
      case Err(message) => ([Fetch(url)], Err(ApiFailed(message)))
      case Ok(data) => ([Fetch(url), WriteData(Paths.Join(flags.output, "data.json"))], Ok(data))
  }

  /** The effects of a build, up to the first error, and the site URL when it succeeds. */
  datatype Outcome = Outcome(actions: seq<Action>, result: Result<string, BuildError>)

  /** The steps of `run` before the helpers are registered: create the theme
      and output directories, load the data, and, once the data is loaded,
      create the static and email directories. */
  function Prepare(flags: Flags, env: Env): (r: (seq<Action>, Result<Data, BuildError>))
    ensures r.1 == LoadData(flags, env).1
    ensures |r.0| >= 2 && r.0[0] == MakeDir(flags.theme) && r.0[1] == MakeDir(flags.output)
    ensures forall a :: a in r.0 ==> a.MakeDir? || a.ReadInput? || a.Fetch? || a.WriteData?
    ensures flags.file != "" ==> forall a :: a in r.0 ==> !a.WriteData? && !a.Fetch?
  {
    var start := [MakeDir(flags.theme), MakeDir(flags.output)];
    var (loaded, data) := LoadData(flags, env);
    if data.Err? then (start + loaded, data)
    else
      var d := BuildDirs(flags, env.baseSrcDir);
      (start + loaded + [MakeDir(d.staticDistDir), MakeDir(d.emailDistDir)], data)
  }

  /** The link to the package's `node_modules` that the generated tailwind configuration needs. */
  function NodeModulesLink(d: Dirs): string
  {
    Paths.Join(d.distDir, "node_modules")
  }

  /** The tailwind configuration written with the theme's purge folders. */
  function ConfigPath(d: Dirs): string
  {
    Paths.Join(d.distDir, "tailwind.generated.config.js")
  }

  /** The asset pipeline's effects as build actions, in order. */
  function AssetActions(effects: seq<Assets.Effect>): (r: seq<Action>)
    ensures |r| == |effects| && forall a :: a in r ==> a.Asset?
  {
    if effects == [] then [] else [Asset(effects[0])] + AssetActions(effects[1..])
  }

  /** The link, the configuration write, the asset pipeline's effects in
      order, and the removal of the link. */
  function LinkedActions(link: string, config: string, effects: seq<Assets.Effect>): (r: seq<Action>)
    ensures |r| == |effects| + 3 && r[0] == Link(link) && r[1] == WriteConfig(config) && r[|r| - 1] == Unlink(link)
    ensures forall a :: a in r ==> a.Link? || a.WriteConfig? || a.Asset? || a.Unlink?
  {
    [Link(link), WriteConfig(config)] + AssetActions(effects) + [Unlink(link)]
  }

  /** The stylesheet step of a fresh process for these flags: the effects of
      `compileCSSAndFixHTML` and the globals it returns. */
  function StylesheetOf(flags: Flags, env: Env): (seq<Assets.Effect>, Result<Assets.Globals, Assets.AssetError>)
  {
    var d := BuildDirs(flags, env.baseSrcDir);
    Assets.FreshStylesheet(env.tools, env.files, d.staticDistDir, d.webSrcDir, d.srcDir, env.iconCss)
  }

  /** The work `registerHelpers` does before registering the helpers, given
      the outcome `css` of the stylesheet step: link `node_modules` into the
      output directory, write the tailwind configuration, perform the
      stylesheet step, and remove the link again whether or not the
      stylesheet compiled. */
  function Stylesheet(d: Dirs, exists_: set<string>, css: (seq<Assets.Effect>, Result<Assets.Globals, Assets.AssetError>))
    : (r: (seq<Action>, Result<Assets.Globals, BuildError>))
    ensures forall a :: a in r.0 ==> a.Link? || a.WriteConfig? || a.Asset? || a.Unlink?
    ensures r.1.Ok? <==> NodeModulesLink(d) !in exists_ && css.1.Ok?
    ensures NodeModulesLink(d) in exists_ ==> r == ([], Err(LinkExists(NodeModulesLink(d))))
    ensures css.1.Err? && NodeModulesLink(d) !in exists_ ==> r.1 == Err(StylesheetFailed(css.1.error))
    ensures r.1.Ok? ==> r.1.value == css.1.value
    ensures NodeModulesLink(d) !in exists_ ==>
              && |r.0| == |css.0| + 3 && r.0[0] == Link(NodeModulesLink(d)) && r.0[1] == WriteConfig(ConfigPath(d))
              && r.0[|r.0| - 1] == Unlink(NodeModulesLink(d))
  {
    var link := NodeModulesLink(d);
    if link in exists_ then ([], Err(LinkExists(link)))
    else
      (LinkedActions(link, ConfigPath(d), css.0), if css.1.Ok? then Ok(css.1.value) else Err(StylesheetFailed(css.1.error)))
  }

  /** What `run` does once the data is loaded, given the outcome `css` of the
      stylesheet step: register the helpers, compile the templates, generate,
      and call the shutdown that removes the tailwind configuration. */
  function RenderSite(flags: Flags, env: Env, data: Data, css: (seq<Assets.Effect>, Result<Assets.Globals, Assets.AssetError>))
    : (r: (seq<Action>, Result<string, BuildError>))
    ensures forall a :: a in r.0 ==> !a.ReadInput? && !a.Fetch? && !a.WriteData?
    ensures r.1.Ok? ==> r.1.value == SiteUrl(data.site)
  {
    var d := BuildDirs(flags, env.baseSrcDir);
    var (styled, globals) := Stylesheet(d, env.exists_, css);
    var (compiled, failed) := CompileTemplates(WantedTemplates(flags, d), env.exists_);
    var g := GeneratePlan(flags, !OnlyEmail(flags), d.emailDistDir, data.changelogs);
    CompiledOnly(WantedTemplates(flags, d), env.exists_);
    GeneratePlanKinds(flags, !OnlyEmail(flags), d.emailDistDir, data.changelogs);
    SiteActionKinds(styled, compiled, g, Unlink(ConfigPath(d)));
    if globals.Err? then (styled, Err(globals.error))
    else if failed.Some? then (styled + compiled, Err(failed.value))
    else (styled + compiled + g + [Unlink(ConfigPath(d))], Ok(SiteUrl(data.site)))
  }

  /** Where an action of the build after the data load comes from: the
      stylesheet step, the template compilation, `generate` or the shutdown. */
  lemma SiteActionKinds(styled: seq<Action>, compiled: seq<Action>, g: seq<Action>, shutdown: Action)
    requires forall a :: a in styled ==> a.Link? || a.WriteConfig? || a.Asset? || a.Unlink?
    requires forall a :: a in compiled ==> a.Compile?
    requires forall a :: a in g ==> a.MakeDir? || a.RenderIndex? || a.RenderSearch? || a.RenderPage? || a.RenderEmail?
    requires shutdown.Unlink?
    ensures forall a :: a in styled ==> !a.ReadInput? && !a.Fetch? && !a.WriteData?
    ensures forall a :: a in styled + compiled ==> !a.ReadInput? && !a.Fetch? && !a.WriteData?
    ensures forall a :: a in styled + compiled + g + [shutdown] ==> !a.ReadInput? && !a.Fetch? && !a.WriteData?
    ensures forall a :: a in compiled ==> !a.Link?
    ensures forall a :: a in compiled + g + [shutdown] ==> !a.Link?
  {
  }

  /** The build after the data load renders no index, search or entry page
      when `generate` renders none. */
  lemma SiteRendersNoPage(styled: seq<Action>, compiled: seq<Action>, g: seq<Action>, shutdown: Action)
    requires forall a :: a in styled ==> a.Link? || a.WriteConfig? || a.Asset? || a.Unlink?
    requires forall a :: a in compiled ==> a.Compile?
    requires forall a :: a in g ==> !a.RenderIndex? && !a.RenderSearch? && !a.RenderPage?
    requires shutdown.Unlink?
    ensures forall a :: a in styled ==> !a.RenderIndex? && !a.RenderSearch? && !a.RenderPage?
    ensures forall a :: a in styled + compiled ==> !a.RenderIndex? && !a.RenderSearch? && !a.RenderPage?
    ensures forall a :: a in styled + compiled + g + [shutdown] ==> !a.RenderIndex? && !a.RenderSearch? && !a.RenderPage?
  {
  }

  /** A sequence of steps ending in `undo`, followed only by steps other than
      `step`, has an `undo` after every `step`. */
  lemma UndoneAfter(s: seq<Action>, tail: seq<Action>, step: Action, undo: Action)
    requires |s| > 0 && s[|s| - 1] == undo && step != undo
    requires forall a :: a in tail ==> a != step
    ensures forall i :: 0 <= i < |s + tail| && (s + tail)[i] == step ==> exists j :: i < j < |s + tail| && (s + tail)[j] == undo
  {
    var r := s + tail;
    forall i | |s| <= i < |r|
      ensures r[i] != step
    {
      assert r[i] == tail[i - |s|] && tail[i - |s|] in tail;
    }
    assert r[|s| - 1] == undo;
  }

  /** `run` with `registerHelpers` given the flags: the preparation, then,
      once the data is loaded, the rest of the build with the stylesheet step
      of a fresh process. */
  function Run(flags: Flags, env: Env): (o: Outcome)
    ensures |o.actions| >= 2 && o.actions[0] == MakeDir(flags.theme) && o.actions[1] == MakeDir(flags.output)
    ensures o.result.Ok? ==> LoadData(flags, env).1.Ok? && o.result.value == SiteUrl(LoadData(flags, env).1.value.site)
  {
    var (prepared, data) := Prepare(flags, env);
    if data.Err? then Outcome(prepared, Err(data.error))
    else
      var (rest, result) := RenderSite(flags, env, data.value, StylesheetOf(flags, env));
      Outcome(prepared + rest, result)
  }

  /** Once the data is loaded, the build's actions are the preparation's
      followed by the rest of the build's, and its result is the rest's. */
  lemma RunAfterLoad(flags: Flags, env: Env)
    requires LoadData(flags, env).1.Ok?
    ensures var r := RenderSite(flags, env, LoadData(flags, env).1.value, StylesheetOf(flags, env));
            && Run(flags, env).actions == Prepare(flags, env).0 + r.0
            && Run(flags, env).result == r.1
  {
  }

  /** The corrected build succeeds exactly when the data loads, the
      `node_modules` link is not there yet, the stylesheet step succeeds and
      every wanted template is found in its search directories. */
  lemma RunSucceedsIffSourcesFound(flags: Flags, env: Env)
    ensures var d := BuildDirs(flags, env.baseSrcDir);
            var w := WantedTemplates(flags, d);
            Run(flags, env).result.Ok? <==>
              && LoadData(flags, env).1.Ok?
              && NodeModulesLink(d) !in env.exists_
              && StylesheetOf(flags, env).1.Ok?
              && forall k :: 0 <= k < |w| ==> CreateTemplate(w[k].1, w[k].0, env.exists_).Ok?
  {
    if LoadData(flags, env).1.Ok? {
      RunAfterLoad(flags, env);
      RenderSiteSucceedsIff(flags, env, LoadData(flags, env).1.value, StylesheetOf(flags, env));
    }
  }

  /** `RunSucceedsIffSourcesFound` for the steps after the data is loaded. */
  lemma RenderSiteSucceedsIff(flags: Flags, env: Env, data: Data, css: (seq<Assets.Effect>, Result<Assets.Globals, Assets.AssetError>))
    ensures var d := BuildDirs(flags, env.baseSrcDir);
            var w := WantedTemplates(flags, d);
            RenderSite(flags, env, data, css).1.Ok? <==>
              && NodeModulesLink(d) !in env.exists_
              && css.1.Ok?
              && forall k :: 0 <= k < |w| ==> CreateTemplate(w[k].1, w[k].0, env.exists_).Ok?
  {
  }

  /** The link into `node_modules`, once made, is removed before anything
      else happens, whether or not the stylesheet compiled; a successful build
      ends, with `generate` taken sequentially, by removing the tailwind
      configuration it wrote. */
  lemma RunCleansUp(flags: Flags, env: Env)
    ensures var d := BuildDirs(flags, env.baseSrcDir);
            var a := Run(flags, env).actions;
            forall i :: 0 <= i < |a| && a[i] == Link(NodeModulesLink(d)) ==>
              exists j :: i < j < |a| && a[j] == Unlink(NodeModulesLink(d))
    ensures var d := BuildDirs(flags, env.baseSrcDir);
            var a := Run(flags, env).actions;
            Run(flags, env).result.Ok? ==> WriteConfig(ConfigPath(d)) in a && a[|a| - 1] == Unlink(ConfigPath(d))
  {
    var d := BuildDirs(flags, env.baseSrcDir);
    var (p, data) := Prepare(flags, env);
    if data.Err? {
      assert Run(flags, env).actions == p;
      PreparedCleanly(flags, env, d);
    } else {
      RunAfterLoad(flags, env);
      PreparedThenSiteCleansUp(flags, env, data.value, StylesheetOf(flags, env));
    }
  }

  /** `RunCleansUp` for the preparation followed by the steps after the data
      load, whatever the outcome `css` of the stylesheet step. */
  lemma PreparedThenSiteCleansUp(flags: Flags, env: Env, data: Data, css: (seq<Assets.Effect>, Result<Assets.Globals, Assets.AssetError>))
    ensures var d := BuildDirs(flags, env.baseSrcDir);
            var a := Prepare(flags, env).0 + RenderSite(flags, env, data, css).0;
            forall i :: 0 <= i < |a| && a[i] == Link(NodeModulesLink(d)) ==>
              exists j :: i < j < |a| && a[j] == Unlink(NodeModulesLink(d))
    ensures var d := BuildDirs(flags, env.baseSrcDir);
            var a := Prepare(flags, env).0 + RenderSite(flags, env, data, css).0;
            RenderSite(flags, env, data, css).1.Ok? ==> WriteConfig(ConfigPath(d)) in a && a[|a| - 1] == Unlink(ConfigPath(d))
  {
    var d := BuildDirs(flags, env.baseSrcDir);
    var r := RenderSite(flags, env, data, css);
    RenderSiteCleansUp(flags, env, data, css);
    PreparedCleanly(flags, env, d);
    LiftCleanup(Prepare(flags, env).0, r.0, Link(NodeModulesLink(d)), Unlink(NodeModulesLink(d)));
  }

  /** The preparation makes no link. */
  lemma PreparedCleanly(flags: Flags, env: Env, d: Dirs)
    ensures forall i :: 0 <= i < |Prepare(flags, env).0| ==> Prepare(flags, env).0[i] != Link(NodeModulesLink(d))
  {
    var p := Prepare(flags, env).0;
    forall i | 0 <= i < |p|
      ensures p[i] != Link(NodeModulesLink(d))
    {
      assert p[i] in p;
    }
  }

  /** Steps without `step` followed by steps that undo every `step` they take
      undo every `step` taken; and the last step is the last of the second part. */
  lemma LiftCleanup(p: seq<Action>, r: seq<Action>, step: Action, undo: Action)
    requires forall i :: 0 <= i < |p| ==> p[i] != step
    requires forall i :: 0 <= i < |r| && r[i] == step ==> exists j :: i < j < |r| && r[j] == undo
    ensures forall i :: 0 <= i < |p + r| && (p + r)[i] == step ==> exists j :: i < j < |p + r| && (p + r)[j] == undo
    ensures |r| > 0 ==> (p + r)[|p + r| - 1] == r[|r| - 1]
    ensures forall a :: a in r ==> a in p + r
  {
    var a := p + r;
    forall i | 0 <= i < |a| && a[i] == step
      ensures exists j :: i < j < |a| && a[j] == undo
    {
      if i >= |p| {
        assert r[i - |p|] == step;
        var j :| i - |p| < j < |r| && r[j] == undo;
        assert a[|p| + j] == undo;
      }
    }
  }

  /** `RunCleansUp` for the steps after the data is loaded. */
  lemma RenderSiteCleansUp(flags: Flags, env: Env, data: Data, css: (seq<Assets.Effect>, Result<Assets.Globals, Assets.AssetError>))
    ensures var d := BuildDirs(flags, env.baseSrcDir);
            var r := RenderSite(flags, env, data, css).0;
            forall i :: 0 <= i < |r| && r[i] == Link(NodeModulesLink(d)) ==>
              exists j :: i < j < |r| && r[j] == Unlink(NodeModulesLink(d))
    ensures var d := BuildDirs(flags, env.baseSrcDir);
            var r := RenderSite(flags, env, data, css).0;
            RenderSite(flags, env, data, css).1.Ok? ==> WriteConfig(ConfigPath(d)) in r && r[|r| - 1] == Unlink(ConfigPath(d))
  {
    var d := BuildDirs(flags, env.baseSrcDir);
    var st := Stylesheet(d, env.exists_, css);
    var c := CompileTemplates(WantedTemplates(flags, d), env.exists_);
    var g := GeneratePlan(flags, !OnlyEmail(flags), d.emailDistDir, data.changelogs);
    var u := Unlink(ConfigPath(d));
    CompiledOnly(WantedTemplates(flags, d), env.exists_);
    GeneratePlanKinds(flags, !OnlyEmail(flags), d.emailDistDir, data.changelogs);
    SiteActionKinds(st.0, c.0, g, u);
    SiteCleanup(NodeModulesLink(d) in env.exists_, st, c, g, u, Link(NodeModulesLink(d)));
  }

  /** The ordering facts of `RenderSiteCleansUp`, over the pieces of the
      build after the data load. */
  lemma SiteCleanup(linked: bool, st: (seq<Action>, Result<Assets.Globals, BuildError>), c: (seq<Action>, Option<BuildError>),
                    g: seq<Action>, u: Action, step: Action)
    requires step.Link? && u.Unlink?
    requires linked ==> st.0 == []
    requires !linked ==> |st.0| >= 3 && st.0[0] == step && st.0[1] == WriteConfig(u.path) && st.0[|st.0| - 1] == Unlink(step.path)
    requires forall a :: a in c.0 ==> !a.Link?
    requires forall a :: a in c.0 + g + [u] ==> !a.Link?
    ensures var r := if st.1.Err? then st.0 else if c.1.Some? then st.0 + c.0 else st.0 + c.0 + g + [u];
            forall i :: 0 <= i < |r| && r[i] == step ==> exists j :: i < j < |r| && r[j] == Unlink(step.path)
    ensures var r := st.0 + c.0 + g + [u];
            !linked ==> WriteConfig(u.path) in r && r[|r| - 1] == u
  {
    if !linked {
      if st.1.Err? {
        assert st.0 + [] == st.0;
        UndoneAfter(st.0, [], step, Unlink(step.path));
      } else if c.1.Some? {
        UndoneAfter(st.0, c.0, step, Unlink(step.path));
      } else {
        assert st.0 + c.0 + g + [u] == st.0 + (c.0 + g + [u]);
        UndoneAfter(st.0, c.0 + g + [u], step, Unlink(step.path));
      }
      assert (st.0 + c.0 + g + [u])[1] == st.0[1];
    }
  }

  /** Once the data loads, a missing global or base stylesheet stops the
      build right after the link is removed, before any template is
      compiled, with the path that could not be read. */
  lemma MissingStylesheetStopsBuild(flags: Flags, env: Env)
    requires LoadData(flags, env).1.Ok?
    requires NodeModulesLink(BuildDirs(flags, env.baseSrcDir)) !in env.exists_
    ensures var d := BuildDirs(flags, env.baseSrcDir);
            var css := Assets.GlobalCss(env.files, d.webSrcDir, d.srcDir, env.iconCss);
            var o := Run(flags, env);
            css.Err? ==>
              && o.result == Err(StylesheetFailed(css.error))
              && o.actions[|o.actions| - 1] == Unlink(NodeModulesLink(d))
              && forall a :: a in o.actions ==> !a.Compile?
  {
    var d := BuildDirs(flags, env.baseSrcDir);
    var css := Assets.GlobalCss(env.files, d.webSrcDir, d.srcDir, env.iconCss);
    if css.Err? {
      var p := Prepare(flags, env).0;
      var r := RenderSite(flags, env, LoadData(flags, env).1.value, StylesheetOf(flags, env));
      assert StylesheetOf(flags, env) == ([], Err(css.error));
      RunAfterLoad(flags, env);
      StylesheetFailureStops(flags, env, LoadData(flags, env).1.value, StylesheetOf(flags, env));
      PreparedCompilesNothing(flags, env);
      LiftCleanup(p, r.0, Link(NodeModulesLink(d)), Unlink(NodeModulesLink(d)));
    }
  }

  /** A failed stylesheet step stops the rest of the build right after the
      link is removed, with nothing compiled. */
  lemma StylesheetFailureStops(flags: Flags, env: Env, data: Data, css: (seq<Assets.Effect>, Result<Assets.Globals, Assets.AssetError>))
    requires NodeModulesLink(BuildDirs(flags, env.baseSrcDir)) !in env.exists_ && css.1.Err?
    ensures var r := RenderSite(flags, env, data, css);
            && r.1 == Err(StylesheetFailed(css.1.error))
            && |r.0| > 0 && r.0[|r.0| - 1] == Unlink(NodeModulesLink(BuildDirs(flags, env.baseSrcDir)))
            && forall a :: a in r.0 ==> !a.Compile?
  {
  }

  /** The preparation compiles nothing. */
  lemma PreparedCompilesNothing(flags: Flags, env: Env)
    ensures forall a :: a in Prepare(flags, env).0 ==> !a.Compile?
  {
  }

  /** `run` as written: `registerHelpers` is called without `flags`, so its
      first `debugLog(flags.debug, …)` throws once the data is loaded and the
      static and email directories are made. */
  function RunAsWritten(flags: Flags, env: Env): Outcome
  {
    var (prepared, data) := Prepare(flags, env);
    Outcome(prepared, Err(if data.Err? then data.error else HelpersWithoutFlags))
  }

  /** As written, every build fails: with the data loaded it stops at the
      helpers after exactly the preparation steps, having compiled and
      rendered nothing; the corrected build takes the same first steps. */
  lemma AsWrittenRunStopsAtHelpers(flags: Flags, env: Env)
    ensures RunAsWritten(flags, env).result.Err?
    ensures var d := BuildDirs(flags, env.baseSrcDir);
            LoadData(flags, env).1.Ok? ==>
              && RunAsWritten(flags, env).result == Err(HelpersWithoutFlags)
              && RunAsWritten(flags, env).actions
                 == [MakeDir(flags.theme), MakeDir(flags.output)] + LoadData(flags, env).0 + [MakeDir(d.staticDistDir), MakeDir(d.emailDistDir)]
    ensures forall a :: a in RunAsWritten(flags, env).actions ==> a.MakeDir? || a.ReadInput? || a.Fetch? || a.WriteData?
    ensures RunAsWritten(flags, env).actions <= Run(flags, env).actions
  {
    var (p, data) := Prepare(flags, env);
    if data.Ok? {
      var rest := RenderSite(flags, env, data.value, StylesheetOf(flags, env)).0;
      RunAfterLoad(flags, env);
      assert p <= p + rest;
    }
  }

  /** `data.json` is written only when the data came from the API, and
      always when the API answered. */
  lemma DataJsonOnlyFromApi(flags: Flags, env: Env)
    ensures flags.file != "" ==> forall a :: a in Run(flags, env).actions ==> !a.WriteData? && !a.Fetch?
    ensures flags.file == "" && LoadData(flags, env).1.Ok? ==> WriteData(Paths.Join(flags.output, "data.json")) in Run(flags, env).actions
  {
    var (p, data) := Prepare(flags, env);
    if data.Ok? {
      var rest := RenderSite(flags, env, data.value, StylesheetOf(flags, env)).0;
      RunAfterLoad(flags, env);
      if flags.file == "" {
        var (loaded, _) := LoadData(flags, env);
        assert WriteData(Paths.Join(flags.output, "data.json")) in loaded;
        assert WriteData(Paths.Join(flags.output, "data.json")) in p;
      }
    }
  }

  lemma {:induction false} CompiledOnly(wanted: seq<(string, seq<string>)>, exists_: set<string>)
    ensures forall a :: a in CompileTemplates(wanted, exists_).0 ==> a.Compile?
    decreases |wanted|
  {
    if |wanted| > 0 {
      CompiledOnly(wanted[1..], exists_);
    }
  }

  /** `generate` only makes directories and renders. */
  lemma GeneratePlanKinds(flags: Flags, hasPage: bool, emailDistDir: string, cs: seq<Changelog>)
    ensures forall a :: a in GeneratePlan(flags, hasPage, emailDistDir, cs) ==>
              a.MakeDir? || a.RenderIndex? || a.RenderSearch? || a.RenderPage? || a.RenderEmail?
  {
    EntriesPlanHasNoIndex(flags, hasPage, emailDistDir, cs);
  }

  lemma GenerateWritesNoData(flags: Flags, hasPage: bool, emailDistDir: string, cs: seq<Changelog>)
    ensures forall a :: a in GeneratePlan(flags, hasPage, emailDistDir, cs) ==> !a.WriteData? && !a.Fetch?
  {
    EntriesWriteNoData(flags, hasPage, emailDistDir, cs);
  }

  lemma {:induction false} EntriesWriteNoData(flags: Flags, hasPage: bool, emailDistDir: string, cs: seq<Changelog>)
    ensures forall a :: a in EntriesPlan(flags, hasPage, emailDistDir, cs) ==> !a.WriteData? && !a.Fetch?
    decreases |cs|
  {
    if |cs| > 0 {
      EntriesWriteNoData(flags, hasPage, emailDistDir, cs[..|cs| - 1]);
    }
  }

  /** When every wanted template is found, in email-only mode the build
      compiles the email template and nothing else; otherwise it compiles the
      index, page, email and search templates, in that order. */
  lemma EmailOnlyCompiles(flags: Flags, env: Env)
    requires CompileTemplates(WantedTemplates(flags, BuildDirs(flags, env.baseSrcDir)), env.exists_).1.None?
    ensures var d := BuildDirs(flags, env.baseSrcDir);
            var c := CompileTemplates(WantedTemplates(flags, d), env.exists_).0;
            && (OnlyEmail(flags) ==> |c| == 1 && c[0].name == "email.html")
            && (!OnlyEmail(flags) ==> |c| == 4 && c[0].name == "index.html" && c[1].name == "page.html"
                                      && c[2].name == "email.html" && c[3].name == "search.html")
  {
  }

  /** In email-only mode no index, search or entry page is rendered. */
  lemma EmailOnlyRendersNoPage(flags: Flags, env: Env)
    requires OnlyEmail(flags)
    ensures forall a :: a in Run(flags, env).actions ==> !a.RenderIndex? && !a.RenderSearch? && !a.RenderPage?
  {
    var (p, data) := Prepare(flags, env);
    if data.Ok? {
      RunAfterLoad(flags, env);
      EmailOnlyRenderSite(flags, env, data.value, StylesheetOf(flags, env));
    }
  }

  /** `EmailOnlyRendersNoPage` for the steps after the data is loaded. */
  lemma EmailOnlyRenderSite(flags: Flags, env: Env, data: Data, css: (seq<Assets.Effect>, Result<Assets.Globals, Assets.AssetError>))
    requires OnlyEmail(flags)
    ensures forall a :: a in RenderSite(flags, env, data, css).0 ==> !a.RenderIndex? && !a.RenderSearch? && !a.RenderPage?
  {
    var d := BuildDirs(flags, env.baseSrcDir);
    var st := Stylesheet(d, env.exists_, css);
    var c := CompileTemplates(WantedTemplates(flags, d), env.exists_);
    var g := GeneratePlan(flags, false, d.emailDistDir, data.changelogs);
    CompiledOnly(WantedTemplates(flags, d), env.exists_);
    EmailOnlyPlan(flags, d.emailDistDir, data.changelogs);
    SiteRendersNoPage(st.0, c.0, g, Unlink(ConfigPath(d)));
  }
}

=== FILE: common.dfy ===
/** Success/failure wrappers shared by every module of the model. */
module Wrappers {

  datatype Option<+T> = None | Some(value: T)

  /** The outcome of an operation that the source lets throw: `Err` carries the reason. */
  datatype Result<+T, +E> = Ok(value: T) | Err(error: E)
}

/** String operations the JavaScript source uses: prefix and substring tests,
    `split`/`join` on a separator, `String(n)` for natural numbers and
    character removal (`replace(/[...]/g, "")`). */
module Strings {

  predicate StartsWith(s: string, prefix: string)
  {
    |prefix| <= |s| && s[..|prefix|] == prefix
  }

  /** `part` occurs in `s` starting at position `i`. */
  predicate OccursAt(s: string, part: string, i: int)
  {
    0 <= i <= |s| - |part| && s[i..i + |part|] == part
  }

  /** `s.includes(part)`, computed by scanning start positions from the left. */
  predicate Contains(s: string, part: string)
    decreases |s|
  {
    StartsWith(s, part) || (|s| > 0 && Contains(s[1..], part))
  }

  /** `Contains` holds exactly when `part` occurs at some position of `s`. */
  lemma {:induction false} ContainsIff(s: string, part: string)
    ensures Contains(s, part) <==> exists i :: OccursAt(s, part, i)
    decreases |s|
  {
    if StartsWith(s, part) {
      assert OccursAt(s, part, 0);
    }
    if |s| > 0 {
      ContainsIff(s[1..], part);
      if Contains(s[1..], part) {
        var i :| OccursAt(s[1..], part, i);
        assert OccursAt(s, part, i + 1);
      }
      if exists i :: OccursAt(s, part, i) {
        var i :| OccursAt(s, part, i);
        if i > 0 {
          assert OccursAt(s[1..], part, i - 1);
        }
      }
    } else {
      if exists i :: OccursAt(s, part, i) {
        var i :| OccursAt(s, part, i);
        assert |part| == 0;
      }
    }
  }

  /** `parts.join(sep)`. */
  function Join(parts: seq<string>, sep: string): string
    decreases |parts|
  {
    if |parts| == 0 then ""
    else if |parts| == 1 then parts[0]
    else parts[0] + sep + Join(parts[1..], sep)
  }

  /** Joining one more piece appends the separator and the piece. */
  lemma {:induction false} JoinAppend(parts: seq<string>, last: string, sep: string)
    requires |parts| > 0
    ensures Join(parts + [last], sep) == Join(parts, sep) + sep + last
    decreases |parts|
  {
    if |parts| == 1 {
      assert parts + [last] == [parts[0], last];
    } else {
      assert (parts + [last])[1..] == parts[1..] + [last];
      JoinAppend(parts[1..], last, sep);
    }
  }

  /** `s.split(c)` for a one-character separator: the pieces between occurrences of `c`. */
  function Split(s: string, c: char): (parts: seq<string>)
    ensures |parts| >= 1
    decreases |s|
  {
    if |s| == 0 then [""]
    else if s[0] == c then [""] + Split(s[1..], c)
    else
      var rest := Split(s[1..], c);
      [[s[0]] + rest[0]] + rest[1..]
  }

  /** No piece of `s.split(c)` contains `c`. */
  lemma {:induction false} SplitPiecesFree(s: string, c: char)
    ensures forall k :: 0 <= k < |Split(s, c)| ==> c !in Split(s, c)[k]
    decreases |s|
  {
    if |s| > 0 {
      SplitPiecesFree(s[1..], c);
      var rest := Split(s[1..], c);
      if s[0] != c {
        var parts := Split(s, c);
        assert parts[0] == [s[0]] + rest[0];
        assert forall k :: 1 <= k < |parts| ==> parts[k] == rest[k];
      }
    }
  }

  /** There is more than one piece exactly when `c` occurs. */
  lemma {:induction false} SplitCount(s: string, c: char)
    ensures |Split(s, c)| > 1 <==> c in s
    decreases |s|
  {
    if |s| > 0 {
      SplitCount(s[1..], c);
      assert s == [s[0]] + s[1..];
      assert c in s <==> s[0] == c || c in s[1..];
    }
  }

  /** Splitting on `c` and joining with `c` gives the string back, no piece
      contains `c`, and there is more than one piece exactly when `c` occurs. */
  lemma {:induction false} SplitJoin(s: string, c: char)
    ensures Join(Split(s, c), [c]) == s
    ensures forall k :: 0 <= k < |Split(s, c)| ==> c !in Split(s, c)[k]
    ensures |Split(s, c)| > 1 <==> c in s
    decreases |s|
  {
    SplitPiecesFree(s, c);
    SplitCount(s, c);
    if |s| > 0 {
      SplitJoin(s[1..], c);
      var rest := Split(s[1..], c);
      if s[0] == c {
        assert Join([""] + rest, [c]) == "" + [c] + Join(rest, [c]);
      } else {
        var parts := Split(s, c);
        assert parts[1..] == rest[1..];
        if |rest| == 1 {
          assert Join(parts, [c]) == [s[0]] + rest[0];
        } else {
          assert Join(rest, [c]) == rest[0] + [c] + Join(rest[1..], [c]);
          assert Join(parts, [c]) == [s[0]] + rest[0] + [c] + Join(rest[1..], [c]);
        }
      }
      assert s == [s[0]] + s[1..];
    }
  }

  /** The first piece of `s.split(c)`, the separator and the remaining pieces
      joined back with `c` reassemble `s` when `c` occurs in it. */
  lemma FirstPieceAndRest(s: string, c: char)
    requires c in s
    ensures Split(s, c)[0] + [c] + Join(Split(s, c)[1..], [c]) == s
    ensures c !in Split(s, c)[0]
  {
    SplitJoin(s, c);
  }

  /** `s.replace(/[chars]/g, "")`: `s` with every character of `chars` removed. */
  function RemoveAll(s: string, chars: set<char>): (r: string)
    ensures forall k :: 0 <= k < |r| ==> r[k] !in chars
    ensures |r| <= |s|
    decreases |s|
  {
    if |s| == 0 then ""
    else if s[0] in chars then RemoveAll(s[1..], chars)
    else [s[0]] + RemoveAll(s[1..], chars)
  }

  /** Removing characters distributes over concatenation. */
  lemma {:induction false} RemoveAllConcat(a: string, b: string, chars: set<char>)
    ensures RemoveAll(a + b, chars) == RemoveAll(a, chars) + RemoveAll(b, chars)
    decreases |a|
  {
    if |a| > 0 {
      assert (a + b)[1..] == a[1..] + b;
      RemoveAllConcat(a[1..], b, chars);
    } else {
      assert a + b == b;
    }
  }

  /** Removing characters that do not occur changes nothing. */
  lemma {:induction false} RemoveAllNone(s: string, chars: set<char>)
    requires forall k :: 0 <= k < |s| ==> s[k] !in chars
    ensures RemoveAll(s, chars) == s
    decreases |s|
  {
    if |s| > 0 {
      RemoveAllNone(s[1..], chars);
      assert s == [s[0]] + s[1..];
    }
  }

  function DigitChar(d: nat): char
    requires d < 10
  {
    "0123456789"[d]
  }

  predicate IsDigit(ch: char)
  {
    '0' <= ch <= '9'
  }

  /** `String(n)` for a natural number: its decimal digits, most significant first. */
  function NatToString(n: nat): (r: string)
    ensures |r| >= 1
    decreases n
  {
    if n < 10 then [DigitChar(n)] else NatToString(n / 10) + [DigitChar(n % 10)]
  }

  /** The decimal rendering has only digits, and no leading zero unless `n` is 0. */
  lemma {:induction false} NatToStringDigits(n: nat)
    ensures forall k :: 0 <= k < |NatToString(n)| ==> IsDigit(NatToString(n)[k])
    ensures NatToString(n)[0] == '0' <==> n == 0
    decreases n
  {
    if n >= 10 {
      NatToStringDigits(n / 10);
    }
  }

  function DigitValue(ch: char): nat
    requires IsDigit(ch)
  {
    (ch as int - '0' as int) as nat
  }

  /** The value a string of decimal digits denotes. */
  function ParseDigits(s: string): nat
    requires forall k :: 0 <= k < |s| ==> IsDigit(s[k])
    decreases |s|
  {
    if |s| == 0 then 0 else 10 * ParseDigits(s[..|s| - 1]) + DigitValue(s[|s| - 1])
  }

  /** Reading the decimal rendering back gives the number. */
  lemma {:induction false} NatToStringRoundTrip(n: nat)
    ensures forall k :: 0 <= k < |NatToString(n)| ==> IsDigit(NatToString(n)[k])
    ensures ParseDigits(NatToString(n)) == n
    decreases n
  {
    NatToStringDigits(n);
    var s := NatToString(n);
    if n >= 10 {
      NatToStringRoundTrip(n / 10);
      assert s[..|s| - 1] == NatToString(n / 10);
    }
  }

  /** Different numbers have different decimal renderings. */
  lemma NatToStringInjective()
    ensures forall a: nat, b: nat :: NatToString(a) == NatToString(b) ==> a == b
  {
    forall a: nat, b: nat | NatToString(a) == NatToString(b)
      ensures a == b
    {
      NatToStringRoundTrip(a);
      NatToStringRoundTrip(b);
    }
  }

  function Pow10(k: nat): (r: nat)
    ensures r >= 1
  {
    if k == 0 then 1 else 10 * Pow10(k - 1)
  }

  /** `n` with its last `k` decimal digits cut off (division by ten, `k` times, rounding down). */
  function DropDigits(n: nat, k: nat): nat
    decreases k
  {
    if k == 0 then n else DropDigits(n / 10, k - 1)
  }

  /** Cutting `k` digits off the rendering of `n` renders `n` with `k` digits dropped. */
  lemma {:induction false} PrefixOfDigits(n: nat, k: nat)
    requires k < |NatToString(n)|
    ensures NatToString(n)[..|NatToString(n)| - k] == NatToString(DropDigits(n, k))
    decreases k
  {
    if k > 0 {
      var s := NatToString(n);
      assert s[..|s| - 1] == NatToString(n / 10);
      PrefixOfDigits(n / 10, k - 1);
      assert s[..|s| - k] == NatToString(n / 10)[..|NatToString(n / 10)| - (k - 1)];
    }
  }

  /** Dropping `k` digits is `n / 10^k` rounded down, never up. */
  lemma {:induction false} DropDigitsBounds(n: nat, k: nat)
    ensures DropDigits(n, k) * Pow10(k) <= n < (DropDigits(n, k) + 1) * Pow10(k)
    decreases k
  {
    if k > 0 {
      DropDigitsBounds(n / 10, k - 1);
      var w := DropDigits(n, k);
      var p := Pow10(k - 1);
      var a := w * p;
      var b := (w + 1) * p;
      assert a <= n / 10 < b;
      assert w * Pow10(k) == 10 * a by {
        assert Pow10(k) == 10 * p;
        MulAssoc(w, 10, p);
      }
      assert (w + 1) * Pow10(k) == 10 * b by {
        assert Pow10(k) == 10 * p;
        MulAssoc(w + 1, 10, p);
      }
    }
  }

  lemma MulAssoc(x: int, y: int, z: int)
    ensures x * (y * z) == y * (x * z)
  {
  }

  /** A number below 10^k has at most k digits, one at or above 10^(k-1) at least k. */
  lemma {:induction false} DigitCountBounds(n: nat, k: nat)
    ensures n < Pow10(k) && k >= 1 ==> |NatToString(n)| <= k
    ensures n >= Pow10(k) ==> |NatToString(n)| > k
    decreases n
  {
    if n >= 10 {
      if k >= 1 {
        DigitCountBounds(n / 10, k - 1);
      } else {
        DigitCountBounds(n / 10, 0);
      }
    }
  }
}

/** The JavaScript values that flow through template contexts, request bodies
    and API responses, and JavaScript truthiness on them. Floating-point
    numbers are not modelled: a number is an integer. */
module Json {
  import opened Strings

  datatype Value =
    | Undefined
    | Null
    | Bool(b: bool)
    | Num(n: int)
    | Str(s: string)
    | Arr(items: seq<Value>)
    | Obj(fields: map<string, Value>)

  /** JavaScript truthiness: `undefined`, `null`, `false`, `0` and `""` are falsy. */
  predicate Truthy(v: Value)
  {
    match v
    case Undefined => false
    case Null => false
    case Bool(b) => b
    case Num(n) => n != 0
    case Str(s) => s != ""
    case Arr(_) => true
    case Obj(_) => true
  }

  /** Property access `o[key]`: `undefined` when the key is absent. */
  function Get(o: map<string, Value>, key: string): (v: Value)
    ensures key !in o ==> v == Undefined
  {
    if key in o then o[key] else Undefined
  }
}

/** Node's `path` functions on `/`-separated paths. `join` is modelled as
    concatenation with one `/`; normalisation of `..` and `//` is left out. */
module Paths {
  import opened Wrappers

  function Join(dir: string, name: string): string
  {
    dir + "/" + name
  }

  /** Index of the last occurrence of `c` in `s`, if any. */
  function LastIndexOf(s: string, c: char): (r: Option<nat>)
    ensures r.Some? ==> r.value < |s| && s[r.value] == c && forall k :: r.value < k < |s| ==> s[k] != c
    ensures r.None? ==> forall k :: 0 <= k < |s| ==> s[k] != c
  {
    LastIndexBefore(s, c, |s|)
  }

  /** Index of the last occurrence of `c` among the first `n` characters of `s`, scanning backwards. */
  function LastIndexBefore(s: string, c: char, n: nat): (r: Option<nat>)
    requires n <= |s|
    ensures r.Some? ==> r.value < n && s[r.value] == c && forall k :: r.value < k < n ==> s[k] != c
    ensures r.None? ==> forall k :: 0 <= k < n ==> s[k] != c
    decreases n
  {
    if n == 0 then None
    else if s[n - 1] == c then Some(n - 1)
    else LastIndexBefore(s, c, n - 1)
  }

  /** `path.basename(p)`: the part after the last `/`. */
  function Basename(p: string): (b: string)
    ensures '/' !in b
    ensures |b| <= |p| && b == p[|p| - |b|..]
  {
    match LastIndexOf(p, '/')
    case None => p
    case Some(i) => p[i + 1..]
  }

  /** `path.dirname(p)`: the part before the last `/` (`.` without one, `/` for the root). */
  function Dirname(p: string): (d: string)
    ensures LastIndexOf(p, '/').Some? && LastIndexOf(p, '/').value > 0 ==> d + "/" + Basename(p) == p
  {
    match LastIndexOf(p, '/')
    case None => "."
    case Some(i) => if i == 0 then "/" else
      assert p == p[..i] + "/" + p[i + 1..];
      p[..i]
  }

  /** Text after the last `c` does not move it. */
  lemma LastIndexOfAfter(s: string, name: string, c: char)
    requires c !in name
    ensures LastIndexOf(s + name, c) == LastIndexOf(s, c)
  {
    var t := s + name;
    assert forall k :: 0 <= k < |s| ==> t[k] == s[k];
    forall k | |s| <= k < |t|
      ensures t[k] != c
    {
      assert t[k] == name[k - |s|];
    }
  }

  /** The directory of a file joined onto a non-empty directory is that directory. */
  lemma DirnameOfJoin(dir: string, name: string)
    requires |dir| > 0 && '/' !in name
    ensures Dirname(Join(dir, name)) == dir
  {
    LastIndexOfAfter(dir + "/", name, '/');
    assert Join(dir, name) == (dir + "/") + name;
    assert (dir + "/")[..|dir|] == dir;
  }

  /** The base name of a name joined onto a directory is that name. */
  lemma BasenameOfJoin(dir: string, name: string)
    requires '/' !in name
    ensures Basename(Join(dir, name)) == name
  {
    LastIndexOfAfter(dir + "/", name, '/');
    assert Join(dir, name) == (dir + "/") + name;
  }

  /** `path.extname(p)`: from the last `.` of the base name on; `""` when the base
      name has no `.` after its first character (`.bashrc`) or is exactly `..`. */
  function Extname(p: string): (e: string)
    ensures e == "" || e[0] == '.'
  {
    var b := Basename(p);
    match LastIndexOf(b, '.')
    case None => ""
    case Some(i) => if i == 0 || b == ".." then "" else b[i..]
  }

  /** The extension is empty exactly when the base name has no `.` past its first
      character or is `..`; otherwise it is the tail of the base name from its last `.`. */
  lemma ExtnameOfBasename(p: string)
    ensures var b := Basename(p);
            Extname(p) == "" <==> |b| <= 1 || '.' !in b[1..] || b == ".."
    ensures var b := Basename(p); var e := Extname(p);
            e != "" ==> '.' !in e[1..] && |e| <= |b| && e == b[|b| - |e|..]
  {
    var b := Basename(p);
    match LastIndexOf(b, '.')
    case None =>
    case Some(i) =>
      if i > 0 {
        assert b[i] in b[1..];
      }
  }

  /** The position of the first candidate that exists, searching in list order:
      the search that `createTemplate` and `findBin` perform. */
  function FirstPresent(candidates: seq<string>, exists_: set<string>): (r: Option<nat>)
    ensures r.Some? ==> r.value < |candidates| && candidates[r.value] in exists_
    ensures r.Some? ==> forall k :: 0 <= k < r.value ==> candidates[k] !in exists_
    ensures r.None? <==> forall k :: 0 <= k < |candidates| ==> candidates[k] !in exists_
    decreases |candidates|
  {
    if |candidates| == 0 then None
    else if candidates[0] in exists_ then Some(0)
    else match FirstPresent(candidates[1..], exists_)
      case None => None
      case Some(i) => Some(i + 1)
  }
}

=== FILE: compact.dfy ===
/** `compactInteger` of src/web/global.js and its older copy in src/global.js
    (identical logic): a count such as 1234 rendered as "1k". The model
    covers the integer rendering with no decimals; the exponential notation
    for very long numbers and rendering with decimals go through floating
    point and are only recognised, not rendered. */
module Compact {
  import opened Strings

  /** The digit counts at which a suffix starts, largest first, and the suffixes. */
  const Lengths: seq<nat> := [13, 10, 7, 4]
  const Prefixes: seq<string> := ["T", "B", "M", "k"]

  /** Numbers with more digits than this go to exponential notation: `numberLengths[0] + 3` as written. */
  const AsWrittenCutoff: nat := 16

  /** The cut-off the range comment states: up to 999,999,999,999,999, fifteen digits. */
  const CorrectedCutoff: nat := 15

  /** A rendering, or a path left to floating point (`toExponential`, `toFixed`). */
  datatype Rendering = Text(s: string) | FloatingPoint

  /** The first threshold, in the order 13, 10, 7, 4, that a digit count reaches. */
  function ThresholdIndex(len: nat): (i: nat)
    requires len >= 4
    ensures i < |Lengths| && Lengths[i] <= len
    ensures forall j :: 0 <= j < i ==> Lengths[j] > len
  {
    if len >= 13 then 0 else if len >= 10 then 1 else if len >= 7 then 2 else 3
  }

  /** A magnitude of at least 1000 has at least four digits. */
  lemma FourDigits(u: nat)
    requires u >= 1000
    ensures |NatToString(u)| >= 4
  {
    assert Pow10(3) == 1000;
    DigitCountBounds(u, 3);
  }

  /** The number of decimal digits of a magnitude. */
  function DigitCount(u: nat): (n: nat)
    ensures n == |NatToString(u)|
    ensures u >= 1000 ==> n >= 4
  {
    if u >= 1000 then FourDigits(u); |NatToString(u)| else |NatToString(u)|
  }

  /** The rendering with numbers above `cutoff` digits sent to exponential
      notation: sign and digits below 1000; otherwise, without decimals, the
      sign, the leading `len - L + 1` digits and the suffix of the first
      threshold `L` the digit count reaches. */
  function CompactWith(cutoff: nat, input: int, decimals: int): (r: Rendering)
  {
    var sign := if input < 0 then "-" else "";
    var u: nat := if input < 0 then -input else input;
    var digits := NatToString(u);
    if u < 1000 then Text(sign + digits)
    else if |digits| > cutoff then FloatingPoint
    else
      FourDigits(u);
      var i := ThresholdIndex(|digits|);
      if decimals <= 0 then Text(sign + digits[..|digits| - Lengths[i] + 1] + Prefixes[i]) else FloatingPoint
  }

  /** `compactInteger(input, decimals)` as written: clamp `decimals`, take the
      sign and the magnitude's digits, return small numbers whole, send long
      ones to exponential notation, find the threshold with a loop that
      stops at the first one reached, and cut the whole part. */
  method CompactInteger(input: int, decimals: int) returns (r: Rendering)
    ensures r == CompactWith(AsWrittenCutoff, input, decimals)
  {
    var places := if decimals > 0 then decimals else 0;
    var sign := if input < 0 then "-" else "";
    var u: nat := if input < 0 then -input else input;
    var digits := NatToString(u);
    var numberLength := |digits|;
    if u < 1000 {
      return Text(sign + digits);
    }
    if numberLength > Lengths[0] + 3 {
      return FloatingPoint;
    }
    FourDigits(u);
    assert Lengths[|Lengths| - 1] == 4;
    var length := 0;
    var i := 0;
    while i < |Lengths|
      invariant 0 <= i <= |Lengths|
      invariant forall j :: 0 <= j < i ==> Lengths[j] > numberLength
    {
      if numberLength >= Lengths[i] {
        length := Lengths[i];
        break;
      }
      i := i + 1;
    }
    assert i < |Lengths| && length == Lengths[i];
    assert i == ThresholdIndex(numberLength);
    var decimalIndex := numberLength - length + 1;
    var wholePart := digits[..decimalIndex];
    if places == 0 {
      r := Text(sign + wholePart + Prefixes[i]);
    } else {
      r := FloatingPoint;
    }
  }

  /** Below 1000 in magnitude the result is the sign and the digits, with any cut-off and any decimals. */
  lemma SmallNumbers(cutoff: nat, input: int, decimals: int)
    requires -1000 < input < 1000
    ensures input >= 0 ==> CompactWith(cutoff, input, decimals) == Text(NatToString(input))
    ensures input < 0 ==> CompactWith(cutoff, input, decimals) == Text("-" + NatToString(-input))
  {
  }

  /** A negative number renders as `-` followed by the rendering of its magnitude. */
  lemma NegativeMirrors(cutoff: nat, input: int, decimals: int)
    requires input < 0
    ensures CompactWith(cutoff, -input, decimals).Text? <==> CompactWith(cutoff, input, decimals).Text?
    ensures CompactWith(cutoff, input, decimals).Text? ==>
              CompactWith(cutoff, input, decimals).s == "-" + CompactWith(cutoff, -input, decimals).s
  {
  }

  /** The rendering of a magnitude of 1000 or more within the cut-off and
      without decimals: the number with `L - 1` digits dropped, then the
      suffix of the first threshold `L` reached; the whole part has
      `len - L + 1` digits. */
  lemma {:induction false} WholePart(cutoff: nat, input: int)
    requires var u := if input < 0 then -input else input;
             u >= 1000 && |NatToString(u)| <= cutoff
    ensures var u := if input < 0 then -input else input;
            var len := DigitCount(u);
            var i := ThresholdIndex(len);
            var w := DropDigits(u, Lengths[i] - 1);
            && CompactWith(cutoff, input, 0) == Text((if input < 0 then "-" else "") + NatToString(w) + Prefixes[i])
            && |NatToString(w)| == len - Lengths[i] + 1
  {
    var u: nat := if input < 0 then -input else input;
    FourDigits(u);
    var len := |NatToString(u)|;
    var i := ThresholdIndex(len);
    PrefixOfDigits(u, Lengths[i] - 1);
  }

  /** The whole part is rounded down, never up: `w * 10^(L-1) <= |input| < (w + 1) * 10^(L-1)`. */
  lemma WholePartTruncates(input: int)
    requires (if input < 0 then -input else input) >= 1000
    ensures var u := if input < 0 then -input else input;
            var p := Pow10(Lengths[ThresholdIndex(DigitCount(u))] - 1);
            WholeOf(input) * p <= u < (WholeOf(input) + 1) * p
  {
    var u: nat := if input < 0 then -input else input;
    DropDigitsBounds(u, Lengths[ThresholdIndex(DigitCount(u))] - 1);
  }

  /** Truncation, not rounding: 1999 renders as "1k". */
  lemma NineteenNinetyNine()
    ensures CompactWith(AsWrittenCutoff, 1999, 0) == Text("1k")
    ensures CompactWith(CorrectedCutoff, 1999, 0) == Text("1k")
  {
    assert NatToString(1999) == "1999";
    assert ThresholdIndex(4) == 3;
  }

  /** The whole part of a suffixed rendering, for a magnitude of 1000 or more. */
  function WholeOf(input: int): nat
    requires (if input < 0 then -input else input) >= 1000
  {
    var u: nat := if input < 0 then -input else input;
    DropDigits(u, Lengths[ThresholdIndex(DigitCount(u))] - 1)
  }

  /** As written, every sixteen-digit number is rendered with a whole part
      of four digits, 1000 or more, before the `T`: outside the range the
      comment states. */
  lemma AsWrittenSixteenDigits(input: int)
    requires var u := if input < 0 then -input else input;
             u >= 1000 && |NatToString(u)| == 16
    ensures CompactWith(AsWrittenCutoff, input, 0).Text?
    ensures |NatToString(WholeOf(input))| == 4 && WholeOf(input) >= 1000
    ensures CompactWith(AsWrittenCutoff, input, 0).s == (if input < 0 then "-" else "") + NatToString(WholeOf(input)) + "T"
  {
    var u: nat := if input < 0 then -input else input;
    assert Pow10(3) == 1000;
    DigitCountBounds(u, 3);
    assert ThresholdIndex(DigitCount(u)) == 0;
    WholePart(AsWrittenCutoff, input);
    DigitCountBounds(WholeOf(input), 3);
  }

  /** The smallest such input: 10^15 renders as "1000T". */
  lemma TenToTheFifteenth()
    ensures CompactWith(AsWrittenCutoff, Pow10(15), 0) == Text("1000T")
  {
    SixteenDigits();
    AsWrittenSixteenDigits(Pow10(15));
    DropTwelve();
    assert WholeOf(Pow10(15)) == 1000;
    ThousandDigits();
  }

  lemma SixteenDigits()
    ensures |NatToString(Pow10(15))| == 16
  {
    DigitCountBounds(Pow10(15), 15);
    DigitCountBounds(Pow10(15), 16);
    assert Pow10(16) == 10 * Pow10(15);
  }

  lemma ThousandDigits()
    ensures NatToString(1000) == "1000"
  {
    assert NatToString(100) == "100";
  }

  lemma DropTwelve()
    ensures DropDigits(Pow10(15), 12) == 1000
  {
    DropPow10(12, 3);
    assert Pow10(3) == 1000;
  }

  /** Dropping `k` digits of 10^(k+m) leaves 10^m. */
  lemma {:induction false} DropPow10(k: nat, m: nat)
    ensures DropDigits(Pow10(k + m), k) == Pow10(m)
    decreases k
  {
    if k > 0 {
      assert Pow10(k + m) / 10 == Pow10((k - 1) + m);
      DropPow10(k - 1, m);
    }
  }

  /** With the corrected cut-off every suffixed rendering has a whole part
      of one to three digits, 1 to 999; longer numbers go to exponential
      notation. */
  lemma {:induction false} CorrectedWholePartInRange(input: int)
    requires (if input < 0 then -input else input) >= 1000
    ensures var u := if input < 0 then -input else input;
            |NatToString(u)| <= CorrectedCutoff <==> CompactWith(CorrectedCutoff, input, 0).Text?
    ensures CompactWith(CorrectedCutoff, input, 0).Text? ==> 1 <= WholeOf(input) <= 999
  {
    var u: nat := if input < 0 then -input else input;
    var len := |NatToString(u)|;
    if len <= CorrectedCutoff {
      WholePart(CorrectedCutoff, input);
      var i := ThresholdIndex(len);
      var w := DropDigits(u, Lengths[i] - 1);
      assert |NatToString(w)| <= 3;
      assert Pow10(3) == 1000;
      DigitCountBounds(w, 3);
      NatToStringDigits(u);
      NatToStringDigits(w);
      PrefixOfDigits(u, Lengths[i] - 1);
      assert NatToString(w)[0] == NatToString(u)[0];
      FourDigits(u);
      assert NatToString(u)[0] != '0';
    }
  }
}

=== FILE: dev.dfy ===
/** The decisions of the local development server in src/js/dev.mjs: which
    request headers are forwarded to the API and how they are rewritten, the
    body and URL of a forwarded request, which upstream response headers are
    relayed, `/entries` page routing, ETag revalidation of static files, and
    the kind of rebuild a changed file triggers. Express, `fetch` and the
    file watcher are left out: the request, the upstream reply and the
    changed path are parameters. */
module Dev {
  import opened Wrappers
  import opened Strings
  import opened Json
  import Paths
  import Build

  /** Keeps a header only when its value is neither `undefined` nor `null`. */
  predicate IsSet(v: Value)
  {
    v != Undefined && v != Null
  }

  /** The headers `filterHeaders` keeps: exactly the keys whose value is set,
      with their values unchanged. */
  function SetHeaders(headers: map<string, Value>): (kv: map<string, Value>)
    ensures forall k :: k in kv <==> k in headers && IsSet(headers[k])
    ensures forall k :: k in kv ==> kv[k] == headers[k]
  {
    map k | k in headers && IsSet(headers[k]) :: headers[k]
  }

  /** `filterHeaders`: visits the keys one at a time and copies the set ones. */
  method FilterHeaders(headers: map<string, Value>) returns (kv: map<string, Value>)
    ensures kv == SetHeaders(headers)
  {
    kv := map[];
    var keys := headers.Keys;
    while keys != {}
      invariant keys <= headers.Keys
      invariant forall k :: k in kv <==> k in headers && k !in keys && IsSet(headers[k])
      invariant forall k :: k in kv ==> kv[k] == headers[k]
      decreases keys
    {
      var key :| key in keys;
      var val := headers[key];
      if IsSet(val) {
        kv := kv[key := val];
      }
      keys := keys - {key};
    }
  }

  /** The number of bytes of a character in UTF-8. */
  function Utf8Width(c: char): nat
  {
    if c as int < 0x80 then 1 else if c as int < 0x800 then 2 else if c as int < 0x10000 then 3 else 4
  }

  /** `Buffer.byteLength(s)`: the length of `s` encoded as UTF-8. */
  function Utf8Length(s: string): nat
    decreases |s|
  {
    if |s| == 0 then 0 else Utf8Width(s[0]) + Utf8Length(s[1..])
  }

  /** Every character takes one to four bytes, and ASCII text takes one byte per character. */
  lemma {:induction false} Utf8LengthBounds(s: string)
    ensures |s| <= Utf8Length(s) <= 4 * |s|
    ensures (forall k :: 0 <= k < |s| ==> s[k] as int < 0x80) ==> Utf8Length(s) == |s|
    decreases |s|
  {
    if |s| > 0 {
      Utf8LengthBounds(s[1..]);
    }
  }

  /** A request body as Express hands it over: absent, parsed by a body parser, or raw bytes (already decoded as UTF-8). */
  datatype Body = NoBody | Parsed(v: Value) | Buffer(text: string)

  /** The body that is forwarded: none for GET and HEAD; otherwise a truthy
      string as it is, a buffer as its text, any other object serialised,
      and nothing for a falsy body or a primitive that is not a string. */
  function ForwardBody(verb: string, body: Body, stringify: Value -> string): (r: Option<string>)
    ensures (verb == "GET" || verb == "HEAD") ==> r.None?
    ensures !(verb == "GET" || verb == "HEAD") ==>
              && (body.Buffer? ==> r == Some(body.text))
              && (body.Parsed? && body.v.Str? && body.v.s != "" ==> r == Some(body.v.s))
              && (body.Parsed? && (body.v.Arr? || body.v.Obj?) ==> r == Some(stringify(body.v)))
              && (body.NoBody? || (body.Parsed? && !body.v.Arr? && !body.v.Obj? && !(body.v.Str? && body.v.s != "")) ==> r.None?)
  {
    if verb == "GET" || verb == "HEAD" then None
    else match body
      case NoBody => None
      case Buffer(text) => Some(text)
      case Parsed(v) =>
        if !Truthy(v) then None
        else match v
          case Str(s) => Some(s)
          case Arr(_) => Some(stringify(v))
          case Obj(_) => Some(stringify(v))
          case _ => None
  }

  /** The upstream URL: the forward URL, the path, and `?` with the query string only when there is one. */
  function ForwardUrl(forwardUrl: string, path: string, qs: string): (url: string)
    ensures StartsWith(url, forwardUrl + path)
    ensures qs == "" ==> url == forwardUrl + path
    ensures qs != "" ==> |url| == |forwardUrl + path| + 1 + |qs| && url[|forwardUrl + path|] == '?' && url[|forwardUrl + path| + 1..] == qs
  {
    forwardUrl + path + (if qs != "" then "?" + qs else "")
  }

  /** When the forward URL and path hold no `?`, the first `?` of the URL
      separates them from the query string, which comes back unchanged. */
  lemma ForwardUrlSplits(forwardUrl: string, path: string, qs: string)
    requires '?' !in forwardUrl + path
    requires qs != ""
    ensures var url := ForwardUrl(forwardUrl, path, qs);
            Split(url, '?')[0] == forwardUrl + path && Join(Split(url, '?')[1..], "?") == qs
  {
    var url := ForwardUrl(forwardUrl, path, qs);
    var base := forwardUrl + path;
    assert url == base + "?" + qs;
    assert url[|base|] == '?';
    FirstPieceAndRest(url, '?');
    var first := Split(url, '?')[0];
    var rest := Join(Split(url, '?')[1..], "?");
    assert first + "?" + rest == base + "?" + qs;
    FirstPieceIsPrefix(url, base, qs);
  }

  /** Helper: the first piece of a split is the text before the first separator. */
  lemma {:induction false} FirstPieceIsPrefix(url: string, base: string, qs: string)
    requires url == base + "?" + qs
    requires '?' !in base
    ensures Split(url, '?')[0] == base
    ensures Join(Split(url, '?')[1..], "?") == qs
    decreases |base|
  {
    if |base| == 0 {
      assert url == "?" + qs;
      assert url[1..] == qs;
      assert Split(url, '?') == [""] + Split(qs, '?');
      SplitJoin(qs, '?');
    } else {
      assert url[1..] == base[1..] + "?" + qs;
      FirstPieceIsPrefix(url[1..], base[1..], qs);
      assert url[0] == base[0];
      assert base == [base[0]] + base[1..];
    }
  }

  /** The request headers the forwarder rewrites. */
  const Rewritten: set<string> := {"origin", "host", "authority", "x-forwarded-host", "content-length", "connection"}

  /** `content-length`: the body's UTF-8 length in decimal, or `null` without a (non-empty) body. */
  function ContentLength(body: Option<string>): Value
  {
    if body.Some? && body.value != "" then Str(NatToString(Utf8Length(body.value))) else Null
  }

  /** The header object built before filtering: the request's headers, then
      the rewritten ones, then the extra headers, then `content-length` and
      `connection`; later entries win. */
  function HeaderObject(req: map<string, Value>, forwardUrl: string, hostname: string, reqHostname: string,
                        add: map<string, Value>, body: Option<string>): (o: map<string, Value>)
    ensures Rewritten <= o.Keys
    ensures o["connection"] == Str("close") && o["content-length"] == ContentLength(body)
    ensures forall k :: k in add && k != "content-length" && k != "connection" ==> k in o && o[k] == add[k]
    ensures "host" !in add ==> o["host"] == Str(hostname)
    ensures "x-forwarded-host" !in add ==> o["x-forwarded-host"] == Str(reqHostname)
    ensures "origin" !in add ==> o["origin"] == if Truthy(Get(req, "origin")) then Str(forwardUrl) else Undefined
    ensures "authority" !in add ==> o["authority"] == if Truthy(Get(req, "authority")) then Str(hostname) else Undefined
    ensures forall k :: k !in Rewritten && k !in add ==> (k in o <==> k in req) && (k in o ==> o[k] == req[k])
  {
    var rewritten := map["origin" := if Truthy(Get(req, "origin")) then Str(forwardUrl) else Undefined,
                         "host" := Str(hostname),
                         "authority" := if Truthy(Get(req, "authority")) then Str(hostname) else Undefined,
                         "x-forwarded-host" := Str(reqHostname)];
    var last := map["content-length" := ContentLength(body), "connection" := Str("close")];
    assert rewritten.Keys == Rewritten - {"content-length", "connection"};
    assert last.Keys == {"content-length", "connection"};
    req + rewritten + add + last
  }

  /** The headers sent upstream. `host` names the upstream host, `origin` and
      `authority` are rewritten only when the request has them, `connection`
      is `close`, `content-length` is the body's UTF-8 length and is dropped
      without a body; every other request header passes through unless the
      extra headers replace it, and unset values are dropped. */
  function ForwardHeaders(req: map<string, Value>, forwardUrl: string, hostname: string, reqHostname: string,
                          add: map<string, Value>, body: Option<string>): (h: map<string, Value>)
    ensures h == SetHeaders(HeaderObject(req, forwardUrl, hostname, reqHostname, add, body))
    ensures h["connection"] == Str("close")
    ensures body.Some? && body.value != "" ==> h["content-length"] == Str(NatToString(Utf8Length(body.value)))
    ensures !(body.Some? && body.value != "") ==> "content-length" !in h
    ensures "host" !in add ==> h["host"] == Str(hostname)
    ensures "x-forwarded-host" !in add ==> h["x-forwarded-host"] == Str(reqHostname)
    ensures "origin" !in add ==> ("origin" in h <==> Truthy(Get(req, "origin"))) && ("origin" in h ==> h["origin"] == Str(forwardUrl))
    ensures "authority" !in add ==> ("authority" in h <==> Truthy(Get(req, "authority"))) && ("authority" in h ==> h["authority"] == Str(hostname))
    ensures forall k :: k !in Rewritten && k !in add ==> (k in h <==> k in req && IsSet(req[k])) && (k in h ==> h[k] == req[k])
    ensures forall k :: k in add && k != "content-length" && k != "connection" ==> (k in h <==> IsSet(add[k])) && (k in h ==> h[k] == add[k])
  {
    SetHeaders(HeaderObject(req, forwardUrl, hostname, reqHostname, add, body))
  }

  /** An incoming request to a forwarded route. `query` is the serialised query string. */
  datatype Request = Request(verb: string, url: string, hostname: string, query: string, headers: map<string, Value>, body: Body)

  /** The request the forwarder sends. */
  datatype Outgoing = Outgoing(verb: string, url: string, headers: map<string, Value>, body: Option<string>)

  /** The upstream reply: status, headers (one entry per name, as `Headers.forEach` yields them) and body. */
  datatype Upstream = Upstream(status: int, headers: seq<(string, string)>, body: string)

  /** The request forwarded for `req` to the API at `forwardUrl` whose host is `hostname`. */
  function ForwardRequest(req: Request, forwardUrl: string, hostname: string, overridePath: Option<string>,
                          add: map<string, Value>, stringify: Value -> string): (o: Outgoing)
    ensures o.verb == req.verb
    ensures o.url == ForwardUrl(forwardUrl, if overridePath.Some? then overridePath.value else req.url, req.query)
    ensures o.body == ForwardBody(req.verb, req.body, stringify)
    ensures o.headers == ForwardHeaders(req.headers, forwardUrl, hostname, req.hostname, add, o.body)
  {
    var path := if overridePath.Some? then overridePath.value else req.url;
    var body := ForwardBody(req.verb, req.body, stringify);
    Outgoing(req.verb, ForwardUrl(forwardUrl, path, req.query),
             ForwardHeaders(req.headers, forwardUrl, hostname, req.hostname, add, body), body)
  }

  /** The upstream response headers that are never relayed. */
  const Excluded: set<string> := {"content-encoding", "content-length", "server", "transfer-encoding"}

  /** The response headers after relaying `upstream` onto `start`, one at a time, skipping the excluded ones. */
  function Relayed(start: map<string, string>, upstream: seq<(string, string)>): map<string, string>
    decreases |upstream|
  {
    if |upstream| == 0 then start
    else
      var before := Relayed(start, upstream[..|upstream| - 1]);
      var (name, value) := upstream[|upstream| - 1];
      if name in Excluded then before else before[name := value]
  }

  /** Excluded headers are never relayed; every other upstream header is,
      with its value; nothing else is added. */
  lemma {:induction false} RelayedHeaders(start: map<string, string>, upstream: seq<(string, string)>)
    requires forall i, j :: 0 <= i < j < |upstream| ==> upstream[i].0 != upstream[j].0
    ensures forall h :: h in Excluded ==> (h in Relayed(start, upstream) <==> h in start)
    ensures forall h :: h in Excluded && h in start ==> Relayed(start, upstream)[h] == start[h]
    ensures forall i :: 0 <= i < |upstream| && upstream[i].0 !in Excluded ==>
              upstream[i].0 in Relayed(start, upstream) && Relayed(start, upstream)[upstream[i].0] == upstream[i].1
    ensures forall h :: h in Relayed(start, upstream) ==> h in start || exists i :: 0 <= i < |upstream| && upstream[i].0 == h
    decreases |upstream|
  {
    if |upstream| > 0 {
      var prefix := upstream[..|upstream| - 1];
      RelayedHeaders(start, prefix);
      forall h | h in Relayed(start, upstream)
        ensures h in start || exists i :: 0 <= i < |upstream| && upstream[i].0 == h
      {
        if h !in Relayed(start, prefix) {
          assert upstream[|upstream| - 1].0 == h;
        } else if h !in start {
          var i :| 0 <= i < |prefix| && prefix[i].0 == h;
          assert upstream[i].0 == h;
        }
      }
    }
  }

  /** The response the development server is writing. */
  class Response {
    var status: int
    var headers: map<string, string>
    var body: string

    constructor ()
      ensures status == 200 && headers == map[] && body == ""
    {
      status := 200;
      headers := map[];
      body := "";
    }

    /** Copies the upstream status and relays the upstream headers in order. */
    method Relay(upstream: Upstream)
      modifies this
      ensures status == upstream.status
      ensures headers == Relayed(old(headers), upstream.headers)
      ensures body == old(body)
    {
      status := upstream.status;
      ghost var start := headers;
      for i := 0 to |upstream.headers|
        invariant headers == Relayed(start, upstream.headers[..i])
        invariant status == upstream.status && body == old(body)
      {
        var (name, value) := upstream.headers[i];
        assert upstream.headers[..i + 1][..i] == upstream.headers[..i];
        if name !in Excluded {
          headers := headers[name := value];
        }
      }
      assert upstream.headers[..|upstream.headers|] == upstream.headers;
    }

    /** Any failure: status 500 and the text "Internal Server Error". */
    method Fail()
      modifies this
      ensures status == 500 && body == old(body) + "Internal Server Error" && headers == old(headers)
    {
      status := 500;
      body := body + "Internal Server Error";
    }
  }

  /** A forwarded route: parse the API URL's host, send the rewritten request,
      relay the reply; a URL that does not parse or a request that fails
      answers 500. `parseHostname` and `fetch` stand for `new URL` and the network. */
  method Forward(resp: Response, req: Request, forwardUrl: string, overridePath: Option<string>, add: map<string, Value>,
                 stringify: Value -> string, parseHostname: string -> Option<string>, fetch: Outgoing -> Option<Upstream>)
    modifies resp
    ensures parseHostname(forwardUrl).None? ==>
              resp.status == 500 && resp.body == old(resp.body) + "Internal Server Error" && resp.headers == old(resp.headers)
    ensures parseHostname(forwardUrl).Some? ==>
              var reply := fetch(ForwardRequest(req, forwardUrl, parseHostname(forwardUrl).value, overridePath, add, stringify));
              && (reply.None? ==> resp.status == 500 && resp.body == old(resp.body) + "Internal Server Error" && resp.headers == old(resp.headers))
              && (reply.Some? ==> resp.status == reply.value.status && resp.headers == Relayed(old(resp.headers), reply.value.headers)
                                  && resp.body == old(resp.body) + reply.value.body)
  {
    var hostname := parseHostname(forwardUrl);
    if hostname.None? {
      resp.Fail();
      return;
    }
    var out := ForwardRequest(req, forwardUrl, hostname.value, overridePath, add, stringify);
    var reply := fetch(out);
    if reply.None? {
      resp.Fail();
      return;
    }
    resp.Relay(reply.value);
    resp.body := resp.body + reply.value.body;
  }

  /** The answer of a page route. */
  datatype Reply = Redirect(location: string) | NotFound | SendFile(path: string)

  /** The file serving page `page` of the entries. */
  function EntriesPath(distDir: string, page: string): string
  {
    Paths.Join(distDir, "index_" + page + ".html")
  }

  /** `/entries?page=p`: page one, an empty or a missing page redirect to
      `/`; any other page serves `index_{p}.html`, or 404 when it is absent. */
  function EntriesRoute(distDir: string, exists_: set<string>, page: Option<string>): (r: Reply)
    ensures r == Redirect("/") <==> page.None? || page.value == "" || page.value == "1"
    ensures r.SendFile? <==> page.Some? && page.value != "" && page.value != "1" && EntriesPath(distDir, page.value) in exists_
    ensures r.SendFile? ==> r.path == EntriesPath(distDir, page.value)
    ensures r.Redirect? || r.NotFound? || r.SendFile?
  {
    if page.Some? && page.value != "" && page.value != "1" then
      var fn := EntriesPath(distDir, page.value);
      if fn !in exists_ then NotFound else SendFile(fn)
    else Redirect("/")
  }

  /** The answer of the catch-all static route. A directory exists, but
      reading it throws, and the framework answers 500. */
  datatype StaticReply = Missing | ServerError | NotModified(etag: string) | Content(etag: string, contentType: string, bytes: string)

  /** What a path names in the output directory. */
  datatype Node = File(bytes: string) | Directory

  /** The entity tag of a file: its SHA-1 in double quotes. */
  function ETag(sha: string): string
  {
    "\"" + sha + "\""
  }

  /** Different hashes give different entity tags. */
  lemma ETagInjective(a: string, b: string)
    requires ETag(a) == ETag(b)
    ensures a == b
  {
    assert a == ETag(a)[1..|ETag(a)| - 1];
    assert b == ETag(b)[1..|ETag(b)| - 1];
  }

  /** The catch-all route: 404 for a path that does not exist, 500 for a
      directory (reading it fails after the existence check); for a file, 304
      exactly when `if-none-match` equals its entity tag, and the bytes
      otherwise. `sha1` and `mime` stand for the digest and the media type lookup. */
  function StaticRoute(distDir: string, fs: map<string, Node>, sha1: string -> string, mime: string -> string,
                       url: string, ifNoneMatch: Option<string>): (r: StaticReply)
    ensures r.Missing? <==> Paths.Join(distDir, url) !in fs
    ensures r.ServerError? <==> Paths.Join(distDir, url) in fs && fs[Paths.Join(distDir, url)].Directory?
    ensures (r.NotModified? || r.Content?) ==> r.etag == ETag(sha1(fs[Paths.Join(distDir, url)].bytes))
    ensures r.NotModified? <==> (r.NotModified? || r.Content?) && ifNoneMatch == Some(r.etag)
    ensures r.Content? ==> r.bytes == fs[Paths.Join(distDir, url)].bytes && r.contentType == mime(Paths.Join(distDir, url))
  {
    var fn := Paths.Join(distDir, url);
    if fn !in fs then Missing
    else match fs[fn]
      case Directory => ServerError
      case File(buf) =>
        var etag := ETag(sha1(buf));
        if ifNoneMatch == Some(etag) then NotModified(etag) else Content(etag, mime(fn), buf)
  }

  /** A client that sends back the entity tag it was given gets 304 while the
      file is unchanged, and the new bytes once an edit changes its hash. */
  lemma Revalidation(distDir: string, fs: map<string, Node>, edited: string, sha1: string -> string,
                     mime: string -> string, url: string)
    requires Paths.Join(distDir, url) in fs && fs[Paths.Join(distDir, url)].File?
    ensures var first := StaticRoute(distDir, fs, sha1, mime, url, None);
            && first.Content?
            && StaticRoute(distDir, fs, sha1, mime, url, Some(first.etag)) == NotModified(first.etag)
            && (sha1(edited) != sha1(fs[Paths.Join(distDir, url)].bytes) ==>
                  StaticRoute(distDir, fs[Paths.Join(distDir, url) := File(edited)], sha1, mime, url, Some(first.etag))
                    == Content(ETag(sha1(edited)), mime(Paths.Join(distDir, url)), edited))
  {
    var fn := Paths.Join(distDir, url);
    if sha1(edited) != sha1(fs[fn].bytes) && ETag(sha1(edited)) == ETag(sha1(fs[fn].bytes)) {
      ETagInjective(sha1(edited), sha1(fs[fn].bytes));
    }
  }

  /** What a changed file triggers. */
  datatype Rebuild = Ignore | EmailOnly(command: string, args: seq<string>) | FullBuild

  /** `process.argv.slice(3)`: the arguments after the runtime, the script
      and the command word; none when there are at most three. */
  function ArgsAfterCommand(argv: seq<string>): seq<string>
  {
    if |argv| >= 3 then argv[3..] else []
  }

  /** The rebuild for a change to `fn`, with the data file flag named `flag`:
      the generated `src/icons.css` is ignored first; a change under `email/`
      or to `email.html` re-runs only the email build on the saved
      `data.json`; anything else triggers a full build. `argv` is the
      process's argument vector, which always holds the runtime and the script. */
  function ClassifyWith(flag: string, fn: string, argv: seq<string>, distDir: string): (r: Rebuild)
    requires |argv| >= 2
    ensures r.Ignore? <==> Contains(fn, "src/icons.css")
    ensures r.EmailOnly? <==> !Contains(fn, "src/icons.css") && (Contains(fn, "email/") || Contains(fn, "email.html"))
    ensures r.EmailOnly? ==>
              && r.command == argv[0]
              && |r.args| == 6 + |ArgsAfterCommand(argv)|
              && r.args[..2] == [argv[1], "build"]
              && r.args[2..|r.args| - 4] == ArgsAfterCommand(argv)
              && r.args[|r.args| - 4..] == ["--email", "--no-index", flag, Paths.Join(distDir, "data.json")]
  {
    if Contains(fn, "src/icons.css") then Ignore
    else if Contains(fn, "email/") || Contains(fn, "email.html") then
      var args := [argv[1], "build"] + ArgsAfterCommand(argv) + ["--email", "--no-index", flag, Paths.Join(distDir, "data.json")];
      assert args[2..|args| - 4] == ArgsAfterCommand(argv);
      EmailOnly(argv[0], args)
    else FullBuild
  }

  /** The watcher's classification as written: the data file is passed as `--input`. */
  function ClassifyWatchAsWritten(fn: string, argv: seq<string>, distDir: string): Rebuild
    requires |argv| >= 2
  {
    ClassifyWith("--input", fn, argv, distDir)
  }

  /** The watcher's classification with the data file passed as `--file`, the flag the build reads. */
  function ClassifyWatch(fn: string, argv: seq<string>, distDir: string): Rebuild
    requires |argv| >= 2
  {
    ClassifyWith("--file", fn, argv, distDir)
  }

  /** As written, the email-only rebuild passes the saved `data.json` behind
      `--input`, a flag the build does not declare: the build never reads that
      file (and, without `--file`, goes back to the API). */
  lemma AsWrittenDataFlagUndeclared(fn: string, argv: seq<string>, distDir: string)
    requires |argv| >= 2
    requires !Contains(fn, "src/icons.css") && (Contains(fn, "email/") || Contains(fn, "email.html"))
    ensures var w := ClassifyWatchAsWritten(fn, argv, distDir);
            && w.EmailOnly?
            && w.args[|w.args| - 2] == "--input" && w.args[|w.args| - 1] == Paths.Join(distDir, "data.json")
            && "input" !in Build.FlagNames
  {
    var w := ClassifyWatchAsWritten(fn, argv, distDir);
    assert w.args[|w.args| - 4..][2] == w.args[|w.args| - 2];
    assert w.args[|w.args| - 4..][3] == w.args[|w.args| - 1];
  }

  /** Corrected, the email-only rebuild passes the saved `data.json` behind
      `--file`, the flag the build reads its data from. */
  lemma CorrectedDataFlagDeclared(fn: string, argv: seq<string>, distDir: string)
    requires |argv| >= 2
    requires !Contains(fn, "src/icons.css") && (Contains(fn, "email/") || Contains(fn, "email.html"))
    ensures var c := ClassifyWatch(fn, argv, distDir);
            && c.EmailOnly?
            && c.args[|c.args| - 2] == "--file" && c.args[|c.args| - 1] == Paths.Join(distDir, "data.json")
            && "file" in Build.FlagNames
  {
    var c := ClassifyWatch(fn, argv, distDir);
    assert c.args[|c.args| - 4..][2] == c.args[|c.args| - 2];
    assert c.args[|c.args| - 4..][3] == c.args[|c.args| - 1];
  }

  /** A change to the generated icon stylesheet is ignored even inside `email/`. */
  lemma IconsCssIgnoredFirst(argv: seq<string>, distDir: string)
    requires |argv| >= 2
    ensures ClassifyWatch("email/src/icons.css", argv, distDir) == Ignore
  {
    assert OccursAt("email/src/icons.css", "src/icons.css", 6);
    ContainsIff("email/src/icons.css", "src/icons.css");
  }
}

=== FILE: helpers.dfy ===
/** The template helpers of src/js/handlebars.mjs that carry logic: the
    `include` helper (override selection with a one-hop guard, a fallback
    chain of directories, and the merged render context), and the pure
    array and number helpers. Compiling and rendering a template is left to
    Handlebars: `include` is modelled up to the file it reads and the context
    it renders that file with. */
module Helpers {
  import opened Wrappers
  import opened Strings
  import opened Json
  import Paths

  /** The directories `registerHelpers` closes over. */
  datatype HelperDirs = HelperDirs(baseSrcDir: string, webSrcDir: string, emailSrcDir: string, srcDir: string)

  datatype HelperError =
    | SrcNotText
    | IncludeNotFound(path: string)
    | ReadFailed(path: string)
    | NotAnArray(helper: string)
    | NotANumber

  /** The file an `include` reads, and whether it is a theme override. */
  datatype Choice = Choice(path: string, insideOverride: bool)

  /** What an `include` renders: the template file and its context. */
  datatype Rendered = Rendered(path: string, context: map<string, Value>)

  /** `hash.base` is a string or falsy (a non-string `base` is not modelled). */
  predicate BaseIsText(hash: map<string, Value>)
  {
    !Truthy(Get(hash, "base")) || Get(hash, "base").Str?
  }

  /** `web/` when `base` is `"web"` or falsy, otherwise `email/`. */
  function BaseDir(d: HelperDirs, hash: map<string, Value>): string
  {
    if Get(hash, "base") == Str("web") || !Truthy(Get(hash, "base")) then d.webSrcDir else d.emailSrcDir
  }

  /** The theme override `srcDir/{base || "web"}_{src}`. */
  function OverridePath(d: HelperDirs, hash: map<string, Value>, src: string): string
    requires BaseIsText(hash)
  {
    var prefix := if Truthy(Get(hash, "base")) then Get(hash, "base").s else "web";
    Paths.Join(d.srcDir, prefix + "_" + src)
  }

  /** The legacy default-theme location `baseSrcDir/theme/default/src`. */
  function LegacyPath(d: HelperDirs, src: string): string
  {
    Paths.Join(Paths.Join(Paths.Join(d.baseSrcDir, "theme"), "default"), src)
  }

  /** The paths tried when no override is taken, in order: the base directory,
      the legacy default theme, and, for a `../../` include only, the web
      directory with those six characters cut off. */
  function FallbackCandidates(d: HelperDirs, hash: map<string, Value>, src: string): seq<string>
  {
    [Paths.Join(BaseDir(d, hash), src), LegacyPath(d, src)]
      + (if StartsWith(src, "../../") then [Paths.Join(d.webSrcDir, src[6..])] else [])
  }

  /** Whether the override is taken: only outside an override's own rendering, and only when it exists. */
  predicate TakesOverride(d: HelperDirs, exists_: set<string>, hash: map<string, Value>, root: map<string, Value>, src: string)
    requires BaseIsText(hash)
  {
    !Truthy(Get(root, "insideOverride")) && OverridePath(d, hash, src) in exists_
  }

  /** The file an `include` reads. The override wins when it is taken;
      otherwise the first existing fallback candidate in order. With none, a
      `../../` include fails with the explicit "couldn't include" error and
      any other include fails when the legacy path is read. */
  function ChooseTemplate(d: HelperDirs, exists_: set<string>, hash: map<string, Value>, root: map<string, Value>): (r: Result<Choice, HelperError>)
    requires BaseIsText(hash)
    ensures !Get(hash, "src").Str? <==> r == Err(SrcNotText)
    ensures Get(hash, "src").Str? ==>
              var src := Get(hash, "src").s;
              var c := FallbackCandidates(d, hash, src);
              var found := Paths.FirstPresent(c, exists_);
              && (TakesOverride(d, exists_, hash, root, src) ==> r == Ok(Choice(OverridePath(d, hash, src), true)))
              && (!TakesOverride(d, exists_, hash, root, src) ==>
                    && (r.Ok? <==> found.Some?)
                    && (r.Ok? ==> r.value == Choice(c[found.value], false))
                    && (r.Err? && StartsWith(src, "../../") ==> r.error == IncludeNotFound(Paths.Join(d.webSrcDir, src[6..])))
                    && (r.Err? && !StartsWith(src, "../../") ==> r.error == ReadFailed(LegacyPath(d, src))))
    ensures r.Ok? ==> r.value.path in exists_
  {
    if !Get(hash, "src").Str? then Err(SrcNotText)
    else
      var src := Get(hash, "src").s;
      var fn := Paths.Join(BaseDir(d, hash), src);
      var overrideFn := OverridePath(d, hash, src);
      var insideOverride := !Truthy(Get(root, "insideOverride")) && overrideFn in exists_;
      var fn := if insideOverride then overrideFn else fn;
      if fn in exists_ then Ok(Choice(fn, insideOverride))
      else
        var legacy := LegacyPath(d, src);
        if legacy in exists_ then Ok(Choice(legacy, insideOverride))
        else if StartsWith(src, "../../") then
          var rewritten := Paths.Join(d.webSrcDir, src[6..]);
          var c := FallbackCandidates(d, hash, src);
          assert c == [Paths.Join(BaseDir(d, hash), src), legacy, rewritten];
          assert c[1..][1..] == [rewritten];
          assert Paths.FirstPresent(c[1..][1..], exists_) == if rewritten in exists_ then Some(0) else None;
          if rewritten in exists_ then Ok(Choice(rewritten, insideOverride)) else Err(IncludeNotFound(rewritten))
        else Err(ReadFailed(legacy))
  }

  /** `...(hash.context || {})`: the own properties the spread copies. An
      object gives its fields; an array or a non-empty string gives one
      property per index, keyed by the index in decimal (a string's holding
      the one-character string); numbers, booleans and falsy values give none. */
  function HashContext(hash: map<string, Value>): (m: map<string, Value>)
    ensures Get(hash, "context").Obj? ==> m == Get(hash, "context").fields
    ensures Get(hash, "context").Arr? ==> m == IndexProps(Get(hash, "context").items)
    ensures Get(hash, "context").Str? ==>
              && (forall k :: 0 <= k < |Get(hash, "context").s| ==>
                    NatToString(k) in m && m[NatToString(k)] == Str([Get(hash, "context").s[k]]))
              && (forall x :: x in m ==> exists k :: 0 <= k < |Get(hash, "context").s| && x == NatToString(k))
    ensures !Get(hash, "context").Obj? && !Get(hash, "context").Arr? && !Get(hash, "context").Str? ==> m == map[]
  {
    match Get(hash, "context")
    case Obj(fields) => fields
    case Arr(items) => IndexProps(items)
    case Str(s) =>
      var chars := seq(|s|, k requires 0 <= k < |s| => Str([s[k]]));
      assert forall k :: 0 <= k < |s| ==> chars[k] == Str([s[k]]);
      IndexProps(chars)
    case _ => map[]
  }

  /** The properties of an array-like value: each index, in decimal, to its
      element, and nothing else. */
  function IndexProps(items: seq<Value>): (m: map<string, Value>)
    ensures forall k :: 0 <= k < |items| ==> NatToString(k) in m && m[NatToString(k)] == items[k]
    ensures forall x :: x in m ==> exists k :: 0 <= k < |items| && x == NatToString(k)
    decreases |items|
  {
    if |items| == 0 then map[]
    else
      var n := |items| - 1;
      var m := IndexProps(items[..n]);
      NatToStringInjective();
      assert forall k :: 0 <= k < n ==> items[..n][k] == items[k];
      m[NatToString(n) := items[n]]
  }

  /** The hash arguments other than `src` and `context`. */
  function HashExtras(hash: map<string, Value>): (m: map<string, Value>)
    ensures m.Keys == hash.Keys - {"src", "context"}
  {
    map k | k in hash && k != "src" && k != "context" :: hash[k]
  }

  /** The context an included template is rendered with: later sources win,
      in the order root data, `hash.context`, globals, `insideOverride`, and
      every hash argument except `src` and `context`. */
  function IncludeContext(root: map<string, Value>, hash: map<string, Value>, globals: map<string, Value>, insideOverride: bool): (ctx: map<string, Value>)
    ensures var spread := HashContext(hash);
            ctx.Keys == root.Keys + spread.Keys + globals.Keys + {"insideOverride"} + (hash.Keys - {"src", "context"})
    ensures forall k :: k in hash && k != "src" && k != "context" ==> ctx[k] == hash[k]
    ensures var spread := HashContext(hash);
            forall k :: k in ctx && !(k in hash && k != "src" && k != "context") ==>
              ctx[k] == (if k == "insideOverride" then Bool(insideOverride)
                         else if k in globals then globals[k]
                         else if k in spread then spread[k]
                         else root[k])
  {
    root + HashContext(hash) + globals + map["insideOverride" := Bool(insideOverride)] + HashExtras(hash)
  }

  /** The `include` helper: pick the file, then build the context, copying
      the hash arguments into it one key at a time. */
  method Include(d: HelperDirs, exists_: set<string>, hash: map<string, Value>, root: map<string, Value>, globals: map<string, Value>)
    returns (r: Result<Rendered, HelperError>)
    requires BaseIsText(hash)
    ensures var c := ChooseTemplate(d, exists_, hash, root);
            && (c.Err? ==> r == Err(c.error))
            && (c.Ok? ==> r == Ok(Rendered(c.value.path, IncludeContext(root, hash, globals, c.value.insideOverride))))
  {
    if !Get(hash, "src").Str? {
      return Err(SrcNotText);
    }
    var src := hash["src"].s;
    var fn := Paths.Join(BaseDir(d, hash), src);
    var insideOverride := false;
    var overrideFn := OverridePath(d, hash, src);
    if !Truthy(Get(root, "insideOverride")) && overrideFn in exists_ {
      fn := overrideFn;
      insideOverride := true;
    }
    if fn !in exists_ {
      fn := LegacyPath(d, src);
      if fn !in exists_ {
        if StartsWith(src, "../../") {
          fn := Paths.Join(d.webSrcDir, src[6..]);
          if fn !in exists_ {
            return Err(IncludeNotFound(fn));
          }
        } else {
          return Err(ReadFailed(fn));
        }
      }
    }
    var context := CopyExtras(root + HashContext(hash) + globals + map["insideOverride" := Bool(insideOverride)], hash);
    return Ok(Rendered(fn, context));
  }

  /** The loop of the `include` helper that copies every hash argument
      except `src` and `context` into the context, one key at a time. */
  method CopyExtras(base: map<string, Value>, hash: map<string, Value>) returns (context: map<string, Value>)
    ensures context == base + HashExtras(hash)
  {
    context := base;
    var keys := hash.Keys - {"src", "context"};
    ghost var done: set<string> := {};
    while keys != {}
      invariant keys + done == hash.Keys - {"src", "context"}
      invariant keys !! done
      invariant context == base + (map k | k in done :: hash[k])
      decreases keys
    {
      var key :| key in keys;
      context := context[key := hash[key]];
      keys := keys - {key};
      done := done + {key};
    }
    assert (map k | k in done :: hash[k]) == HashExtras(hash);
  }

  /** The one-hop guard: inside the rendering of an override, an include of
      any name never takes an override again, provided the override's own
      include did not pass an explicit `insideOverride` argument. */
  lemma OverrideIsSingleHop(d: HelperDirs, exists_: set<string>, hash: map<string, Value>, root: map<string, Value>,
                            globals: map<string, Value>, inner: map<string, Value>)
    requires BaseIsText(hash) && BaseIsText(inner)
    requires ChooseTemplate(d, exists_, hash, root).Ok? && ChooseTemplate(d, exists_, hash, root).value.insideOverride
    requires "insideOverride" !in hash
    requires Get(inner, "src").Str?
    ensures var ctx := IncludeContext(root, hash, globals, true);
            var r := ChooseTemplate(d, exists_, inner, ctx);
            r.Ok? ==> !r.value.insideOverride
  {
    var ctx := IncludeContext(root, hash, globals, true);
    assert Get(ctx, "insideOverride") == Bool(true);
  }

  /** The context's `insideOverride` is true exactly when the override was
      taken, unless the include passes an explicit `insideOverride` argument. */
  lemma InsideOverrideFlag(d: HelperDirs, exists_: set<string>, hash: map<string, Value>, root: map<string, Value>, globals: map<string, Value>)
    requires BaseIsText(hash)
    requires "insideOverride" !in hash
    requires Get(hash, "src").Str?
    requires ChooseTemplate(d, exists_, hash, root).Ok?
    ensures var c := ChooseTemplate(d, exists_, hash, root).value;
            var ctx := IncludeContext(root, hash, globals, c.insideOverride);
            ctx["insideOverride"] == Bool(TakesOverride(d, exists_, hash, root, Get(hash, "src").s))
  {
  }

  /** `first`: the first element (`undefined` for an empty array); throws for a non-array. */
  function First(arg: Value): (r: Result<Value, HelperError>)
    ensures !arg.Arr? <==> r == Err(NotAnArray("first"))
    ensures arg.Arr? && |arg.items| > 0 ==> r == Ok(arg.items[0])
    ensures arg.Arr? && |arg.items| == 0 ==> r == Ok(Undefined)
  {
    match arg
    case Arr(items) => Ok(if |items| > 0 then items[0] else Undefined)
    case _ => Err(NotAnArray("first"))
  }

  /** `last`: the last element (`undefined` for an empty array); throws for a non-array. */
  function Last(arg: Value): (r: Result<Value, HelperError>)
    ensures !arg.Arr? <==> r == Err(NotAnArray("last"))
    ensures arg.Arr? && |arg.items| > 0 ==> r == Ok(arg.items[|arg.items| - 1])
    ensures arg.Arr? && |arg.items| == 0 ==> r == Ok(Undefined)
  {
    match arg
    case Arr(items) => Ok(if |items| > 0 then items[|items| - 1] else Undefined)
    case _ => Err(NotAnArray("last"))
  }

  /** `len`: the length of an array, 0 for anything else. */
  function Len(arg: Value): (r: nat)
    ensures arg.Arr? ==> r == |arg.items|
    ensures !arg.Arr? ==> r == 0
  {
    match arg
    case Arr(items) => |items|
    case _ => 0
  }

  /** `empty`: true for an empty array and for anything that is not an array. */
  function Empty(arg: Value): (r: bool)
    ensures r <==> Len(arg) == 0
  {
    match arg
    case Arr(items) => |items| == 0
    case _ => true
  }

  /** A `slice` bound: negative counts from the end, clamped to `[0, len]`. */
  function SliceBound(i: int, len: nat): (r: nat)
    ensures r <= len
    ensures 0 <= i <= len ==> r == i
    ensures i < 0 && len + i >= 0 ==> r == len + i
  {
    if i < 0 then (if len + i < 0 then 0 else len + i) else if i > len then len else i
  }

  /** `items.slice(start, end)`, with `end` absent meaning the end of the array. */
  function Slice(items: seq<Value>, start: int, end: Option<int>): seq<Value>
  {
    var lo := SliceBound(start, |items|);
    var hi := if end.Some? then SliceBound(end.value, |items|) else |items|;
    if lo <= hi then items[lo..hi] else []
  }

  /** `after(arg, index, length)`: `length` elements from `index`, or all of
      them from `index` when `length` is not a number; throws for a non-array. */
  function After(arg: Value, index: int, length: Value): (r: Result<Value, HelperError>)
    ensures !arg.Arr? <==> r == Err(NotAnArray("after"))
    ensures arg.Arr? && length.Num? && 0 <= index && 0 <= length.n && index + length.n <= |arg.items| ==>
              r == Ok(Arr(arg.items[index..index + length.n]))
    ensures arg.Arr? && !length.Num? && 0 <= index <= |arg.items| ==>
              r == Ok(Arr(arg.items[index..]))
  {
    match arg
    case Arr(items) =>
      var end := if length.Num? then Some(index + length.n) else None;
      assert length.Num? && 0 <= index && 0 <= length.n && index + length.n <= |items| ==>
        Slice(items, index, end) == items[index..index + length.n];
      assert !length.Num? && 0 <= index <= |items| ==> Slice(items, index, end) == items[index..];
      Ok(Arr(Slice(items, index, end)))
    case _ => Err(NotAnArray("after"))
  }

  /** `pick(arg, index, offset)`: element `index` of the array from `offset`
      on, `undefined` when there is none; throws for a non-array. */
  function Pick(arg: Value, index: int, offset: int): (r: Result<Value, HelperError>)
    ensures !arg.Arr? <==> r == Err(NotAnArray("pick"))
    ensures arg.Arr? && 0 <= offset && 0 <= index && offset + index < |arg.items| ==>
              r == Ok(arg.items[offset + index])
    ensures arg.Arr? && 0 <= offset <= |arg.items| && (index < 0 || offset + index >= |arg.items|) ==>
              r == Ok(Undefined)
  {
    match arg
    case Arr(items) =>
      var rest := Slice(items, offset, None);
      Ok(if 0 <= index < |rest| then rest[index] else Undefined)
    case _ => Err(NotAnArray("pick"))
  }

  /** An operand of `add`/`subtract`, as JavaScript's `isNaN` sees it: a number,
      text that reads as the number `n` (`"3"`, `""` reads as 0), `null` (reads
      as 0), a boolean (reads as 0 or 1), or anything `isNaN` rejects. */
  datatype Operand = Number(n: int) | NumericText(text: string, n: int) | NullValue | Boolean(b: bool) | NaN

  /** The number JavaScript's `-` (and `+` without text) reads from an operand. */
  function ToNumber(v: Operand): int
    requires !v.NaN?
  {
    match v
    case Number(n) => n
    case NumericText(_, n) => n
    case NullValue => 0
    case Boolean(b) => if b then 1 else 0
  }

  /** An integer as JavaScript writes it: digits after a `-` when negative. */
  function IntToString(n: int): string
  {
    if n < 0 then "-" + NatToString(-n) else NatToString(n)
  }

  /** The text JavaScript's `+` reads from an operand when the other is text. */
  function ToText(v: Operand): string
    requires !v.NaN?
  {
    match v
    case Number(n) => IntToString(n)
    case NumericText(t, _) => t
    case NullValue => "null"
    case Boolean(b) => if b then "true" else "false"
  }

  /** What `+` yields: a number, or text when either operand is text. */
  datatype Sum = NumberSum(n: int) | TextSum(s: string)

  /** `add`: `v1 + v2` after the `isNaN` guard; throws when either operand is not
      a number, concatenates when either is text, adds otherwise. */
  function Add(v1: Operand, v2: Operand): (r: Result<Sum, HelperError>)
    ensures r.Ok? <==> !v1.NaN? && !v2.NaN?
    ensures r.Err? ==> r.error == NotANumber
    ensures r.Ok? && (v1.NumericText? || v2.NumericText?) ==>
              r.value == TextSum(ToText(v1) + ToText(v2))
    ensures r.Ok? && !v1.NumericText? && !v2.NumericText? ==>
              r.value.NumberSum? && r.value.n - ToNumber(v2) == ToNumber(v1)
  {
    if v1.NaN? || v2.NaN? then Err(NotANumber)
    else if v1.NumericText? || v2.NumericText? then Ok(TextSum(ToText(v1) + ToText(v2)))
    else Ok(NumberSum(ToNumber(v1) + ToNumber(v2)))
  }

  /** `subtract`: `v1 - v2` after the `isNaN` guard; throws when either operand is
      not a number, and reads text as the number it holds. */
  function Subtract(v1: Operand, v2: Operand): (r: Result<int, HelperError>)
    ensures r.Ok? <==> !v1.NaN? && !v2.NaN?
    ensures r.Err? ==> r.error == NotANumber
    ensures r.Ok? ==> r.value + ToNumber(v2) == ToNumber(v1)
  {
    if v1.NaN? || v2.NaN? then Err(NotANumber) else Ok(ToNumber(v1) - ToNumber(v2))
  }

  /** `add` and `subtract` are not inverse once text is involved: `+` joins the
      text `"3"` and the number 4 into `"34"` while `-` reads `"5"` as 5. */
  lemma TextAddsAsText()
    ensures Add(NumericText("3", 3), Number(4)) == Ok(TextSum("34"))
    ensures Subtract(NumericText("5", 5), Number(2)) == Ok(3)
    ensures Add(NullValue, Boolean(true)) == Ok(NumberSum(1))
  {
    assert ToText(Number(4)) == "4";
    assert ToText(NumericText("3", 3)) + ToText(Number(4)) == "34";
  }

  datatype Person = Person(firstName: string, lastName: string)

  function FullName(p: Person): string
  {
    p.firstName + " " + p.lastName
  }

  /** `author(changelog)`: every author's first and last name, joined by
      `" and "`; the empty string when there is no author list. */
  function Author(authors: Option<seq<Person>>): (r: string)
    ensures authors.None? ==> r == ""
    ensures authors.Some? ==> r == Join(Names(authors.value), " and ")
  {
    match authors
    case None => ""
    case Some(people) => Join(Names(people), " and ")
  }

  function Names(people: seq<Person>): (names: seq<string>)
    ensures |names| == |people|
    ensures forall k :: 0 <= k < |people| ==> names[k] == FullName(people[k])
  {
    seq(|people|, k requires 0 <= k < |people| => FullName(people[k]))
  }

  /** One more author appends `" and "` and that author's name; a single author is just the name. */
  lemma AuthorAppend(people: seq<Person>, p: Person)
    ensures |people| == 0 ==> Author(Some(people + [p])) == FullName(p)
    ensures |people| > 0 ==> Author(Some(people + [p])) == Author(Some(people)) + " and " + FullName(p)
  {
    assert Names(people + [p]) == Names(people) + [FullName(p)];
    if |people| > 0 {
      JoinAppend(Names(people), FullName(p), " and ");
    }
  }
}

=== FILE: search.dfy ===
/** The pure helpers of the search page in src/web/global.js: reading a
    query parameter from the page URL, the list of tag filters that the
    page adds to and removes from, and the filter expression sent to the
    search index. The DOM, the search service and navigation itself are
    left out; a navigation is returned as a value. */
module SearchPage {
  import opened Wrappers
  import opened Strings

  /** The result of `getSearchParamByName`: `null`, `""`, or the decoded value. */
  datatype Param = Missing | Empty | Value(text: string)

  /** The pattern `[?&]name(=…|&|#|$)` matches at position `p`: a `?` or `&`,
      the name, then `=`, `&`, `#` or the end of the URL. */
  predicate MatchAt(url: string, name: string, p: int)
  {
    var j := p + 1 + |name|;
    && 0 <= p && j <= |url|
    && (url[p] == '?' || url[p] == '&')
    && url[p + 1..j] == name
    && (j == |url| || url[j] == '=' || url[j] == '&' || url[j] == '#')
  }

  /** The leftmost match at or after `from`. */
  function FindParam(url: string, name: string, from: nat): (r: Option<nat>)
    ensures r.Some? ==> from <= r.value && MatchAt(url, name, r.value)
    ensures r.Some? ==> forall p :: from <= p < r.value ==> !MatchAt(url, name, p)
    ensures r.None? ==> forall p :: from <= p ==> !MatchAt(url, name, p)
    decreases |url| - from
  {
    if from >= |url| then None
    else if MatchAt(url, name, from) then Some(from)
    else FindParam(url, name, from + 1)
  }

  /** The longest run of characters from `i` on holding neither `&` nor `#`: the `([^&#]*)` group. */
  function RunFrom(url: string, i: nat): (v: string)
    requires i <= |url|
    ensures i + |v| <= |url| && v == url[i..i + |v|]
    ensures forall k :: 0 <= k < |v| ==> v[k] != '&' && v[k] != '#'
    ensures i + |v| == |url| || url[i + |v|] == '&' || url[i + |v|] == '#'
    decreases |url| - i
  {
    if i == |url| || url[i] == '&' || url[i] == '#' then ""
    else [url[i]] + RunFrom(url, i + 1)
  }

  /** `s.replace(/\+/g, " ")`. */
  function PlusToSpace(s: string): (r: string)
    ensures |r| == |s|
    ensures forall k :: 0 <= k < |s| ==> r[k] == if s[k] == '+' then ' ' else s[k]
  {
    seq(|s|, k requires 0 <= k < |s| => if s[k] == '+' then ' ' else s[k])
  }

  /** `getSearchParamByName(name, url)`: `null` without a match; `""` when the
      leftmost match has no `=` or an empty value; otherwise the value with
      `+` read as a space and then URI-decoded by `decode`. */
  function GetSearchParamByName(name: string, url: string, decode: string -> string): (r: Param)
    ensures r.Missing? <==> forall p :: !MatchAt(url, name, p)
    ensures r.Value? ==> exists p :: MatchAt(url, name, p)
    ensures var m := FindParam(url, name, 0);
            r.Empty? <==> m.Some? && var j := m.value + 1 + |name|;
                                     j == |url| || url[j] != '=' || RunFrom(url, j + 1) == ""
    ensures var m := FindParam(url, name, 0);
            r.Value? ==> m.Some? && var j := m.value + 1 + |name|;
                                    && j < |url| && url[j] == '='
                                    && RunFrom(url, j + 1) != ""
                                    && r.text == decode(PlusToSpace(RunFrom(url, j + 1)))
  {
    match FindParam(url, name, 0)
    case None => Missing
    case Some(p) =>
      var j := p + 1 + |name|;
      if j < |url| && url[j] == '=' then
        var v := RunFrom(url, j + 1);
        if v == "" then Empty else Value(decode(PlusToSpace(v)))
      else Empty
  }

  /** Reading back a parameter: with no `?` or `&` before it, `?name=v`
      followed by the end of the URL or another parameter or a fragment
      yields `v`, decoded. */
  lemma {:induction false} ReadsBackValue(base: string, name: string, v: string, rest: string, decode: string -> string)
    requires forall k :: 0 <= k < |base| ==> base[k] != '?' && base[k] != '&'
    requires v != "" && forall k :: 0 <= k < |v| ==> v[k] != '&' && v[k] != '#'
    requires rest == "" || rest[0] == '&' || rest[0] == '#'
    ensures GetSearchParamByName(name, base + "?" + name + "=" + v + rest, decode) == Value(decode(PlusToSpace(v)))
  {
    var url := base + "?" + name + "=" + v + rest;
    var j := |base| + 1 + |name|;
    ParamAfterBase(base, name, v, rest);
    ValueAtMatch(url, name, |base|, v, rest, decode);
  }

  /** Helper: a leftmost match whose `=` is followed by a non-empty value `v` and
      then the end, another parameter or a fragment reads as `v`, decoded. */
  lemma {:induction false} ValueAtMatch(url: string, name: string, p: nat, v: string, rest: string, decode: string -> string)
    requires FindParam(url, name, 0) == Some(p)
    requires p + 1 + |name| < |url| && url[p + 1 + |name|] == '='
    requires url[p + 1 + |name| + 1..] == v + rest
    requires v != "" && forall k :: 0 <= k < |v| ==> v[k] != '&' && v[k] != '#'
    requires rest == "" || rest[0] == '&' || rest[0] == '#'
    ensures GetSearchParamByName(name, url, decode) == Value(decode(PlusToSpace(v)))
  {
    RunReadsValue(url, p + 1 + |name| + 1, v, rest);
    var r := GetSearchParamByName(name, url, decode);
    assert MatchAt(url, name, p);
    assert !r.Missing?;
  }

  /** Helper: in `base?name=v` followed by `rest`, with no `?` or `&` in `base`,
      the leftmost match is the one right after `base`, and `v + rest` follows its `=`. */
  lemma {:induction false} ParamAfterBase(base: string, name: string, v: string, rest: string)
    requires forall k :: 0 <= k < |base| ==> base[k] != '?' && base[k] != '&'
    ensures var url := base + "?" + name + "=" + v + rest; var j := |base| + 1 + |name|;
            && FindParam(url, name, 0) == Some(|base|)
            && j < |url| && url[j] == '=' && url[j + 1..] == v + rest
  {
    var url := base + "?" + name + "=" + v + rest;
    var p := |base|;
    var j := p + 1 + |name|;
    assert url[p] == '?';
    assert url[p + 1..j] == name;
    assert url[j] == '=';
    assert url[j + 1..] == v + rest;
    assert MatchAt(url, name, p);
    forall q | 0 <= q < p
      ensures !MatchAt(url, name, q)
    {
      assert url[q] == base[q];
    }
    NoMatchBefore(url, name, p);
  }

  /** A parameter after another one is read too. */
  lemma LaterParam(decode: string -> string)
    ensures GetSearchParamByName("term", "/search?a=1&term=x", decode) == Value(decode("x"))
  {
    var url := "/search?a=1&term=x";
    assert MatchAt(url, "term", 11);
    forall q | 0 <= q < 11
      ensures !MatchAt(url, "term", q)
    {
      if q == 7 { assert url[8..12] != "term" by { assert url[8] != 't'; } }
      else { assert url[q] != '?' && url[q] != '&'; }
    }
    NoMatchBefore(url, "term", 11);
    RunReadsValue(url, 17, "x", "");
    assert PlusToSpace("x") == "x";
  }

  /** A name without `=` reads as the empty text. */
  lemma NameWithoutValue(decode: string -> string)
    ensures GetSearchParamByName("term", "/search?term", decode) == Empty
  {
    var url := "/search?term";
    assert MatchAt(url, "term", 7);
    forall q | 0 <= q < 7
      ensures !MatchAt(url, "term", q)
    {
      assert url[q] != '?' && url[q] != '&';
    }
    NoMatchBefore(url, "term", 7);
  }

  /** A name with nothing after `=` reads as the empty text. */
  lemma EmptyValue(decode: string -> string)
    ensures GetSearchParamByName("term", "/search?term=&a=1", decode) == Empty
  {
    var url := "/search?term=&a=1";
    assert MatchAt(url, "term", 7);
    forall q | 0 <= q < 7
      ensures !MatchAt(url, "term", q)
    {
      assert url[q] != '?' && url[q] != '&';
    }
    NoMatchBefore(url, "term", 7);
    RunReadsValue(url, 13, "", "&a=1");
  }

  /** Helper: with no match before `p` and one at `p`, the leftmost is `p`. */
  lemma {:induction false} NoMatchBefore(url: string, name: string, p: nat)
    requires p < |url| && MatchAt(url, name, p)
    requires forall q :: 0 <= q < p ==> !MatchAt(url, name, q)
    ensures FindParam(url, name, 0) == Some(p)
  {
    var r := FindParam(url, name, 0);
    assert r.Some?;
  }

  /** Helper: the run from the start of `v` is exactly `v` when `rest` starts with a stop character or is empty. */
  lemma {:induction false} RunReadsValue(url: string, i: nat, v: string, rest: string)
    requires i + |v| + |rest| == |url| && url[i..] == v + rest
    requires forall k :: 0 <= k < |v| ==> v[k] != '&' && v[k] != '#'
    requires rest == "" || rest[0] == '&' || rest[0] == '#'
    ensures RunFrom(url, i) == v
    decreases |v|
  {
    if |v| > 0 {
      assert url[i] == v[0];
      assert url[i + 1..] == v[1..] + rest;
      RunReadsValue(url, i + 1, v[1..], rest);
      assert v == [v[0]] + v[1..];
    } else {
      assert i == |url| || url[i] == rest[0];
    }
  }

  /** `getSearchTerm()`: the `term` parameter, or the empty text when it is absent or empty. */
  function SearchTerm(url: string, decode: string -> string): (term: string)
    ensures GetSearchParamByName("term", url, decode).Value? ==> term == GetSearchParamByName("term", url, decode).text
    ensures !GetSearchParamByName("term", url, decode).Value? ==> term == ""
  {
    match GetSearchParamByName("term", url, decode)
    case Value(t) => t
    case _ => ""
  }

  /** The page `navigateToSearchTerm(term)` goes to: `/search`, with `?term=` when the term is not empty. */
  function SearchTermUrl(origin: string, term: string): string
  {
    origin + "/search" + (if term != "" then "?term=" + term else "")
  }

  /** The search page reads back the term it was sent to, with `+` read as a
      space and URI-decoded, when the origin holds no `?` or `&` and the term
      no `&` or `#`. */
  lemma {:induction false} SearchTermRoundTrip(origin: string, term: string, decode: string -> string)
    requires forall k :: 0 <= k < |origin| ==> origin[k] != '?' && origin[k] != '&'
    requires forall k :: 0 <= k < |term| ==> term[k] != '&' && term[k] != '#'
    ensures term == "" ==> SearchTerm(SearchTermUrl(origin, term), decode) == ""
    ensures term != "" ==> SearchTerm(SearchTermUrl(origin, term), decode) == decode(PlusToSpace(term))
  {
    var base := origin + "/search";
    assert forall k :: 0 <= k < |base| ==> base[k] != '?' && base[k] != '&' by {
      forall k | 0 <= k < |base|
        ensures base[k] != '?' && base[k] != '&'
      {
        if k >= |origin| { assert base[k] == "/search"[k - |origin|]; }
      }
    }
    if term == "" {
      assert SearchTermUrl(origin, term) == base;
      forall p
        ensures !MatchAt(base, "term", p)
      {
        if 0 <= p < |base| { assert base[p] != '?' && base[p] != '&'; }
      }
    } else {
      assert SearchTermUrl(origin, term) == base + "?" + "term" + "=" + term + "";
      ReadsBackValue(base, "term", term, "", decode);
    }
  }

  /** A tag filter: the tag name `t` and the colours its button is drawn with. */
  datatype Filter = Filter(t: string, bg: string, c: string, b: string)

  /** `filters.findIndex(f => f.t === t)`. */
  function FindTag(filters: seq<Filter>, t: string): (r: Option<nat>)
    ensures r.Some? ==> r.value < |filters| && filters[r.value].t == t
    ensures r.Some? ==> forall k :: 0 <= k < r.value ==> filters[k].t != t
    ensures r.None? <==> forall k :: 0 <= k < |filters| ==> filters[k].t != t
    decreases |filters|
  {
    if |filters| == 0 then None
    else if filters[0].t == t then Some(0)
    else match FindTag(filters[1..], t)
      case None => None
      case Some(i) => Some(i + 1)
  }

  /** No two filters share a tag name. */
  predicate UniqueTags(filters: seq<Filter>)
  {
    forall i, j :: 0 <= i < j < |filters| ==> filters[i].t != filters[j].t
  }

  /** Where the page goes after a change: nowhere, out of filtering, or to the new filter list. */
  datatype Navigation = Stay | ExitFiltering | Navigate(filters: seq<Filter>)

  /** `addFilterToQuery`: append the filter unless one with its tag is already there. */
  function AddFilter(filters: seq<Filter>, f: Filter): (r: (seq<Filter>, Navigation))
    ensures FindTag(filters, f.t).Some? ==> r == (filters, Stay)
    ensures FindTag(filters, f.t).None? ==> r.0 == filters + [f] && r.1 == Navigate(r.0)
  {
    if FindTag(filters, f.t).None? then (filters + [f], Navigate(filters + [f])) else (filters, Stay)
  }

  /** `removeFilterFromQuery`: nothing when no filter has the tag; leave
      filtering (without removing) when it is the only filter; otherwise
      remove exactly that filter. */
  function RemoveFilter(filters: seq<Filter>, f: Filter): (r: (seq<Filter>, Navigation))
    ensures FindTag(filters, f.t).None? ==> r == (filters, Stay)
    ensures FindTag(filters, f.t).Some? && |filters| == 1 ==> r == (filters, ExitFiltering)
    ensures FindTag(filters, f.t).Some? && |filters| > 1 ==>
              var i := FindTag(filters, f.t).value;
              |r.0| == |filters| - 1 && r.0 == filters[..i] + filters[i + 1..] && r.1 == Navigate(r.0)
  {
    match FindTag(filters, f.t)
    case None => (filters, Stay)
    case Some(i) =>
      if |filters| == 1 then (filters, ExitFiltering)
      else (filters[..i] + filters[i + 1..], Navigate(filters[..i] + filters[i + 1..]))
  }

  /** Adding keeps tag names unique. */
  lemma AddKeepsUnique(filters: seq<Filter>, f: Filter)
    requires UniqueTags(filters)
    ensures UniqueTags(AddFilter(filters, f).0)
  {
  }

  /** Removing keeps tag names unique, and the removed tag is gone. */
  lemma RemoveKeepsUnique(filters: seq<Filter>, f: Filter)
    requires UniqueTags(filters)
    ensures UniqueTags(RemoveFilter(filters, f).0)
    ensures |filters| > 1 ==> forall k :: 0 <= k < |RemoveFilter(filters, f).0| ==> RemoveFilter(filters, f).0[k].t != f.t
  {
    var r := RemoveFilter(filters, f).0;
    match FindTag(filters, f.t)
    case None =>
    case Some(i) =>
      if |filters| > 1 {
        forall a, b | 0 <= a < b < |r|
          ensures r[a].t != r[b].t
        {
          var a' := if a < i then a else a + 1;
          var b' := if b < i then b else b + 1;
          assert r[a] == filters[a'] && r[b] == filters[b'];
        }
        forall k | 0 <= k < |r|
          ensures r[k].t != f.t
        {
          var k' := if k < i then k else k + 1;
          assert r[k] == filters[k'];
        }
      }
  }

  /** Removing a filter just added gives the list back, unless it was the only one. */
  lemma RemoveUndoesAdd(filters: seq<Filter>, f: Filter)
    requires FindTag(filters, f.t).None?
    requires |filters| > 0
    ensures RemoveFilter(AddFilter(filters, f).0, f).0 == filters
  {
    var added := filters + [f];
    assert FindTag(added, f.t) == Some(|filters|) by {
      assert added[|filters|].t == f.t;
      assert forall k :: 0 <= k < |filters| ==> added[k].t != f.t;
    }
    assert added[..|filters|] + added[|filters| + 1..] == filters;
  }

  /** The filter list of the search page, changed in place by the two helpers. */
  class FilterList {
    var filters: seq<Filter>

    constructor (filters: seq<Filter>)
      ensures this.filters == filters
    {
      this.filters := filters;
    }

    /** `addFilterToQuery`: `push` when the tag is new. */
    method Add(f: Filter) returns (nav: Navigation)
      modifies this
      ensures (filters, nav) == AddFilter(old(filters), f)
    {
      var idx := FindTag(filters, f.t);
      if idx.None? {
        filters := filters + [f];
        return Navigate(filters);
      }
      return Stay;
    }

    /** `removeFilterFromQuery`: `splice(idx, 1)` unless it is the last filter. */
    method Remove(f: Filter) returns (nav: Navigation)
      modifies this
      ensures (filters, nav) == RemoveFilter(old(filters), f)
    {
      var idx := FindTag(filters, f.t);
      if idx.Some? {
        if |filters| == 1 {
          return ExitFiltering;
        }
        filters := filters[..idx.value] + filters[idx.value + 1..];
        return Navigate(filters);
      }
      return Stay;
    }
  }

  /** One `tags:"t"` term per filter, in list order. */
  function TagTerms(filters: seq<Filter>): (terms: seq<string>)
    ensures |terms| == |filters|
    ensures forall k :: 0 <= k < |filters| ==> terms[k] == "tags:\"" + filters[k].t + "\""
  {
    seq(|filters|, k requires 0 <= k < |filters| => "tags:\"" + filters[k].t + "\"")
  }

  /** The filter expression for the search index: the site, then, when
      there are filters, ` AND ` and the tag terms joined by ` AND `. */
  function SearchQuery(siteId: string, filters: seq<Filter>): (q: string)
    ensures |filters| == 0 ==> q == "site_id:\"" + siteId + "\" "
    ensures StartsWith(q, "site_id:\"" + siteId + "\" ")
  {
    "site_id:\"" + siteId + "\" " + (if |filters| > 0 then " AND " + Join(TagTerms(filters), " AND ") else "")
  }

  /** One more filter appends ` AND tags:"t"`; the first one ` AND tags:"t"` after the site term. */
  lemma SearchQueryAppend(siteId: string, filters: seq<Filter>, f: Filter)
    ensures |filters| == 0 ==> SearchQuery(siteId, [f]) == SearchQuery(siteId, []) + " AND " + "tags:\"" + f.t + "\""
    ensures |filters| > 0 ==> SearchQuery(siteId, filters + [f]) == SearchQuery(siteId, filters) + " AND " + "tags:\"" + f.t + "\""
  {
    assert TagTerms(filters + [f]) == TagTerms(filters) + ["tags:\"" + f.t + "\""];
    if |filters| > 0 {
      JoinAppend(TagTerms(filters), "tags:\"" + f.t + "\"", " AND ");
    }
  }
}

=== FILE: util.dfy ===
/** The helpers of src/js/util.mjs that carry decisions: the `findBin`
    search, the validation and shaping of an API response, `ensureDir` on a
    file system that holds a set of paths, the verdict of a finished child
    process, and the gating of the two log helpers. Fetching, spawning and
    printing are left to the caller: their outcomes are parameters here. */
module Util {
  import opened Wrappers
  import opened Strings
  import opened Json
  import Paths

  /** `node_modules[c]/.bin/name`. */
  function BinPath(nodeModules: string, name: string): string
  {
    Paths.Join(Paths.Join(nodeModules, ".bin"), name)
  }

  /** The paths `findBin` tries, in the order of the `node_modules` list. */
  function BinCandidates(nodeModules: seq<string>, name: string): (c: seq<string>)
    ensures |c| == |nodeModules|
    ensures forall k :: 0 <= k < |nodeModules| ==> c[k] == BinPath(nodeModules[k], name)
  {
    seq(|nodeModules|, k requires 0 <= k < |nodeModules| => BinPath(nodeModules[k], name))
  }

  /** The message `findBin` throws when no directory holds the binary. */
  function BinNotFound(name: string, nodeModules: seq<string>): string
  {
    "couldn't find binary " + name + " in any of " + Join(nodeModules, ", ")
  }

  /** `findBin(name)`: the binary in the first `node_modules` directory, in
      list order, that holds it; an error naming every directory when none does. */
  method FindBin(nodeModules: seq<string>, exists_: set<string>, name: string) returns (r: Result<string, string>)
    ensures var c := BinCandidates(nodeModules, name);
            var found := Paths.FirstPresent(c, exists_);
            && (found.Some? ==> r == Ok(c[found.value]))
            && (found.None? ==> r == Err(BinNotFound(name, nodeModules)))
  {
    ghost var cands := BinCandidates(nodeModules, name);
    for c := 0 to |nodeModules|
      invariant forall k :: 0 <= k < c ==> cands[k] !in exists_
    {
      var fn := Paths.Join(Paths.Join(nodeModules[c], ".bin"), name);
      if fn in exists_ {
        return Ok(fn);
      }
    }
    return Err(BinNotFound(name, nodeModules));
  }

  /** The URL `apiRequest` fetches. */
  function ApiUrl(host: string, path: string): string
  {
    "https://" + host + path
  }

  /** Why `apiRequest` throws: the server's `message`, or a default naming the path. */
  datatype ApiError = ServerMessage(message: Value) | InvalidResponse(text: string)

  /** The checks `apiRequest` makes of a decoded response object: the status
      must be 200 and `success` truthy; on success the object comes back
      without its `success` key. */
  function ApiRequest(status: int, value: map<string, Value>, path: string): (r: Result<map<string, Value>, ApiError>)
    ensures r.Ok? <==> status == 200 && Truthy(Get(value, "success"))
    ensures r.Ok? ==> r.value.Keys == value.Keys - {"success"}
    ensures r.Ok? ==> forall k :: k in r.value ==> r.value[k] == value[k]
    ensures r.Err? && Truthy(Get(value, "message")) ==> r.error == ServerMessage(value["message"])
    ensures r.Err? && !Truthy(Get(value, "message")) ==>
              r.error == InvalidResponse("invalid response from server at " + path)
  {
    if status != 200 || !Truthy(Get(value, "success")) then
      Err(if Truthy(Get(value, "message")) then ServerMessage(value["message"])
          else InvalidResponse("invalid response from server at " + path))
    else Ok(value - {"success"})
  }

  /** Only `success` is dropped: putting it back gives the server's object. */
  lemma ApiRequestDropsOnlySuccess(status: int, value: map<string, Value>, path: string)
    requires ApiRequest(status, value, path).Ok?
    ensures ApiRequest(status, value, path).value["success" := value["success"]] == value
  {
    var rest := ApiRequest(status, value, path).value;
    assert rest["success" := value["success"]].Keys == value.Keys;
  }

  /** The directory a path sits in, when it has one to create first. */
  function Parent(p: string): (r: Option<string>)
    ensures r.Some? ==> |r.value| < |p|
  {
    match Paths.LastIndexOf(p, '/')
    case Some(i) => if i > 0 then Some(p[..i]) else None
    case None => None
  }

  /** The directories `mkdir -p dir` makes sure of: the directory and every ancestor. */
  function Ancestors(dir: string): (r: set<string>)
    ensures dir in r
    decreases |dir|
  {
    match Parent(dir)
    case None => {dir}
    case Some(p) => {dir} + Ancestors(p)
  }

  /** Every path's parent directory exists too. */
  predicate ParentClosed(paths: set<string>)
  {
    forall p :: p in paths && Parent(p).Some? ==> Parent(p).value in paths
  }

  /** The paths present after `ensureDir(dir)`: nothing changes when `dir`
      exists, otherwise it is created along with its missing ancestors. */
  function EnsureDirSpec(paths: set<string>, dir: string): (r: set<string>)
    ensures dir in r && paths <= r
    ensures dir in paths ==> r == paths
    ensures r <= paths + Ancestors(dir)
  {
    if dir in paths then paths else paths + Ancestors(dir)
  }

  lemma {:induction false} AncestorsClosed(dir: string)
    ensures ParentClosed(Ancestors(dir))
    decreases |dir|
  {
    match Parent(dir)
    case None =>
    case Some(p) =>
      AncestorsClosed(p);
  }

  /** `ensureDir` keeps a file system in which every path's parent exists in that shape. */
  lemma EnsureDirKeepsParentsClosed(paths: set<string>, dir: string)
    requires ParentClosed(paths)
    ensures ParentClosed(EnsureDirSpec(paths, dir))
  {
    AncestorsClosed(dir);
  }

  /** Calling `ensureDir` twice is the same as calling it once. */
  lemma EnsureDirIdempotent(paths: set<string>, dir: string)
    ensures EnsureDirSpec(EnsureDirSpec(paths, dir), dir) == EnsureDirSpec(paths, dir)
  {
  }

  /** The paths of a file system, changed in place by `ensureDir`. */
  class FileSystem {
    var paths: set<string>

    constructor (paths: set<string>)
      ensures this.paths == paths
    {
      this.paths := paths;
    }

    method EnsureDir(dir: string)
      modifies this
      ensures paths == EnsureDirSpec(old(paths), dir)
    {
      if dir !in paths {
        paths := paths + Ancestors(dir);
      }
    }
  }

  /** The command line `exec` runs: the binary, a space, the arguments joined by spaces. */
  function Command(fn: string, args: seq<string>): string
  {
    fn + " " + Join(args, " ")
  }

  /** Each further argument adds a space and the argument. */
  lemma CommandAppend(fn: string, args: seq<string>, arg: string)
    requires |args| > 0
    ensures Command(fn, args + [arg]) == Command(fn, args) + " " + arg
  {
    JoinAppend(args, arg, " ");
  }

  datatype ExecError = ProcessFailed(err: string) | WroteStderr(stderr: string)

  /** How `exec` settles once the process ends: it rejects on a process error,
      then on any output to stderr, and otherwise resolves with stdout. */
  function ExecResult(err: Option<string>, stdout: string, stderr: string): (r: Result<string, ExecError>)
    ensures r.Ok? <==> err.None? && |stderr| == 0
    ensures r.Ok? ==> r.value == stdout
    ensures err.Some? ==> r == Err(ProcessFailed(err.value))
    ensures err.None? && |stderr| > 0 ==> r == Err(WroteStderr(stderr))
  {
    if err.Some? then Err(ProcessFailed(err.value))
    else if |stderr| > 0 then Err(WroteStderr(stderr))
    else Ok(stdout)
  }

  /** What `debugLog` prints, if anything: nothing unless `debug`; otherwise
      the marked message, followed by the serialised object when the object
      is truthy and serialises to a non-empty text. */
  function DebugLog(debug: bool, msg: string, o: Value, stringify: Value -> string): (r: Option<seq<string>>)
    ensures r.None? <==> !debug
    ensures r.Some? ==> 1 <= |r.value| <= 2 && r.value[0] == "\U{1F6A7}  " + msg
    ensures r.Some? ==> (|r.value| == 2 <==> Truthy(o) && stringify(o) != "")
    ensures r.Some? && |r.value| == 2 ==> r.value[1] == stringify(o)
  {
    if !debug then None
    else Some(["\U{1F6A7}  " + msg] + (if Truthy(o) && stringify(o) != "" then [stringify(o)] else []))
  }

  /** What `verbose` prints: nothing when `quiet`, otherwise the marked message. */
  function Verbose(quiet: bool, msg: string): (r: Option<string>)
    ensures r.None? <==> quiet
    ensures r.Some? ==> r.value == "\U{2705}   " + msg
  {
    if quiet then None else Some("\U{2705}   " + msg)
  }
}
